=== FILE: README.md ===
# StreamElf live-assistant teleprompter: a Dafny model

StreamElf's live dashboard shows a product's sales script as a teleprompter.
Sentences are cut from the generated script and split into words. A cursor
`(sentence, word)` follows the presenter's voice: every speech-recognition
transcript is fuzzily matched against the words ahead of the cursor. When
the reader seems to have jumped elsewhere, the whole script is searched for
the sentence being read. A stall timer and a fixed-pace timer mode keep the
cursor moving. A floating window mirrors the script and cursor, and the
build configuration reads the DeepSeek API key from `.env.local`.

The project models that core as pure functions and proves what the source
promises about it:

- `base.dfy`, `text.dfy`: `Option`, and the JavaScript string operations the
  source relies on: `trim` over the `\s` class, `toLowerCase`, the
  punctuation class, white-space tokens, and `split`/`join`.
- `segmenter.dfy`: both `chunkTextIntoSentences`. The dashboard one keeps
  the closing delimiters; the floating one splits them off. It also holds the
  script (sentences plus word lists) and the placeholder script.
- `edit_distance.dfy`: the Levenshtein recurrence and the row-by-row method
  that computes it.
- `similarity.dfy`: `calculateWordSimilarity` (stem, containment, prefix,
  sound-alike and edit-distance stages) and `calculateSentenceSimilarity`.
- `jump_search.dfy`: `findMatchingSentence`.
- `matcher.dfy`: the word-matching stages of `handleTranscriptionResult`
  and its decision on the new word index.
- `prompter.dfy`: the dashboard as a state machine. Events are the
  transcript handler, navigation, the stall timer, the timer-mode tick and
  loading a product's script, with the auto-start effect that follows it. `Date.now()` is a parameter `now`.
- `floating.dfy`: the floating window's update listener and its fallback
  script.
- `font_size.dfy`: the font-size buttons of both windows.
- `env_config.dfy`: `loadEnvLocal`, the environment merge and the API-key
  check.

Two behaviours of the transcript handler shape the state machine:

- Completion is decided by `bestMatchIndex >= words.length`
  (components/LiveDashboard.tsx:1364). A transcript that reads a sentence to
  its end therefore leaves the cursor on the next sentence's first word,
  never on the sentence's end.
- The jump path and the boundary path call `goToSentence` and return
  without writing `lastMatchTimeRef`. Only the advance and the anti-stall
  step record the time of the last match.

The handler reads the cursor through `activeWordIndexRef`. The model keeps
that ref as the state field `wordRef`. The handler's advance writes it
directly (components/LiveDashboard.tsx:1303). The effect on
`activeWordIndex` copies the committed word into it, but only when the
committed word changed (components/LiveDashboard.tsx:104-106). So after a
transcript that completes a sentence from its first word, the shown word is
0 again and the ref still holds the matched index. The next transcript and
the stall callback count from there. Prompter.Step applies one event
followed by that commit.

The speech-recognition callback is created by an effect keyed only on the
running flag and the mode (components/LiveDashboard.tsx:1372, 1733). Its
handler reads the cursor and the script through refs, but the
`goToSentence` and `goToNextSentence` it calls are closures over the state
of the render that created it (components/LiveDashboard.tsx:169-172,
205-214). Prompter.Handle navigates over the current script.
Prompter.HandleOver is the callback as written, navigating over the script
of an earlier render, and "## Findings" records where the two part.

## Model

| member | source | states |
|---|---|---|
| Text.Lower | components/LiveDashboard.tsx:783-784 | no capital is left; each capital becomes the small letter at the same place in the alphabet, every other character stays where it was, and the length is kept |
| Text.LowerIdempotent | components/LiveDashboard.tsx:783-784 | lower-casing twice is lower-casing once |
| Text.LowerAppend | components/LiveDashboard.tsx:783-784 | lower-casing works character by character, so it distributes over concatenation |
| Text.Trim | components/LiveDashboard.tsx:29 | the result is the slice of the input between a blank head and a blank tail, has no surrounding white space of its own, and is empty exactly when the input is blank |
| Text.TrimNoop | components/LiveDashboard.tsx:29 | trimming text that has no surrounding white space changes nothing |
| Text.TrimKeepsClasses | components/LiveDashboard.tsx:1027-1032 | trimming adds no capital and no punctuation mark |
| Text.Tokens | components/LiveDashboard.tsx:379 | `match(/\S+/g) \|\| []` gives non-empty tokens free of white space, made of the sentence's characters; none exactly when the sentence is blank, and a sentence without white space is its own single token |
| Text.TokensKeepText | components/LiveDashboard.tsx:379 | the tokens glued together are the sentence with its white space removed: no visible character is lost or reordered |
| Text.TokensAtSpace | components/LiveDashboard.tsx:379 | no token spans a white-space character: the tokens around one are the tokens of each side, in order |
| Text.TokenClasses | components/LiveDashboard.tsx:1035-1038 | tokens hold no capital or punctuation mark that the text lacks |
| Text.PunctToSpace | components/LiveDashboard.tsx:1035-1038 | each punctuation mark of the source's class becomes a space and every other character stays in place, so no mark is left; text without marks is unchanged |
| Text.PunctToSpaceAppend | components/LiveDashboard.tsx:1035-1038 | replacing marks works character by character, so it distributes over concatenation |
| Text.SqueezePunctToSpace | components/LiveDashboard.tsx:1029-1038 | once white space is ignored, turning marks into spaces (as the transcript is cleaned) and erasing them (as script words are cleaned) leave the same text |
| Text.StripPunct | components/LiveDashboard.tsx:1027-1032 | no punctuation mark is left and only characters of the input remain; text without marks is kept whole, text of marks only vanishes |
| Text.StripPunctAppend | components/LiveDashboard.tsx:1027-1032 | erasing marks works character by character, so it distributes over concatenation |
| Text.SqueezeStripTrim | components/LiveDashboard.tsx:1035-1038 | trimming before erasing marks changes nothing once white space is ignored |
| Text.Split | vite.config.ts:11 | the pieces hold no separator, and there is exactly one piece when the text has no separator |
| Text.JoinSplit | vite.config.ts:14-16 | joining the pieces of a split with the same separator gives the text back |
| EditDistance.Levenshtein | components/LiveDashboard.tsx:848-877 | the row-by-row matrix computation returns the distance of the recurrence |
| EditDistance.NextRow | components/LiveDashboard.tsx:862-874 | from a correct matrix row, the next row is correct in every column |
| EditDistance.DistanceStep | components/LiveDashboard.tsx:864-871 | an inner cell copies the diagonal on equal characters, else is one more than the cheapest neighbour |
| EditDistance.DistanceZero | components/LiveDashboard.tsx:848-877 | the distance is zero exactly when the words are equal |
| EditDistance.DistanceAtMostLonger | components/LiveDashboard.tsx:817-821 | the distance never exceeds the longer length, so `1 - distance/maxLen` is not negative |
| EditDistance.DistanceAtLeastGap | components/LiveDashboard.tsx:848-877 | the distance is at least the difference of the lengths |
| EditDistance.DistanceSymmetric | components/LiveDashboard.tsx:848-877 | swapping the two words does not change the distance |
| Similarity.LongestSuffix | components/LiveDashboard.tsx:790-791 | the cut is the length of an alternative the word ends with, and no alternative it ends with is longer |
| Similarity.StemIsLeftmostMatch | components/LiveDashboard.tsx:790-791 | the leftmost match of the anchored pattern starts exactly where the stem cut starts, so the stem is the source's `replace` |
| Similarity.Stem | components/LiveDashboard.tsx:790-791 | the stem is a prefix of the word; it is the whole word exactly when the word ends in none of the suffixes, and otherwise the word less one suffix it ends in |
| Similarity.SoundsAlike | components/LiveDashboard.tsx:830-841 | the corrected sound-alike test: either word is listed under the other in the table's own entries |
| Similarity.Normal | components/LiveDashboard.tsx:783-784 | the comparison form has no capital and no surrounding white space, and a word already in that form is its own comparison form |
| Similarity.SoundsAlikeAsWritten | components/LiveDashboard.tsx:830-841 | the lookup on the object literal agrees with the table's own entries, in both directions, whenever neither word names an inherited member; it throws when the first word does |
| Similarity.ContainmentScore | components/LiveDashboard.tsx:797-803 | the containment score lies between 0.2 and 0.9 |
| Similarity.PrefixScore | components/LiveDashboard.tsx:805-814 | the prefix score lies between 0.65 and 0.8 |
| Similarity.EditScore | components/LiveDashboard.tsx:816-826 | the edit score lies in [0, 1] and is 1 exactly for equal words |
| Similarity.Cascade | components/LiveDashboard.tsx:786-844 | the cascade's score lies in [0, 1] and is 1 exactly when the two words are equal |
| Similarity.WordSimilarity | components/LiveDashboard.tsx:782-845 | the score lies in [0, 1] and is 1 exactly when the lower-cased, trimmed words agree |
| Similarity.WordSimilarityScorer | components/LiveDashboard.tsx:782-845 | word similarity is bounded by [0, 1] and scores every word 1 against itself |
| Similarity.StagesSymmetric | components/LiveDashboard.tsx:790-842 | each stage's test and score is symmetric in the two words |
| Similarity.WordSimilaritySymmetric | components/LiveDashboard.tsx:782-845 | the score does not depend on the order of the two words |
| Similarity.CascadeAsWritten | components/LiveDashboard.tsx:786-844 | with the literal-object lookup, any score the cascade yields is the corrected cascade's; it fails exactly when stages 1-4 miss and the lookup throws |
| Similarity.WordSimilarityAsWritten | components/LiveDashboard.tsx:782-845 | as written, a score is always the corrected score, and it exists whenever neither comparison form names an inherited member |
| Similarity.ConstructorThrows | components/LiveDashboard.tsx:830-841 | comparing the script word "constructor" with the spoken "the" throws instead of scoring |
| Similarity.BestScore | components/LiveDashboard.tsx:890-897 | the inner loop's best is at least every score of the word, and is one of them or 0 |
| Similarity.BestSimilarity | components/LiveDashboard.tsx:890-897 | the best similarity lies in [0, 1], bounds every candidate, and is attained or 0 |
| Similarity.BestOfPresent | components/LiveDashboard.tsx:890-897 | a word present in the other sentence has best similarity 1 |
| Similarity.MatchedCount | components/LiveDashboard.tsx:898-901 | at most every word counts as matched |
| Similarity.MatchedTotal | components/LiveDashboard.tsx:898-901 | the summed best scores lie between 0.3 and 1 times the number of matched words |
| Similarity.Weighted | components/LiveDashboard.tsx:905-906 | the weighted average lies in [0, 1], and is 1 when every word matches with score 1 |
| Similarity.TokenSimilarity | components/LiveDashboard.tsx:884-906 | the sentence score is 0 when either sentence has no words, and lies in [0, 1] |
| Similarity.SentenceSimilarity | components/LiveDashboard.tsx:880-907 | `calculateSentenceSimilarity` is 0 for a sentence without words and always lies in [0, 1] |
| Similarity.SentenceSimilarityFullCover | components/LiveDashboard.tsx:880-907 | when every word of the first sentence appears in the second, the score is exactly 1 |
| Similarity.SentenceSimilarityWeakWords | components/LiveDashboard.tsx:898-906 | when no word reaches a best match of 0.3, the score is 0 |
| Similarity.SentenceTokens | components/LiveDashboard.tsx:881-882 | the tokens are non-empty, with no white space, capital or punctuation mark, and glued together they are the sentence lower-cased with its marks and white space gone |
| JumpSearch.JumpWords | components/LiveDashboard.tsx:946 | every sentence word is prepared in place: the results have no capital and no punctuation, and words already so are kept |
| JumpSearch.TranscriptTokens | components/LiveDashboard.tsx:911-912 | the transcript's tokens are non-empty, with no white space, capital or punctuation mark, and glued together they are the transcript lower-cased with its marks and white space gone |
| JumpSearch.JumpWord | components/LiveDashboard.tsx:946 | a sentence word as the walk compares it has no capital and no punctuation mark, and a word without either is kept |
| JumpSearch.WalkFrom | components/LiveDashboard.tsx:944-959 | the walk matches no more words than either list holds, and its longest run grows by at most the words matched |
| JumpSearch.StrictWalk | components/LiveDashboard.tsx:938-959 | the longest consecutive run is at most the number of matched words, which is at most the shorter list |
| JumpSearch.WalkAligned | components/LiveDashboard.tsx:944-959 | when words at equal positions all match, every word is walked, in one run |
| JumpSearch.WalkVerbatim | components/LiveDashboard.tsx:938-959 | a sentence read word for word is walked completely in a single run |
| JumpSearch.CandidateScore | components/LiveDashboard.tsx:925-971 | a sentence is scored only when it is at least two away from the current one, has words, and holds a run of three walked words |
| JumpSearch.FirstBest | components/LiveDashboard.tsx:973-976 | the scan returns an eligible score that no eligible score exceeds and that every earlier eligible score is below; none exactly when nothing is eligible |
| JumpSearch.Scores | components/LiveDashboard.tsx:925-977 | every sentence of the script gets its candidate score, in order; a scored sentence is at least two away from the current one, has words, and its walk holds a run of at least three |
| JumpSearch.FindMatchingSentence | components/LiveDashboard.tsx:910-984 | nothing for fewer than four transcript words; any result is a sentence of the script at least two away from the current one |
| JumpSearch.FindMatchingSentenceBest | components/LiveDashboard.tsx:920-983 | the found sentence scores at least 0.55 and no sentence scores higher; none is found only when no sentence scores 0.55 |
| Matcher.CleanWords | components/LiveDashboard.tsx:1027-1032 | every script word is cleaned in place: the list keeps its length, every result is clean, and words already clean are kept |
| Matcher.CleanWord | components/LiveDashboard.tsx:1027-1032 | a cleaned script word has no capital, no punctuation mark and no surrounding white space, and a word that is already so is kept |
| Matcher.Limit | components/LiveDashboard.tsx:1087 | the matcher looks at most twenty words past the cursor and never past the sentence, and at least one word when the cursor is inside |
| Matcher.AlignFrom | components/LiveDashboard.tsx:1097-1137 | the sequential loop only adds matches, each ending inside the window with a last pair scoring at least 0.15, and returns its input unchanged when it adds none |
| Matcher.Align | components/LiveDashboard.tsx:1090-1143 | the sequential stage matches at most fifteen words, ends inside the window, and scores at least 0.15 when it matches anything |
| Matcher.AlignReadsAheadFrom | components/LiveDashboard.tsx:1097-1137 | script words read in order, each scoring at least 0.15, are all matched; filling the window, they are matched exactly |
| Matcher.AlignMatchStep | components/LiveDashboard.tsx:1106-1114 | a match moves both indices and records the new end and the best similarity |
| Matcher.AlignVerbatim | components/LiveDashboard.tsx:1090-1143 | reading the next `k` script words verbatim, up to the window, matches exactly `k` words ending `k` past the cursor |
| Matcher.FallbackWord | components/LiveDashboard.tsx:1152-1185 | the inner loop only raises the best similarity, keeps a strong match found, and any new candidate is one word inside the window |
| Matcher.FallbackFrom | components/LiveDashboard.tsx:1147-1191 | the outer loop only raises the best similarity, and any candidate it finds is one word inside the window |
| Matcher.Fallback | components/LiveDashboard.tsx:1145-1192 | the fallback finds nothing or exactly one word inside the window with positive similarity, and needs a transcript word to find it |
| Matcher.FallbackWordKeeps | components/LiveDashboard.tsx:1159-1172 | after a match of similarity 1, farther words lose at least 0.1 and cannot replace it |
| Matcher.FallbackExact | components/LiveDashboard.tsx:1147-1191 | when the first transcript word is the word under the cursor, the fallback settles on it as a strong one-word match of similarity 1 |
| Matcher.NextWordFrom | components/LiveDashboard.tsx:1200-1212 | the scan returns the first transcript word from its start that reads the next script word at least 0.2 and better than the best; none exactly when no word does |
| Matcher.NextWord | components/LiveDashboard.tsx:1196-1214 | the override uses the earliest transcript word that reads the word under the cursor at least 0.2 and better than the best so far |
| Matcher.Locate | components/LiveDashboard.tsx:1069-1214 | without a match the candidate is the cursor itself with similarity 0; a match of `k` words ends at least `k` past the cursor, inside the window |
| Matcher.StripQuotes | components/LiveDashboard.tsx:1231 | no quote is left and the word does not grow; a word without quotes is kept whole, one made only of quotes vanishes |
| Matcher.StripQuotesAppend | components/LiveDashboard.tsx:1231 | dropping quotes works character by character, so it distributes over concatenation |
| Matcher.SharePrefix4 | components/LiveDashboard.tsx:1234-1236 | the prefix test of the boundary check: both words have at least four characters and agree on the first four |
| Matcher.OpensNextSentence | components/LiveDashboard.tsx:1229-1236 | the first transcript word, quotes removed and lower-cased, equals the next sentence's first cleaned word or shares its first four characters |
| Matcher.OpensOnSameWord | components/LiveDashboard.tsx:1229-1240 | saying the next sentence's first word, as it is cleaned, opens that sentence |
| Matcher.ShortWordsMustAgree | components/LiveDashboard.tsx:1234-1236 | a first word shorter than four letters opens the next sentence only when said exactly |
| Matcher.Decide | components/LiveDashboard.tsx:1248-1293 | the cursor moves forward by one to eight words or stays; it always moves when there is transcript and room; it stays exactly when no usable match and no transcript-with-room exist; it never passes the match |
| Matcher.DecideAfterMatch | components/LiveDashboard.tsx:1251-1260 | a match of `k` words moves the cursor `min(k, 8)` words |
| Matcher.DecideKeepsPace | components/LiveDashboard.tsx:1268-1292 | without a usable match, `n` transcript words move the cursor `min(n, 3)` words |
| Prompter.Init | components/LiveDashboard.tsx:139-162 | the mounted state satisfies the invariant, starts on word 0 with the word ref 0, stopped, with the last match at mount time |
| Prompter.Inv | components/LiveDashboard.tsx:169-188 | what every event keeps: sentences and word lists pair up, the sentence is in range when there is one, and the cursor is at most two words past the sentence's end |
| Prompter.GoToSentence | components/LiveDashboard.tsx:169-188 | nothing changes on an empty script; otherwise the cursor is clamped into the script and sentence, an in-range request is honoured, and nothing else changes |
| Prompter.GoToNextSentence | components/LiveDashboard.tsx:205-214 | moves to the next sentence's first word, or, at the last sentence, only stops the prompter |
| Prompter.GoToPreviousSentence | components/LiveDashboard.tsx:216-224 | moves to the previous sentence's first word, and changes nothing at the first sentence |
| Prompter.NextThenPrevious | components/LiveDashboard.tsx:205-224 | forward then back returns to the start of the sentence |
| Prompter.GoToSentenceKeepsInv | components/LiveDashboard.tsx:169-188 | jumping to any sentence keeps the invariant |
| Prompter.GoToNextSentenceKeepsInv | components/LiveDashboard.tsx:205-214 | moving forward keeps the invariant |
| Prompter.GoToPreviousSentenceKeepsInv | components/LiveDashboard.tsx:216-224 | moving back keeps the invariant |
| Prompter.JumpTarget | components/LiveDashboard.tsx:1049-1067 | a jump needs the gate open; its target is a sentence of the script, at least two away, and not the last target |
| Prompter.JumpGate | components/LiveDashboard.tsx:1049-1052 | the jump gate: at least four transcript words, the word ref on the first word, or on the last word with no match for 1.5 s, and no jump in the last 3 s |
| Prompter.AtBoundary | components/LiveDashboard.tsx:1218-1236 | the boundary check fires when nothing matched, the word ref is at the last word, a next sentence exists and the transcript opens it |
| Prompter.Advance | components/LiveDashboard.tsx:1248-1359 | counted from the word ref: the cursor stays in its sentence and either stays or lands one to eight words past the ref; the ref is kept or becomes the cursor; scheduling the stall timer goes with writing the ref and recording the match time |
| Prompter.Handle | components/LiveDashboard.tsx:986-1067 | a blank transcript, the interactive mode and a sentence without words change nothing, and no transcript changes the script |
| Prompter.HandleJumpGated | components/LiveDashboard.tsx:1049-1066 | a jump happens only through the open gate; it lands on the target's first word and records the jump's time and target |
| Prompter.FollowMovesForward | components/LiveDashboard.tsx:1216-1367 | without a jump the cursor stays, moves to one to eight words past the word ref in its sentence, or goes to the next sentence's first word |
| Prompter.Follow | components/LiveDashboard.tsx:1069-1367 | the stages after the jump gate keep the script and the jump refs, and leave the word ref alone, write the cursor into it, or end on a sentence's first word |
| Prompter.FollowProgresses | components/LiveDashboard.tsx:1268-1295 | a transcript with words, with the ref inside the sentence, puts the cursor past the ref or on the next sentence; when the ref lags only at a sentence's start, the cursor always moves |
| Prompter.FollowWithoutWords | components/LiveDashboard.tsx:1347-1359 | a transcript without words moves the cursor to one past the word ref only after 0.6 s without a match, recording the time, and otherwise changes nothing |
| Prompter.FollowCompletes | components/LiveDashboard.tsx:1362-1367 | a match reaching the end of the sentence, counted from its first word, shows the next sentence's first word with the ref still on the match and the stall timer pending |
| Prompter.FollowKeepsInv | components/LiveDashboard.tsx:1216-1367 | the word stages keep the invariant |
| Prompter.AdvanceBound | components/LiveDashboard.tsx:1248-1293 | given a match index inside the sentence, the advance lands at most two words past the sentence's end |
| Prompter.HandleKeepsInv | components/LiveDashboard.tsx:986-1368 | every transcript keeps the invariant |
| Prompter.StallFire | components/LiveDashboard.tsx:1338-1346 | a pending callback moves the cursor to one past the word ref when the ref is inside the sentence, recording the time, and is then spent; it never writes the ref; without a pending callback nothing changes |
| Prompter.StallFireKeepsInv | components/LiveDashboard.tsx:1338-1346 | the stall callback keeps the invariant |
| Prompter.Settle | components/LiveDashboard.tsx:104-106 | React's commit changes only the word ref: it copies the committed word into the ref when that word changed, and otherwise keeps what the event left there |
| Prompter.Step | components/LiveDashboard.tsx:93-114 | one event with its commit: only a transcript moves the jump refs, and the word ref stays equal to the cursor except possibly while the cursor is on a sentence's first word |
| Prompter.RawRefs | components/LiveDashboard.tsx:262-281 | every event, keys, clicks, timers and transcripts alike, leaves the word ref alone, writes the cursor into it, or ends on a sentence's first word |
| Prompter.StepKeepsInv | components/LiveDashboard.tsx:93-114 | every committed event keeps the invariant |
| Prompter.CompletionLeavesRefAhead | components/LiveDashboard.tsx:1296-1367 | a transcript completing the sentence from its first word shows the next sentence's first word, and the ref stays ahead of it on the matched index, with the stall timer pending |
| Prompter.StallFromRef | components/LiveDashboard.tsx:1338-1345 | with the ref ahead of the cursor, the stall callback moves the cursor to one past the ref, which the commit then copies into the ref |
| Prompter.WordDuration | components/LiveDashboard.tsx:729-730 | a word lasts at least 0.2 s, and exactly a minute over the words per minute whenever that is longer |
| Prompter.WordDurationMonotone | components/LiveDashboard.tsx:729-730 | a faster speed never lengthens a word |
| Prompter.TimerTickSteps | components/LiveDashboard.tsx:716-745 | a running tick moves one word, or to the next sentence's first word, or stops the prompter at the last sentence |
| Prompter.TimerTickKeepsInv | components/LiveDashboard.tsx:716-745 | the tick keeps the invariant |
| Prompter.LoadScript | components/LiveDashboard.tsx:372-389 | a product script is chunked by the dashboard chunker and shown from the start, and the generated-script branch clears the running flag; without a script, the placeholder is shown from the start and the running flag is untouched. The auto-start that may follow is Prompter.AutoStart |
| Prompter.LoadScriptKeepsInv | components/LiveDashboard.tsx:372-389 | loading a script establishes the invariant |
| Prompter.AutoStart | components/LiveDashboard.tsx:250-256 | only the running flag changes, and only when the sentence count changed; the prompter then runs in the interactive mode, with timer scrolling, or with speech scrolling over a non-empty script, and otherwise keeps its flag |
| Prompter.Load | components/LiveDashboard.tsx:250-256 | a product load with its auto-start establishes the invariant, starts the new script from its first word, and runs the prompter exactly as the count rule and the branch taken decide |
| Prompter.ProductLoadedRuns | components/LiveDashboard.tsx:250-256 | the committed load: the new script from the start; the word ref reset unless the shown word was already 0; a changed count runs the prompter unless it follows speech in the voice mode over an empty script; an unchanged count leaves it running only if it ran and no generated script was loaded |
| Prompter.PlaceholderKeepsRunning | components/LiveDashboard.tsx:384-389 | a product without a script, loaded while the prompter runs, leaves it running, so the recognition effect is not run again |
| Prompter.GoToSentenceOver | components/LiveDashboard.tsx:169-188 | `goToSentence` over an earlier render's script: clamped into that script, the current script and the running flag untouched, and `goToSentence` itself when that script is the current one |
| Prompter.GoToNextSentenceOver | components/LiveDashboard.tsx:205-214 | `goToNextSentence` over an earlier render's script: it moves on exactly when that script has a next sentence, otherwise it stops the prompter, and it is `goToNextSentence` itself when that script is the current one |
| Prompter.ProceedOver | components/LiveDashboard.tsx:1216-1367 | the matcher's later stages with the callback's navigation keep the script, and equal Prompter.Proceed with a fresh closure |
| Prompter.HandleOver | components/LiveDashboard.tsx:986-1367 | the handler as the recognition callback runs it changes nothing on a blank transcript, in the interactive mode or on a sentence without words, never changes the script, and is Prompter.Handle whenever its closure holds the current script |
| Prompter.StaleHandlerOverruns | components/LiveDashboard.tsx:205-214 | on the last sentence of the current script, a transcript read to its end stops the prompter; the callback whose closure holds a longer script moves the cursor past the script's end and breaks the invariant |
| Prompter.StaleCompletionOverruns | components/LiveDashboard.tsx:1362-1367 | at the matcher's verdict: a completing verdict on the last sentence stops the prompter with a fresh closure and moves past the script's end with the stale one |
| Segmenter.BodyEnd | components/LiveDashboard.tsx:28 | `[^.!?]*` ends at the first delimiter, or at the end of the text |
| Segmenter.DelimEnd | components/LiveDashboard.tsx:28 | `[.!?]*` ends at the first non-delimiter, or at the end of the text |
| Segmenter.RawChunks | components/LiveDashboard.tsx:28 | `match(/[^.!?]+[.!?]+\|[^.!?]+$/g) \|\| []`: delimiters at the very front are skipped, then each match is a run of text with the delimiters that close it; its shape and content are stated by the next two rows |
| Segmenter.ChunkHead | components/LiveDashboard.tsx:28 | one match is text followed by its closing delimiters, and ends in a delimiter when more text follows |
| Segmenter.RawChunksShape | components/LiveDashboard.tsx:28 | every match is text then its delimiters; all but the last end with a delimiter |
| Segmenter.RawChunksKeepText | components/LiveDashboard.tsx:28 | the matches glued together are the text without its leading delimiters |
| Segmenter.TrimmedNonEmpty | components/LiveDashboard.tsx:29 | every kept piece is non-empty and trimmed |
| Segmenter.TrimmedNonEmptyKeepsText | components/LiveDashboard.tsx:29 | trimming and dropping empty pieces loses no visible character |
| Segmenter.DashboardSentences | components/LiveDashboard.tsx:25-30 | every sentence is non-empty, trimmed and keeps its delimiters at its end only, and every sentence but the last ends in a delimiter |
| Segmenter.DashboardSentencesKeepText | components/LiveDashboard.tsx:25-30 | the sentences hold every visible character after the leading delimiters, in order |
| Segmenter.DashboardRoundTrip | components/LiveDashboard.tsx:25-30 | sentences that each open with text and are closed by delimiters, joined by spaces, are cut back into the same sentences |
| Segmenter.SplitDelims | components/FloatingPrompter.tsx:11 | `split(/[.!?]+/)` gives at least one piece, and no piece holds a delimiter |
| Segmenter.SplitDelimsCount | components/FloatingPrompter.tsx:11 | there is exactly one piece more than there are maximal runs of delimiters |
| Segmenter.SplitDelimsKeepText | components/FloatingPrompter.tsx:11 | the pieces glued together are the text with its delimiters removed |
| Segmenter.DropBlankKeepsText | components/FloatingPrompter.tsx:11 | dropping blank pieces loses no visible character |
| Segmenter.FloatingSentences | components/FloatingPrompter.tsx:10-13 | every sentence is non-empty, trimmed and free of delimiters |
| Segmenter.FloatingSentencesKeepText | components/FloatingPrompter.tsx:10-13 | the sentences hold every visible character of the text except the delimiters, in order |
| Segmenter.FloatingRoundTrip | components/FloatingPrompter.tsx:10-13 | non-empty, trimmed, delimiter-free sentences joined by one delimiter are split back into the same sentences |
| Segmenter.FloatingSplitsJoin | components/FloatingPrompter.tsx:10-13 | pieces free of delimiters, each with some visible text, joined by one delimiter, come back as those pieces trimmed |
| Segmenter.FloatingProseRoundTrip | components/FloatingPrompter.tsx:10-13 | non-empty, trimmed, delimiter-free sentences written as prose, one delimiter and a space between each, come back as the same sentences |
| Segmenter.FromSentences | components/LiveDashboard.tsx:379 | each sentence gets its white-space tokens, and non-blank sentences get at least one word |
| Segmenter.WordsAt | components/LiveDashboard.tsx:1016 | `sentenceWords[i] \|\| []`: the word list of an in-range sentence, which in a well-formed script is that sentence's white-space tokens; none out of range |
| Segmenter.FullFlow | components/LiveDashboard.tsx:376 | the product's four script parts in order, one space between each; Segmenter.FullFlowJoins states it as a join |
| Segmenter.FullFlowJoins | components/LiveDashboard.tsx:376 | the full flow is the four parts joined by single spaces |
| Segmenter.FullFlowRoundTrip | components/LiveDashboard.tsx:374-377 | four parts that are each a closed sentence come back from the dashboard chunker as exactly those four sentences |
| Segmenter.DashboardScript | components/LiveDashboard.tsx:374-379 | the product's four parts joined and chunked give a well-formed script in which every sentence has a word |
| Segmenter.FloatingScript | components/FloatingPrompter.tsx:65-70 | the floating chunker gives a well-formed script in which every sentence has a word |
| Segmenter.PlaceholderScript | components/LiveDashboard.tsx:384-386 | the placeholder is one well-formed sentence with words |
| Floating.Receive | components/FloatingPrompter.tsx:33-55 | a non-object message is ignored; otherwise each of the four fields (sentence index, word index, sentences, word lists) replaces the shown one when present and is kept when absent |
| Floating.ReceiveSnapshot | components/LiveDashboard.tsx:748-755 | a full message from the dashboard makes the window show exactly the dashboard's script and cursor |
| Floating.LoadFallback | components/FloatingPrompter.tsx:63-80 | the fallback acts only while nothing is shown; it loads the product's floating-chunked script or the placeholder, from the start |
| Floating.LoadFallbackIdempotent | components/FloatingPrompter.tsx:63-80 | running the fallback again changes nothing |
| Floating.LoadFallbackShape | components/FloatingPrompter.tsx:65-72 | the loaded sentences are non-empty, trimmed and delimiter-free, with non-empty white-space-free words |
| Floating.EmptyShowsPlaceholder | components/FloatingPrompter.tsx:73-79 | with nothing shown and no product script, the window shows exactly the placeholder |
| FontSize.Shrink | components/FloatingPrompter.tsx:111 | "-" is two pixels smaller and never below the least size |
| FontSize.Grow | components/FloatingPrompter.tsx:119 | "+" is two pixels larger and never above the greatest size |
| FontSize.ButtonsKeepRange | components/LiveDashboard.tsx:2750-2752 | both buttons keep a size inside its window's range |
| FontSize.ShrinkUndoesGrow | components/FloatingPrompter.tsx:111-119 | away from the top of the range, "-" undoes "+" |
| FontSize.InitialInRange | components/FloatingPrompter.tsx:20 | both windows start at 20, inside their ranges |
| FontSize.PressesKeepRange | components/FloatingPrompter.tsx:110-124 | any run of presses from inside the range stays inside it |
| EnvConfig.ParseLine | vite.config.ts:12-17 | a parsed entry has a non-empty, trimmed key free of `=` and a trimmed value; blank lines give none |
| EnvConfig.SkippedLines | vite.config.ts:13-15 | comment lines, lines starting with `=` and lines without `=` are skipped |
| EnvConfig.ParseLineRoundTrip | vite.config.ts:11-17 | `key=value` parses back to that entry, even when the value holds `=` |
| EnvConfig.Assign | vite.config.ts:16 | assigning sets the key, except `__proto__`, which leaves the object unchanged |
| EnvConfig.AssignAll | vite.config.ts:11-19 | the object never holds `__proto__`, and from parsed entries holds only well-formed keys and trimmed values |
| EnvConfig.LastSetter | vite.config.ts:11-19 | the last entry setting a key, and no later one sets it; none when no entry does |
| EnvConfig.AssignAllLastWins | vite.config.ts:11-19 | a key is present exactly when some entry sets it and it is not `__proto__`, and then it holds the last such entry's value |
| EnvConfig.Entries | vite.config.ts:11 | every line is parsed, in order |
| EnvConfig.ParseLines | vite.config.ts:10-20 | every key is non-empty, trimmed, free of `=` and not `__proto__`, and every value is trimmed |
| EnvConfig.ParseLinesLastWins | vite.config.ts:11-19 | a key is present exactly when some line sets it, and its value is the one given by the last line that sets it |
| EnvConfig.LoadEnvLocal | vite.config.ts:7-24 | a missing or unreadable file gives nothing; every key read is non-empty and free of `=` |
| EnvConfig.Merge | vite.config.ts:33 | the merge holds every key of either side, and the manually read value wins |
| EnvConfig.ResolveApiKey | vite.config.ts:36-42 | the key is never `"undefined"` or `"null"`; a usable primary key is taken; the fallback is used only when the primary is missing or empty; with neither, the key is empty |
| EnvConfig.PlaceholderPrimaryHidesFallback | vite.config.ts:36-38 | a primary key set to `"undefined"` or `"null"` hides a usable fallback key |
| EnvConfig.ConfiguredKey | vite.config.ts:29-42 | a usable primary key in `.env.local` is the key the build uses, whatever the bundler's environment holds |

## Left out

- Reading `.env.local` from disk is a parameter `Option<string>`. `None` stands for the caught error (vite.config.ts:21-23), and the bundler's `loadEnv` result is a parameter too.
- React rendering, scrolling (`smoothScrollToTarget`, the `requestAnimationFrame` backup scroll) and the `setTimeout` that scrolls after `goToSentence` are left out. They change no state of the model.
- The Web Speech API, the recording pipeline and the interactive conversation mode (`handleInteractiveSpeech`) are left out. In the model the interactive mode leaves the prompter unchanged.
- The Electron IPC channel is an `Update` value. A message that is not an object is `None`.
- JavaScript numbers are exact reals, so floating-point rounding at the 0.15, 0.2, 0.3, 0.35, 0.5 and 0.55 thresholds is not modelled.
- Text.Lower: `toLowerCase` is modelled on ASCII letters only, because full Unicode case mapping is outside the model.
- Matcher.Decide: the single-token branch on the time since the last match (LiveDashboard.tsx:1281-1292) is collapsed. Each of its branches advances one word, so the time cannot change the result.
- Similarity.Cascade: the `maxLen === 0` guard (LiveDashboard.tsx:818) is dropped, because it cannot fire once the exact-match stage has failed.
- Prompter.TimerTick has no contract of its own. Its behaviour is stated by Prompter.TimerTickSteps and Prompter.TimerTickKeepsInv.
- Prompter.TimerTick: at a sentence's last word the tick's `setActiveWordIndex` updater calls `goToNextSentence`, which queues `setActiveWordIndex(0)` from inside another updater, and then returns `words.length` (components/LiveDashboard.tsx:733-737). The model resolves this as React does when it runs updaters during render: the 0 is queued after the updater's own result, so the cursor ends on the next sentence's first word. If the updater were run eagerly when queued, the queue would be 0 then `words.length`, and the cursor would land on the old sentence's length in the new sentence, past that sentence's words whenever it is shorter. The model does not cover that outcome.
- Prompter.Handle: the stall callback is a separate event, Prompter.StallFire. Timer identities and `clearTimeout` are reduced to the `stallPending` flag.
- Prompter.Advance: each handler call reads `Date.now()` once, as `now`. The source reads it several times within one call.
- Prompter.Follow states only what it keeps and how it may write the word ref. Its movement is stated by the Follow* lemmas and Prompter.HandleKeepsInv.
- Prompter.State: React's batching is resolved as the source's update order gives it. After `setActiveWordIndex(newIndex)` and then `goToNextSentence`, the cursor is the next sentence's first word.
- Prompter.State: the sentence, script and word-list refs are written only by their effects (components/LiveDashboard.tsx:93-114), so between events they equal the committed state, and the model reads the state for them. Only `activeWordIndexRef` is kept separately, as `wordRef`. The mode and `isPrompterActive` refs are not modelled, since the handler receives the mode as a parameter and never reads the running flag. The navigation closures the recognition callback holds are not refs: they see the state of the render in which recognition last started, which Prompter.HandleOver models and Prompter.Handle does not.
- Prompter.Handle: its navigation reads the current script, as if the recognition callback were created afresh on every render. The source's callback is created only when the running flag or the mode changes, so after a product without a script is loaded while the prompter runs (Prompter.PlaceholderKeepsRunning), the callback still navigates over the previous script. Prompter.HandleOver models that callback, and the state does not record which script the callback holds.
- Prompter.HandleKeepsInv: proved for Prompter.Handle, whose navigation sees the current script. The callback as written can hold an earlier, longer script, and then a transcript read to the end of the last sentence moves the cursor past the script's end (Prompter.StaleHandlerOverruns), so the invariant fails for it.
- Prompter.StepKeepsInv: a transcript event is Prompter.Handle, so the lemma shares the limit just stated for Prompter.HandleKeepsInv. With the callback as written, a transcript after a placeholder load can break the invariant.
- Prompter.AutoStart: applied only after a product load. The same effect also runs when the mode or the scroll mode changes, and the model has no event for those changes: the modes are parameters of the events that read them.
- Prompter.Step: each event is followed by exactly one commit. Two events that React would batch into one render are not modelled.
- Text.Lower, Text.Trim, Similarity.EditScore and Matcher.SharePrefix4: JavaScript strings are sequences of UTF-16 code units, while Dafny's `char` is a Unicode scalar value. For text outside the Basic Multilingual Plane, the lengths, the Levenshtein distance, `substring(0, 4)` and the `length >= 4` tests of the source (components/LiveDashboard.tsx:797-826, 1234-1236) count code units where the model counts characters. For text inside that plane the two agree.
- EnvConfig.Assign: only the key `__proto__` is treated specially. Other inherited names such as `constructor` become own properties, as in JavaScript.

## Findings

| source | as written | input that shows it | evidently intended | confidence | as-written member | corrected member |
|---|---|---|---|---|---|---|
| components/LiveDashboard.tsx:840 | `soundAlike[w1]?.includes(w2)` indexes a plain object literal, so a word naming an inherited member reaches `Object.prototype` | script word "constructor" against the spoken "the": stages 1-4 miss, `soundAlike["constructor"]` is the `Object` function, which has no `includes`, so the call throws a TypeError out of the transcript handler | look up only the table's own entries, so that words outside the table are simply not sound-alike | not executed | Similarity.ConstructorThrows | Similarity.WordSimilarity |
| components/LiveDashboard.tsx:205-214 | the recognition effect depends only on the running flag and the mode, so its callback calls the `goToNextSentence` of the render that started recognition, which compares against that render's `scriptSentences.length` | voice mode with speech scrolling, a running prompter on a product with three sentences; switch to a product without a generated script, whose placeholder has one sentence and leaves the prompter running, so recognition is not restarted; read the placeholder to its end: the stale `goToNextSentence` sees `0 < 2` and moves to sentence 1 of a one-sentence script, where there are no words and every later transcript is ignored | navigate over the current script, as the handler's refs do, so that reading the last sentence to its end stops the prompter | not executed | Prompter.HandleOver, Prompter.StaleHandlerOverruns | Prompter.Handle, Prompter.HandleKeepsInv |

=== FILE: base.dfy ===
/** Small shared definitions: an optional value and integer helpers. */
module Base {

  /** A value that may be absent (JavaScript's `null` / `undefined`). */
  datatype Option<T> = None | Some(value: T)

  function Min(a: int, b: int): int { if a <= b then a else b }

  function Max(a: int, b: int): int { if a >= b then a else b }

  function MinReal(a: real, b: real): real { if a <= b then a else b }

  function MaxReal(a: real, b: real): real { if a >= b then a else b }

  function Abs(a: int): nat { if a < 0 then -a else a }
}

=== FILE: edit_distance.dfy ===
/**
 * Levenshtein distance as the dashboard computes it: the recurrence of its
 * dynamic-programming matrix, the row-by-row computation itself, and the
 * facts the word-similarity score relies on.
 */
module EditDistance {
  import opened Base

  function Min3(a: int, b: int, c: int): int {
    Min(a, Min(b, c))
  }

  /**
   * Entry `[|a|][|b|]` of the source's matrix: borders hold the lengths; equal
   * last characters copy the diagonal; otherwise one more than the cheapest of
   * deletion, insertion and substitution.
   */
  function Distance(a: string, b: string): nat
    decreases |a| + |b|
  {
    if |a| == 0 then |b|
    else if |b| == 0 then |a|
    else if a[|a| - 1] == b[|b| - 1] then Distance(a[..|a| - 1], b[..|b| - 1])
    else 1 + Min3(Distance(a[..|a| - 1], b), Distance(a, b[..|b| - 1]), Distance(a[..|a| - 1], b[..|b| - 1]))
  }

  /** Unfolds `Distance` on two non-empty prefixes `a[..i]`, `b[..j]`. */
  lemma DistanceStep(a: string, b: string, i: nat, j: nat)
    requires 0 < i <= |a| && 0 < j <= |b|
    ensures Distance(a[..i], b[..j]) ==
      if a[i - 1] == b[j - 1] then Distance(a[..i - 1], b[..j - 1])
      else 1 + Min3(Distance(a[..i - 1], b[..j]), Distance(a[..i], b[..j - 1]), Distance(a[..i - 1], b[..j - 1]))
  {
    assert a[..i][..i - 1] == a[..i - 1];
    assert b[..j][..j - 1] == b[..j - 1];
  }

  /** The source's `levenshteinDistance`: fills the matrix one row at a time. */
  method Levenshtein(a: string, b: string) returns (d: nat)
    ensures d == Distance(a, b)
  {
    var prev: seq<int> := seq(|b| + 1, j => j);
    var i := 0;
    while i < |a|
      invariant 0 <= i <= |a|
      invariant |prev| == |b| + 1
      invariant forall j :: 0 <= j <= |b| ==> prev[j] == Distance(a[..i], b[..j])
    {
      prev := NextRow(a, b, i, prev);
      i := i + 1;
    }
    assert a[..|a|] == a && b[..|b|] == b;
    d := prev[|b|];
  }

  /** Row `i + 1` of the matrix from row `i`: the border, then each entry from its three neighbours. */
  method NextRow(a: string, b: string, i: nat, prev: seq<int>) returns (cur: seq<int>)
    requires i < |a| && |prev| == |b| + 1
    requires forall j :: 0 <= j <= |b| ==> prev[j] == Distance(a[..i], b[..j])
    ensures |cur| == |b| + 1
    ensures forall j :: 0 <= j <= |b| ==> cur[j] == Distance(a[..i + 1], b[..j])
  {
    cur := [i + 1];
    var j := 1;
    while j <= |b|
      invariant 1 <= j <= |b| + 1
      invariant |cur| == j
      invariant forall k :: 0 <= k < j ==> cur[k] == Distance(a[..i + 1], b[..k])
    {
      DistanceStep(a, b, i + 1, j);
      var v: int;
      if a[i] == b[j - 1] {
        v := prev[j - 1];
      } else {
        v := Min3(prev[j] + 1, cur[j - 1] + 1, prev[j - 1] + 1);
      }
      cur := cur + [v];
      j := j + 1;
    }
  }

  /** A word is at distance zero from itself. */
  lemma {:induction false} DistanceSelf(a: string)
    ensures Distance(a, a) == 0
    decreases |a|
  {
    if |a| > 0 {
      DistanceSelf(a[..|a| - 1]);
    }
  }

  /** Distance zero means the two words are equal. */
  lemma {:induction false} DistanceZero(a: string, b: string)
    ensures Distance(a, b) == 0 <==> a == b
    decreases |a| + |b|
  {
    if a == b {
      DistanceSelf(a);
    } else if |a| > 0 && |b| > 0 && a[|a| - 1] == b[|b| - 1] {
      DistanceZero(a[..|a| - 1], b[..|b| - 1]);
      assert a == a[..|a| - 1] + [a[|a| - 1]];
      assert b == b[..|b| - 1] + [b[|b| - 1]];
    }
  }

  /** The distance never exceeds the longer length. */
  lemma {:induction false} DistanceAtMostLonger(a: string, b: string)
    ensures Distance(a, b) <= Max(|a|, |b|)
    decreases |a| + |b|
  {
    if |a| > 0 && |b| > 0 {
      DistanceAtMostLonger(a[..|a| - 1], b[..|b| - 1]);
    }
  }

  /** The distance is at least the difference in length. */
  lemma {:induction false} DistanceAtLeastGap(a: string, b: string)
    ensures Distance(a, b) >= Abs(|a| - |b|)
    decreases |a| + |b|
  {
    if |a| > 0 && |b| > 0 {
      DistanceAtLeastGap(a[..|a| - 1], b[..|b| - 1]);
      if a[|a| - 1] != b[|b| - 1] {
        DistanceAtLeastGap(a[..|a| - 1], b);
        DistanceAtLeastGap(a, b[..|b| - 1]);
      }
    }
  }

  /** Measuring from either end gives the same distance. */
  lemma {:induction false} DistanceSymmetric(a: string, b: string)
    ensures Distance(a, b) == Distance(b, a)
    decreases |a| + |b|
  {
    if |a| > 0 && |b| > 0 {
      DistanceSymmetric(a[..|a| - 1], b[..|b| - 1]);
      if a[|a| - 1] != b[|b| - 1] {
        DistanceSymmetric(a[..|a| - 1], b);
        DistanceSymmetric(a, b[..|b| - 1]);
      }
    }
  }
}

=== FILE: env_config.dfy ===
/**
 * The build configuration's environment handling: the hand-written
 * `.env.local` parser (after the file has been read), the merge with the
 * bundler's own environment, and the choice of the DeepSeek API key.
 */
module EnvConfig {
  import opened Base
  import opened Text

  /** One `KEY=value` assignment. */
  datatype Entry = Entry(key: string, value: string)

  /** A plain object of string values. */
  type Env = map<string, string>

  /**
   * One line: trimmed; blank lines and `#` comments are skipped; otherwise
   * split on `=`, and a non-empty text before the first `=` becomes the key
   * while everything after it, re-joined with `=`, becomes the value, both
   * trimmed. A line without `=` or with nothing before it is skipped.
   */
  function ParseLine(line: string): (r: Option<Entry>)
    ensures r.Some? ==> |r.value.key| > 0 && Trimmed(r.value.key) && Trimmed(r.value.value)
    ensures r.Some? ==> '=' !in r.value.key
    ensures IsBlank(line) ==> r.None?
  {
    var trimmed := Trim(line);
    if |trimmed| == 0 || trimmed[0] == '#' then None
    else
      var parts := Split(trimmed, '=');
      var key := parts[0];
      if |key| > 0 && |parts| > 1 then
        assert !IsSpace(key[0]) by {
          SplitHead(trimmed, '=');
        }
        Some(Entry(Trim(key), Trim(Join(parts[1..], '='))))
      else None
  }

  /** The first piece of a split is the text up to the first separator. */
  lemma {:induction false} SplitHead(s: string, sep: char)
    ensures |Split(s, sep)[0]| <= |s| && Split(s, sep)[0] == s[..|Split(s, sep)[0]|]
    decreases |s|
  {
    if |s| > 0 && s[0] != sep {
      SplitHead(s[1..], sep);
    }
  }

  /** A line is skipped when, trimmed, it starts with `#` or `=`, or has no `=` at all. */
  lemma SkippedLines(line: string)
    ensures |Trim(line)| > 0 && (Trim(line)[0] == '#' || Trim(line)[0] == '=') ==> ParseLine(line).None?
    ensures '=' !in Trim(line) ==> ParseLine(line).None?
  {
    var trimmed := Trim(line);
    if |trimmed| > 0 && trimmed[0] == '=' {
      assert Split(trimmed, '=')[0] == "";
    }
  }

  /** Splitting text whose first separator follows `k` gives `k`, then the pieces of the rest. */
  lemma {:induction false} SplitAfterKey(k: string, v: string, sep: char)
    requires sep !in k
    ensures Split(k + [sep] + v, sep) == [k] + Split(v, sep)
    decreases |k|
  {
    var s := k + [sep] + v;
    if |k| == 0 {
      assert s[1..] == v;
    } else {
      assert s[1..] == k[1..] + [sep] + v;
      SplitAfterKey(k[1..], v, sep);
      assert [k[0]] + k[1..] == k;
    }
  }

  /**
   * Writing `key=value` with a key free of `=` and of surrounding space
   * (and not a comment) parses back to that entry, even when the value holds
   * `=` itself.
   */
  lemma ParseLineRoundTrip(k: string, v: string)
    requires |k| > 0 && Trimmed(k) && '=' !in k && k[0] != '#'
    requires Trimmed(v)
    ensures ParseLine(k + "=" + v) == Some(Entry(k, v))
  {
    var line := k + "=" + v;
    assert Trimmed(line) by {
      assert line[0] == k[0];
      if |v| > 0 {
        assert line[|line| - 1] == v[|v| - 1];
      }
    }
    TrimNoop(line);
    SplitAfterKey(k, v, '=');
    var parts := Split(line, '=');
    assert parts[0] == k && parts[1..] == Split(v, '=');
    JoinSplit(v, '=');
    TrimNoop(k);
    TrimNoop(v);
  }

  /**
   * `env[key] = value` on a plain object: the key `__proto__` reaches the
   * prototype setter, which ignores a string, so no entry is made.
   */
  const ProtoKey: string := "__proto__"

  function Assign(env: Env, k: string, v: string): (r: Env)
    ensures k != ProtoKey ==> r == env[k := v]
    ensures k == ProtoKey ==> r == env
  {
    if k == ProtoKey then env else env[k := v]
  }

  /** Entry `e` assigns key `k`. */
  predicate Sets(e: Option<Entry>, k: string) {
    e.Some? && e.value.key == k
  }

  /** What the parser guarantees of an entry: a non-empty trimmed key free of `=`, and a trimmed value. */
  predicate Good(e: Option<Entry>) {
    e.Some? ==> |e.value.key| > 0 && Trimmed(e.value.key) && '=' !in e.value.key && Trimmed(e.value.value)
  }

  /** The parsed entries in order, each assigned over the ones before. */
  function AssignAll(es: seq<Option<Entry>>): (env: Env)
    ensures forall k :: k in env ==> k != ProtoKey
    ensures (forall i :: 0 <= i < |es| ==> Good(es[i])) ==>
      forall k :: k in env ==> |k| > 0 && Trimmed(k) && '=' !in k && Trimmed(env[k])
    decreases |es|
  {
    if |es| == 0 then map[]
    else
      var front := es[..|es| - 1];
      var env := AssignAll(front);
      assert forall i :: 0 <= i < |front| ==> front[i] == es[i];
      match es[|es| - 1]
      case None => env
      case Some(e) => Assign(env, e.key, e.value)
  }

  /** The index of the last entry that sets `k`, if any. */
  function LastSetter(es: seq<Option<Entry>>, k: string): (r: Option<nat>)
    ensures r.None? ==> forall i :: 0 <= i < |es| ==> !Sets(es[i], k)
    ensures r.Some? ==> r.value < |es| && Sets(es[r.value], k)
    ensures r.Some? ==> forall j :: r.value < j < |es| ==> !Sets(es[j], k)
    decreases |es|
  {
    if |es| == 0 then None
    else if Sets(es[|es| - 1], k) then Some(|es| - 1)
    else
      var front := es[..|es| - 1];
      assert forall i :: 0 <= i < |front| ==> front[i] == es[i];
      LastSetter(front, k)
  }

  /**
   * The later entry wins: a key is present exactly when some entry sets it
   * and it is not `__proto__`, and then its value is the one the last such
   * entry gives.
   */
  lemma {:induction false} AssignAllLastWins(es: seq<Option<Entry>>, k: string)
    ensures k in AssignAll(es) <==> k != ProtoKey && LastSetter(es, k).Some?
    ensures k in AssignAll(es) ==> es[LastSetter(es, k).value] == Some(Entry(k, AssignAll(es)[k]))
    decreases |es|
  {
    if |es| > 0 {
      var front := es[..|es| - 1];
      var last := |es| - 1;
      AssignAllLastWins(front, k);
      AssignAllSnoc(front, es[last]);
      assert es == front + [es[last]];
      if !Sets(es[last], k) {
        assert LastSetter(es, k) == LastSetter(front, k);
        if LastSetter(front, k).Some? {
          assert es[LastSetter(front, k).value] == front[LastSetter(front, k).value];
        }
      }
    }
  }

  /** One more entry: assigned over the ones before, or nothing when it is a skipped line. */
  lemma AssignAllSnoc(es: seq<Option<Entry>>, e: Option<Entry>)
    ensures e.None? ==> AssignAll(es + [e]) == AssignAll(es)
    ensures e.Some? ==> AssignAll(es + [e]) == Assign(AssignAll(es), e.value.key, e.value.value)
  {
    assert (es + [e])[..|es|] == es;
  }

  /** Every line parsed, in order. */
  function Entries(lines: seq<string>): (es: seq<Option<Entry>>)
    ensures |es| == |lines| && forall i :: 0 <= i < |lines| ==> es[i] == ParseLine(lines[i])
    ensures forall i :: 0 <= i < |es| ==> Good(es[i])
  {
    seq(|lines|, i requires 0 <= i < |lines| => ParseLine(lines[i]))
  }

  /** The lines in order, each parsed entry assigned over the ones before. */
  function ParseLines(lines: seq<string>): (env: Env)
    ensures forall k :: k in env ==> |k| > 0 && Trimmed(k) && '=' !in k && k != ProtoKey
    ensures forall k :: k in env ==> Trimmed(env[k])
  {
    AssignAll(Entries(lines))
  }

  /** Of several lines setting one key, the last one's value is kept; a key no line sets is absent. */
  lemma ParseLinesLastWins(lines: seq<string>, k: string)
    ensures k in ParseLines(lines) <==> k != ProtoKey && exists i :: 0 <= i < |lines| && Sets(ParseLine(lines[i]), k)
    ensures k in ParseLines(lines) ==>
      exists i :: 0 <= i < |lines| && ParseLine(lines[i]) == Some(Entry(k, ParseLines(lines)[k]))
        && forall j :: i < j < |lines| ==> !Sets(ParseLine(lines[j]), k)
  {
    var es := Entries(lines);
    AssignAllLastWins(es, k);
    var last := LastSetter(es, k);
    if last.Some? {
      assert Sets(ParseLine(lines[last.value]), k);
    }
  }

  /** `loadEnvLocal`: the file split into lines and parsed; a missing or unreadable file gives nothing. */
  function LoadEnvLocal(file: Option<string>): (env: Env)
    ensures file.None? ==> env == map[]
    ensures forall k :: k in env ==> |k| > 0 && '=' !in k
  {
    match file
    case None => map[]
    case Some(content) => ParseLines(Split(content, '\n'))
  }

  /** `{ ...viteEnv, ...manualEnv }`: every key of either, the manually read value winning. */
  function Merge(vite: Env, manual: Env): (env: Env)
    ensures env.Keys == vite.Keys + manual.Keys
    ensures forall k :: k in manual ==> env[k] == manual[k]
    ensures forall k :: k in vite && k !in manual ==> env[k] == vite[k]
  {
    vite + manual
  }

  const PrimaryKey: string := "DEEPSEEK_API_KEY"
  const FallbackKey: string := "VITE_DEEPSEEK_API_KEY"

  /** A JavaScript string value that is present and non-empty. */
  predicate Truthy(env: Env, k: string) {
    k in env && |env[k]| > 0
  }

  /** The text a missing value shows when printed into the environment. */
  predicate Placeholderish(v: string) {
    v == "undefined" || v == "null"
  }

  /**
   * `env.DEEPSEEK_API_KEY || env.VITE_DEEPSEEK_API_KEY`, reset to the empty
   * string when missing, empty, `"undefined"` or `"null"`.
   */
  function ResolveApiKey(env: Env): (key: string)
    ensures !Placeholderish(key)
    ensures key == "" || (Truthy(env, PrimaryKey) && key == env[PrimaryKey])
      || (!Truthy(env, PrimaryKey) && FallbackKey in env && key == env[FallbackKey])
    ensures Truthy(env, PrimaryKey) && !Placeholderish(env[PrimaryKey]) ==> key == env[PrimaryKey]
    ensures !Truthy(env, PrimaryKey) && Truthy(env, FallbackKey) && !Placeholderish(env[FallbackKey]) ==>
      key == env[FallbackKey]
    ensures !Truthy(env, PrimaryKey) && !Truthy(env, FallbackKey) ==> key == ""
  {
    var picked := if Truthy(env, PrimaryKey) then env[PrimaryKey]
      else if FallbackKey in env then env[FallbackKey] else "";
    if |picked| == 0 || Placeholderish(picked) then "" else picked
  }

  /**
   * A primary key set to `"undefined"` or `"null"` is truthy, so the fallback
   * key is never consulted: the result is empty even when the fallback holds
   * a usable key.
   */
  lemma PlaceholderPrimaryHidesFallback(env: Env)
    requires PrimaryKey in env && Placeholderish(env[PrimaryKey])
    ensures ResolveApiKey(env) == ""
  {
  }

  /** The key the build uses: resolved from the bundler's environment merged with `.env.local`. */
  function ConfiguredKey(vite: Env, file: Option<string>): (key: string)
    ensures !Placeholderish(key)
    ensures var manual := LoadEnvLocal(file);
      Truthy(manual, PrimaryKey) && !Placeholderish(manual[PrimaryKey]) ==> key == manual[PrimaryKey]
  {
    ResolveApiKey(Merge(vite, LoadEnvLocal(file)))
  }
}

=== FILE: floating.dfy ===
/**
 * The floating prompter window: it mirrors the dashboard's script and
 * cursor as they arrive, and falls back to the active product's script (cut
 * by its own, delimiter-dropping chunker) or to the placeholder when nothing
 * has arrived.
 */
module Floating {
  import opened Base
  import opened Text
  import opened Segmenter

  /** What the window shows: the script, its word lists, and the cursor. */
  datatype View = View(sentences: seq<string>, words: seq<seq<string>>, sentence: int, word: int)

  /** The window's state on opening: nothing to show, cursor at the start. */
  const Empty: View := View([], [], 0, 0)

  /** A message from the dashboard; each field is applied only when present. */
  datatype Update = Update(
    sentence: Option<int>,
    word: Option<int>,
    sentences: Option<seq<string>>,
    words: Option<seq<seq<string>>>)

  /**
   * The update listener: a message that is not an object (`None`) is
   * ignored; otherwise each present field replaces the shown one and the
   * others stay.
   */
  function Receive(v: View, data: Option<Update>): (r: View)
    ensures data.None? ==> r == v
    ensures data.Some? && data.value.sentences.Some? ==> r.sentences == data.value.sentences.value
    ensures data.Some? && data.value.sentences.None? ==> r.sentences == v.sentences
    ensures data.Some? && data.value.words.Some? ==> r.words == data.value.words.value
    ensures data.Some? && data.value.words.None? ==> r.words == v.words
    ensures data.Some? && data.value.sentence.Some? ==> r.sentence == data.value.sentence.value
    ensures data.Some? && data.value.sentence.None? ==> r.sentence == v.sentence
    ensures data.Some? && data.value.word.Some? ==> r.word == data.value.word.value
    ensures data.Some? && data.value.word.None? ==> r.word == v.word
  {
    match data
    case None => v
    case Some(u) =>
      View(
        if u.sentences.Some? then u.sentences.value else v.sentences,
        if u.words.Some? then u.words.value else v.words,
        if u.sentence.Some? then u.sentence.value else v.sentence,
        if u.word.Some? then u.word.value else v.word)
  }

  /** The dashboard's message: every field, taken from its script and cursor. */
  function Snapshot(sc: Script, sentence: int, word: int): Update {
    Update(Some(sentence), Some(word), Some(sc.sentences), Some(sc.words))
  }

  /** A full message makes the window show exactly what the dashboard shows, whatever it showed before. */
  lemma ReceiveSnapshot(v: View, sc: Script, sentence: int, word: int)
    ensures Receive(v, Some(Snapshot(sc, sentence, word))) == View(sc.sentences, sc.words, sentence, word)
  {
  }

  /**
   * The fallback effect: only while nothing is shown. The active product's
   * generated script is cut by the window's chunker and tokenised, from the
   * start; without one, the placeholder sentence.
   */
  function LoadFallback(v: View, generated: Option<GeneratedScript>): (r: View)
    ensures |v.sentences| > 0 ==> r == v
    ensures |v.sentences| == 0 ==> r.sentence == 0 && r.word == 0
    ensures |v.sentences| == 0 && generated.Some? ==>
      r.sentences == FloatingSentences(FullFlow(generated.value)) && WellFormed(Script(r.sentences, r.words))
    ensures |v.sentences| == 0 && generated.None? ==>
      r.sentences == [Placeholder] && |r.words| == 1 && |r.words[0]| > 0
  {
    if |v.sentences| == 0 && generated.Some? then
      var sc := FloatingScript(generated.value);
      View(sc.sentences, sc.words, 0, 0)
    else if |v.sentences| == 0 then
      var sc := PlaceholderScript();
      View(sc.sentences, sc.words, 0, 0)
    else v
  }

  /**
   * Running the fallback again changes nothing: a script that chunks to no
   * sentences is loaded the same way twice, and anything else is left alone.
   */
  lemma LoadFallbackIdempotent(v: View, generated: Option<GeneratedScript>)
    ensures LoadFallback(LoadFallback(v, generated), generated) == LoadFallback(v, generated)
  {
  }

  /**
   * Every sentence the fallback loads is non-empty, trimmed and free of
   * `.`, `!` and `?`, and its word list holds non-empty tokens without white
   * space.
   */
  lemma LoadFallbackShape(v: View, generated: Option<GeneratedScript>)
    requires |v.sentences| == 0 && generated.Some?
    ensures var r := LoadFallback(v, generated);
      |r.words| == |r.sentences|
      && (forall i :: 0 <= i < |r.sentences| ==> |r.sentences[i]| > 0 && Trimmed(r.sentences[i]) && NoDelim(r.sentences[i]))
      && (forall i, j :: 0 <= i < |r.words| && 0 <= j < |r.words[i]| ==> |r.words[i][j]| > 0 && NoSpace(r.words[i][j]))
  {
    var sc := FloatingScript(generated.value);
    assert LoadFallback(v, generated) == View(sc.sentences, sc.words, 0, 0);
    ScriptShape(sc);
  }

  /** A well-formed script's word lists hold non-empty tokens without white space. */
  lemma ScriptShape(sc: Script)
    requires WellFormed(sc)
    ensures forall i, j :: 0 <= i < |sc.words| && 0 <= j < |sc.words[i]| ==> |sc.words[i][j]| > 0 && NoSpace(sc.words[i][j])
  {
    forall i, j | 0 <= i < |sc.words| && 0 <= j < |sc.words[i]|
      ensures |sc.words[i][j]| > 0 && NoSpace(sc.words[i][j])
    {
      assert sc.words[i] == Tokens(sc.sentences[i]);
    }
  }

  /** With nothing shown and no product script, the window shows exactly the placeholder, from its first word. */
  lemma EmptyShowsPlaceholder()
    ensures LoadFallback(Empty, None) == View([Placeholder], [Tokens(Placeholder)], 0, 0)
  {
  }
}

=== FILE: font_size.dfy ===
/**
 * The font-size buttons of both prompter windows: two pixels per press,
 * clamped to a range — 12 to 40 in the floating window, 14 to 48 on the
 * dashboard — starting from 20 in both.
 */
module FontSize {
  import opened Base

  const Step: int := 2
  const Initial: int := 20

  /** The allowed range of one window. */
  datatype Range = Range(lo: int, hi: int)

  const FloatingRange: Range := Range(12, 40)
  const DashboardRange: Range := Range(14, 48)

  predicate InRange(f: int, r: Range) {
    r.lo <= f <= r.hi
  }

  /** The "-" button: two pixels smaller, never below the least size. */
  function Shrink(f: int, r: Range): (g: int)
    ensures g >= r.lo
    ensures g <= f || g == r.lo
    ensures f - Step >= r.lo ==> g == f - Step
  {
    Max(r.lo, f - Step)
  }

  /** The "+" button: two pixels larger, never above the greatest size. */
  function Grow(f: int, r: Range): (g: int)
    ensures g <= r.hi
    ensures g >= f || g == r.hi
    ensures f + Step <= r.hi ==> g == f + Step
  {
    Min(r.hi, f + Step)
  }

  /** Both buttons keep a size inside its window's range. */
  lemma ButtonsKeepRange(f: int, r: Range)
    requires r.lo <= r.hi && InRange(f, r)
    ensures InRange(Shrink(f, r), r) && InRange(Grow(f, r), r)
  {
  }

  /** Away from the top of the range, "-" undoes "+". */
  lemma ShrinkUndoesGrow(f: int, r: Range)
    requires InRange(f, r) && f + Step <= r.hi
    ensures Shrink(Grow(f, r), r) == f
  {
  }

  /** Both windows start inside their range. */
  lemma InitialInRange()
    ensures InRange(Initial, FloatingRange) && InRange(Initial, DashboardRange)
  {
  }

  /** Any run of presses starting in range stays in range. */
  lemma {:induction false} PressesKeepRange(f: int, r: Range, presses: seq<bool>)
    requires r.lo <= r.hi && InRange(f, r)
    ensures InRange(Apply(f, r, presses), r)
    decreases |presses|
  {
    if |presses| > 0 {
      ButtonsKeepRange(f, r);
      PressesKeepRange(if presses[0] then Grow(f, r) else Shrink(f, r), r, presses[1..]);
    }
  }

  /** The size after a run of presses: `true` for "+", `false` for "-". */
  function Apply(f: int, r: Range, presses: seq<bool>): int
    decreases |presses|
  {
    if |presses| == 0 then f
    else Apply(if presses[0] then Grow(f, r) else Shrink(f, r), r, presses[1..])
  }
}

=== FILE: jump_search.dfy ===
/**
 * `findMatchingSentence`: when the reader seems to have jumped, look for
 * another sentence of the script that the transcript reads well, scoring
 * each by overall similarity and by a strict in-order word walk.
 */
module JumpSearch {
  import opened Base
  import opened Text
  import opened Similarity
  import opened Segmenter

  /** Transcripts shorter than this are never searched. */
  const MinJumpWords: nat := 4
  /** A word counts in the strict walk at this similarity. */
  const StrictWordThreshold: real := 0.5
  /** A sentence needs a run of this many consecutive walked words. */
  const MinRun: nat := 3
  /** A run this long earns the bonus. */
  const LongRun: nat := 4
  const LongRunBonus: real := 0.15
  const AheadBonus: real := 0.05
  const BehindPenalty: real := 0.15
  /** The least final score a sentence may be jumped to with. */
  const MinScore: real := 0.55

  /**
   * The transcript's words: `toLowerCase().trim()`, punctuation to spaces,
   * split on white space. The tokens have no white space, capitals or
   * punctuation, and glued together they are the transcript's letters
   * lower-cased, with its punctuation and white space gone.
   */
  function TranscriptTokens(t: string): (ts: seq<string>)
    ensures forall i :: 0 <= i < |ts| ==> |ts[i]| > 0 && NoSpace(ts[i]) && HasNoUpper(ts[i]) && NoPunct(ts[i])
    ensures Concat(ts) == Squeeze(StripPunct(Lower(t)))
  {
    var l := Lower(t);
    var m := Trim(l);
    var p := PunctToSpace(m);
    var ts := Tokens(p);
    TrimKeepsClasses(l);
    assert HasNoUpper(p);
    TokenClasses(ts, p);
    TokensKeepText(p);
    SqueezePunctToSpace(m);
    SqueezeStripTrim(l);
    ts
  }

  /**
   * A sentence word as the walk compares it: `toLowerCase()` with
   * punctuation removed. The result has neither, and a word that has
   * neither is left as it is.
   */
  function JumpWord(w: string): (r: string)
    ensures HasNoUpper(r) && NoPunct(r)
    ensures HasNoUpper(w) && NoPunct(w) ==> r == w
  {
    var l := Lower(w);
    var r := StripPunct(l);
    assert HasNoUpper(r) by {
      forall i | 0 <= i < |r|
        ensures !IsUpper(r[i])
      {
        assert r[i] in l;
      }
    }
    if HasNoUpper(w) && NoPunct(w) then
      LowerNoop(w);
      r
    else
      r
  }

  /** Every word of the sentence prepared for the walk, in place. */
  function JumpWords(ws: seq<string>): (r: seq<string>)
    ensures |r| == |ws| && forall i :: 0 <= i < |ws| ==> r[i] == JumpWord(ws[i])
    ensures forall i :: 0 <= i < |r| ==> HasNoUpper(r[i]) && NoPunct(r[i])
    ensures forall i :: 0 <= i < |ws| && HasNoUpper(ws[i]) && NoPunct(ws[i]) ==> r[i] == ws[i]
  {
    seq(|ws|, i requires 0 <= i < |ws| => JumpWord(ws[i]))
  }

  /** The walk's counters: words matched, and the longest run of consecutive matches. */
  datatype Walk = Walk(matched: nat, longest: nat)

  /**
   * The strict walk from transcript words `ts` against sentence words `ws`,
   * with the current run `run` and the longest run so far: a match moves
   * both forward, a miss moves only the sentence forward and ends the run.
   */
  function WalkFrom(score: Scorer, ts: seq<string>, ws: seq<string>, run: nat, longest: nat): (r: Walk)
    requires run <= longest
    ensures r.matched <= |ts| && r.matched <= |ws|
    ensures longest <= r.longest <= Max(longest, run + r.matched)
    decreases |ws|
  {
    if |ts| == 0 || |ws| == 0 then Walk(0, longest)
    else if score(ts[0], ws[0]) >= StrictWordThreshold then
      var r := WalkFrom(score, ts[1..], ws[1..], run + 1, Max(longest, run + 1));
      Walk(r.matched + 1, r.longest)
    else WalkFrom(score, ts, ws[1..], 0, longest)
  }

  /** The walk from the start: no run is longer than the words matched, and none exceed either list. */
  function StrictWalk(score: Scorer, ts: seq<string>, ws: seq<string>): (r: Walk)
    ensures r.longest <= r.matched <= Min(|ts|, |ws|)
  {
    WalkFrom(score, ts, ws, 0, 0)
  }

  /** When each transcript word matches the sentence word at the same place, every word is walked in one run. */
  lemma {:induction false} WalkAligned(score: Scorer, ts: seq<string>, ws: seq<string>, run: nat, longest: nat)
    requires run <= longest
    requires forall i :: 0 <= i < |ts| && i < |ws| ==> score(ts[i], ws[i]) >= StrictWordThreshold
    ensures WalkFrom(score, ts, ws, run, longest).matched == Min(|ts|, |ws|)
    ensures WalkFrom(score, ts, ws, run, longest).longest == Max(longest, run + Min(|ts|, |ws|))
    decreases |ws|
  {
    if |ts| > 0 && |ws| > 0 {
      assert score(ts[0], ws[0]) >= StrictWordThreshold;
      assert forall i :: 0 <= i < |ts| - 1 && i < |ws| - 1 ==> ts[1..][i] == ts[i + 1] && ws[1..][i] == ws[i + 1];
      WalkAligned(score, ts[1..], ws[1..], run + 1, Max(longest, run + 1));
    }
  }

  /** Reading a sentence word for word: the walk matches all of it, in a single run. */
  lemma WalkVerbatim(ws: seq<string>)
    ensures StrictWalk(WordSimilarity, JumpWords(ws), JumpWords(ws)) == Walk(|ws|, |ws|)
  {
    var js := JumpWords(ws);
    assert forall i :: 0 <= i < |js| ==> WordSimilarity(js[i], js[i]) == 1.0;
    WalkAligned(WordSimilarity, js, js, 0, 0);
  }

  /** The score of sentence `i`, or `None` when the search skips it. */
  function CandidateScore(t: string, ts: seq<string>, sc: Script, i: nat, cur: int): (r: Option<real>)
    ensures r.Some? ==> Distant(i, cur) && |WordsAt(sc, i)| > 0
    ensures r.Some? ==> StrictWalk(WordSimilarity, ts, JumpWords(WordsAt(sc, i))).longest >= MinRun
  {
    var ws := WordsAt(sc, i);
    if i == cur || Abs(i - cur) <= 1 || |ws| == 0 then None
    else
      var sentence := if i < |sc.sentences| then sc.sentences[i] else "";
      var similarity := SentenceSimilarity(t, sentence);
      var walk := StrictWalk(WordSimilarity, ts, JumpWords(ws));
      if walk.longest < MinRun then None
      else
        var sequential := walk.matched as real / Max(|ts|, |ws|) as real;
        var bonus := if walk.longest >= LongRun then LongRunBonus else 0.0;
        var position := if i > cur then AheadBonus else -BehindPenalty;
        Some(similarity * 0.5 + sequential * 0.5 + bonus + position)
  }

  /** Sentence `i` is neither the current sentence `cur` nor next to it. */
  predicate Distant(i: int, cur: int) {
    Abs(i - cur) > 1
  }

  predicate Eligible(x: Option<real>) {
    x.Some? && x.value >= MinScore
  }

  /**
   * The search loop on a list of scores: scanning left to right from a best
   * of 0, a score replaces the best when it is higher and at least
   * `MinScore`. The result is the first of the highest eligible scores.
   */
  function FirstBest(xs: seq<Option<real>>): (r: Option<nat>)
    ensures r.Some? ==> r.value < |xs| && Eligible(xs[r.value])
    ensures r.Some? ==> forall k :: 0 <= k < |xs| && Eligible(xs[k]) ==> xs[k].value <= xs[r.value].value
    ensures r.Some? ==> forall k :: 0 <= k < r.value && Eligible(xs[k]) ==> xs[k].value < xs[r.value].value
    ensures r.None? <==> forall k :: 0 <= k < |xs| ==> !Eligible(xs[k])
    decreases |xs|
  {
    if |xs| == 0 then None
    else
      var front := xs[..|xs| - 1];
      var r := FirstBest(front);
      assert forall k :: 0 <= k < |xs| - 1 ==> front[k] == xs[k];
      var last := xs[|xs| - 1];
      if Eligible(last) && (r.None? || last.value > xs[r.value].value) then Some(|xs| - 1) else r
  }

  /** Every sentence's score, in script order. */
  function Scores(t: string, sc: Script, cur: int): (xs: seq<Option<real>>)
    ensures |xs| == |sc.sentences|
    ensures forall k :: 0 <= k < |xs| ==> xs[k] == CandidateScore(t, TranscriptTokens(t), sc, k, cur)
    ensures forall k :: 0 <= k < |xs| && xs[k].Some? ==> k != cur && Distant(k, cur) && |WordsAt(sc, k)| > 0
    ensures forall k :: 0 <= k < |xs| && xs[k].Some? ==>
      StrictWalk(WordSimilarity, TranscriptTokens(t), JumpWords(WordsAt(sc, k))).longest >= MinRun
  {
    var ts := TranscriptTokens(t);
    seq(|sc.sentences|, k requires 0 <= k < |sc.sentences| => CandidateScore(t, ts, sc, k, cur))
  }

  /**
   * `findMatchingSentence`: nothing for a transcript of fewer than four
   * words; otherwise the first best-scoring sentence at least two away from
   * the current one, if any scores 0.55 or more.
   */
  function FindMatchingSentence(t: string, sc: Script, cur: int): (r: Option<nat>)
    ensures |TranscriptTokens(t)| < MinJumpWords ==> r.None?
    ensures r.Some? ==> r.value < |sc.sentences| && Distant(r.value, cur)
  {
    if |TranscriptTokens(t)| < MinJumpWords then None
    else FirstBest(Scores(t, sc, cur))
  }

  /**
   * The sentence found scores at least 0.55 and no other scores higher; none
   * is found, from a transcript of four words or more, only when no sentence
   * scores 0.55.
   */
  lemma FindMatchingSentenceBest(t: string, sc: Script, cur: int)
    ensures var r := FindMatchingSentence(t, sc, cur);
      r.Some? ==> Eligible(Scores(t, sc, cur)[r.value])
    ensures var r := FindMatchingSentence(t, sc, cur);
      r.Some? ==> forall k :: 0 <= k < |sc.sentences| && Eligible(Scores(t, sc, cur)[k]) ==>
        Scores(t, sc, cur)[k].value <= Scores(t, sc, cur)[r.value].value
    ensures var r := FindMatchingSentence(t, sc, cur);
      r.None? && |TranscriptTokens(t)| >= MinJumpWords ==>
        forall k :: 0 <= k < |sc.sentences| ==> !Eligible(Scores(t, sc, cur)[k])
  {
  }
}

=== FILE: matcher.dfy ===
/**
 * The word matcher inside `handleTranscriptionResult`: how far into the
 * current sentence the transcript has read, and where the word cursor goes
 * next. The stages are the handler's own, in its order: sequential
 * alignment, the single-word fallback, the immediate-next-word override,
 * the next-sentence boundary check, and the decision on the new word index.
 * Each stage takes the word scorer as a parameter; the handler passes
 * `WordSimilarity`.
 */
module Matcher {
  import opened Base
  import opened Text
  import opened Similarity

  /** A word matches in the sequential and fuzzy stages at this similarity. */
  const SimilarityThreshold: real := 0.15
  /** A strong match in the single-word fallback. */
  const StrictThreshold: real := 0.35
  /** The immediate-next-word override needs this much. */
  const NextWordThreshold: real := 0.2
  /** Script words looked at past the cursor. */
  const ScriptWindow: nat := 20
  /** Transcript words looked at by the sequential stage. */
  const TranscriptWindow: nat := 15
  /** Transcript words looked at by the fallback. */
  const FallbackTokens: nat := 5
  /** The most words one transcript may advance the cursor. */
  const MaxAdvance: nat := 8
  /** The most words the pace-keeping fallback advances. */
  const PaceAdvance: nat := 3
  /** Per-word distance penalties of the strong and fuzzy fallback matches. */
  const StrongPenalty: real := 0.1
  const FuzzyPenalty: real := 0.15

  /** A word as the matcher wants it: no capitals, no punctuation, no white space at either end. */
  predicate IsClean(w: string) {
    HasNoUpper(w) && NoPunct(w) && Trimmed(w)
  }

  /**
   * A script word as the matcher compares it: lower-cased, punctuation
   * removed, trimmed. The result is clean, and a clean word is left as it is.
   */
  function CleanWord(w: string): (r: string)
    ensures IsClean(r)
    ensures IsClean(w) ==> r == w
  {
    var l := Lower(w);
    var p := StripPunct(l);
    assert HasNoUpper(p) by {
      forall i | 0 <= i < |p|
        ensures !IsUpper(p[i])
      {
        assert p[i] in l;
      }
    }
    TrimKeepsClasses(p);
    if IsClean(w) then
      LowerNoop(w);
      TrimNoop(w);
      Trim(p)
    else
      Trim(p)
  }

  /** Every word of the sentence cleaned, in place. */
  function CleanWords(ws: seq<string>): (r: seq<string>)
    ensures |r| == |ws| && forall i :: 0 <= i < |ws| ==> r[i] == CleanWord(ws[i])
    ensures forall i :: 0 <= i < |r| ==> IsClean(r[i])
    ensures forall i :: 0 <= i < |ws| && IsClean(ws[i]) ==> r[i] == ws[i]
  {
    seq(|ws|, i requires 0 <= i < |ws| => CleanWord(ws[i]))
  }

  /** One past the last script index the matcher examines: twenty words past the cursor, or the sentence's end. */
  function Limit(cur: nat, n: nat): (l: nat)
    ensures l <= n && l <= cur + ScriptWindow
    ensures cur < n ==> cur < l
  {
    if cur + ScriptWindow <= n then cur + ScriptWindow else n
  }

  // ---------------------------------------------------------------------------
  // Sequential alignment

  /** The sequential stage's totals: words matched, the index just past the last match, the best similarity seen. */
  datatype Run = Run(count: nat, end: nat, best: real)

  /**
   * The sequential loop from script index `s`. The transcript index always
   * equals `r.count`, since it moves exactly when a word matches. A match
   * moves both indices; a miss skips the script word, and once something has
   * matched the loop gives up after more than one skipped word. Empty
   * cleaned words are stepped over without counting as a miss.
   */
  function AlignFrom(score: Scorer, ts: seq<string>, cs: seq<string>, cur: nat, s: nat, r: Run): (out: Run)
    requires cur + r.count <= s
    requires r.count <= Min(|ts|, TranscriptWindow)
    requires r.count > 0 ==> cur + r.count <= r.end <= s
    ensures r.count <= out.count <= Min(|ts|, TranscriptWindow)
    ensures out.count == r.count ==> out == r
    ensures out.count > r.count ==> cur + out.count <= out.end <= Limit(cur, |cs|)
    ensures out.count > r.count ==> out.best >= SimilarityThreshold && out.best >= r.best
    ensures out.count > r.count ==> score(cs[out.end - 1], ts[out.count - 1]) >= SimilarityThreshold
    decreases |cs| - s
  {
    if r.count >= Min(|ts|, TranscriptWindow) || s >= Limit(cur, |cs|) then r
    else if |ts[r.count]| == 0 || |cs[s]| == 0 then AlignFrom(score, ts, cs, cur, s + 1, r)
    else
      var sim := score(cs[s], ts[r.count]);
      if sim >= SimilarityThreshold then
        AlignFrom(score, ts, cs, cur, s + 1, Run(r.count + 1, s + 1, if sim > r.best then sim else r.best))
      else if r.count > 0 && s + 1 - cur - r.count > 1 then r
      else AlignFrom(score, ts, cs, cur, s + 1, r)
  }

  /** The sequential stage from the cursor `cur`, with nothing matched yet. */
  function Align(score: Scorer, ts: seq<string>, cs: seq<string>, cur: nat): (out: Run)
    ensures out.count <= Min(|ts|, TranscriptWindow)
    ensures out.count == 0 ==> out == Run(0, cur, 0.0)
    ensures out.count > 0 ==> cur + out.count <= out.end <= Limit(cur, |cs|)
    ensures out.count > 0 ==> out.best >= SimilarityThreshold
    ensures out.count > 0 ==> score(cs[out.end - 1], ts[out.count - 1]) >= SimilarityThreshold
  {
    AlignFrom(score, ts, cs, cur, cur, Run(0, cur, 0.0))
  }

  /**
   * When the transcript reads script words `cur + r.count .. cur + k` in
   * order, each scoring at least the threshold, the stage matches at least
   * those; when `k` also fills the transcript window or reaches the limit,
   * it matches exactly those and ends just past them.
   */
  lemma {:induction false} AlignReadsAheadFrom(score: Scorer, ts: seq<string>, cs: seq<string>, cur: nat, r: Run, k: nat)
    requires r.count <= k <= Min(|ts|, TranscriptWindow) && cur + k <= Limit(cur, |cs|)
    requires r.count > 0 ==> r.end == cur + r.count
    requires forall i :: r.count <= i < k ==>
      |ts[i]| > 0 && |cs[cur + i]| > 0 && score(cs[cur + i], ts[i]) >= SimilarityThreshold
    ensures var out := AlignFrom(score, ts, cs, cur, cur + r.count, r);
      && out.count >= k
      && (k > 0 ==> out.end >= cur + k)
      && (k == Min(|ts|, TranscriptWindow) || cur + k == Limit(cur, |cs|) ==>
            out.count == k && (k > 0 ==> out.end == cur + k))
    decreases k - r.count
  {
    if r.count < k {
      var s := cur + r.count;
      var sim := score(cs[s], ts[r.count]);
      var next := Run(r.count + 1, s + 1, if sim > r.best then sim else r.best);
      AlignMatchStep(score, ts, cs, cur, s, r);
      AlignReadsAheadFrom(score, ts, cs, cur, next, k);
    }
  }

  /** A non-empty script word that scores at least the threshold against the next transcript word is matched. */
  lemma AlignMatchStep(score: Scorer, ts: seq<string>, cs: seq<string>, cur: nat, s: nat, r: Run)
    requires cur + r.count <= s
    requires r.count <= Min(|ts|, TranscriptWindow)
    requires r.count > 0 ==> cur + r.count <= r.end <= s
    requires r.count < Min(|ts|, TranscriptWindow) && s < Limit(cur, |cs|)
    requires |ts[r.count]| > 0 && |cs[s]| > 0 && score(cs[s], ts[r.count]) >= SimilarityThreshold
    ensures var sim := score(cs[s], ts[r.count]);
      AlignFrom(score, ts, cs, cur, s, r) ==
      AlignFrom(score, ts, cs, cur, s + 1, Run(r.count + 1, s + 1, if sim > r.best then sim else r.best))
  {
  }

  /**
   * Reading the next `k` script words verbatim: when `k` fills the transcript
   * window or reaches the limit, the sequential stage matches exactly `k`
   * words and ends at `cur + k`.
   */
  lemma AlignVerbatim(score: Scorer, ts: seq<string>, cs: seq<string>, cur: nat, k: nat)
    requires Reflexive(score)
    requires 0 < k <= Min(|ts|, TranscriptWindow) && cur + k <= Limit(cur, |cs|)
    requires k == Min(|ts|, TranscriptWindow) || cur + k == Limit(cur, |cs|)
    requires forall i :: 0 <= i < k ==> |ts[i]| > 0 && ts[i] == cs[cur + i]
    ensures Align(score, ts, cs, cur).count == k
    ensures Align(score, ts, cs, cur).end == cur + k
  {
    var start := Run(0, cur, 0.0);
    forall i | start.count <= i < k
      ensures |ts[i]| > 0 && |cs[cur + i]| > 0 && score(cs[cur + i], ts[i]) >= SimilarityThreshold
    {
      assert score(cs[cur + i], ts[i]) == 1.0;
    }
    AlignReadsAheadFrom(score, ts, cs, cur, start, k);
  }

  // ---------------------------------------------------------------------------
  // Single-word fallback

  /** The handler's best candidate: `bestMatchIndex`, `bestMatchSimilarity`, `matchedCount`, `foundMatch`. */
  datatype Best = Best(index: nat, similarity: real, count: nat, found: bool)

  /** A candidate no stage has improved on: the cursor itself, similarity 0. */
  function NoMatch(cur: nat): Best {
    Best(cur, 0.0, 0, false)
  }

  /**
   * The fallback's inner loop for one transcript word `tw`, from script
   * index `s`: a strong match (at least 0.35) loses 0.1 per word of distance
   * from the cursor, a fuzzy one (at least 0.15, and only while nothing
   * strong was found) loses 0.15; a candidate replaces the best when its
   * adjusted score is higher.
   */
  function FallbackWord(score: Scorer, tw: string, cs: seq<string>, cur: nat, s: nat, b: Best): (out: Best)
    requires cur <= s
    ensures out.similarity >= b.similarity
    ensures b.found ==> out.found
    ensures out == b || (out.similarity > b.similarity && out.count == 1 && cur < out.index <= Limit(cur, |cs|))
    decreases |cs| - s
  {
    if s >= Limit(cur, |cs|) then b
    else if |cs[s]| == 0 then FallbackWord(score, tw, cs, cur, s + 1, b)
    else
      var sim := score(cs[s], tw);
      var distance := (s - cur) as real;
      var b' :=
        if sim >= StrictThreshold then
          var adjusted := sim - distance * StrongPenalty;
          if adjusted > b.similarity then Best(s + 1, adjusted, 1, true) else b
        else if sim >= SimilarityThreshold && !b.found then
          var adjusted := sim - distance * FuzzyPenalty;
          if adjusted > b.similarity then Best(s + 1, adjusted, 1, b.found) else b
        else b;
      FallbackWord(score, tw, cs, cur, s + 1, b')
  }

  /** The fallback's outer loop over the first five transcript words, from word `t`; it stops after a word that made a strong match. */
  function FallbackFrom(score: Scorer, ts: seq<string>, cs: seq<string>, cur: nat, t: nat, b: Best): (out: Best)
    ensures out.similarity >= b.similarity
    ensures out == b || (out.similarity > b.similarity && out.count == 1 && cur < out.index <= Limit(cur, |cs|))
    ensures out != b ==> t < |ts|
    decreases |ts| - t
  {
    if t >= Min(Min(|ts|, TranscriptWindow), FallbackTokens) then b
    else if |ts[t]| < 1 then FallbackFrom(score, ts, cs, cur, t + 1, b)
    else
      var b' := FallbackWord(score, ts[t], cs, cur, cur, b);
      if b'.found && b'.similarity >= StrictThreshold then b'
      else FallbackFrom(score, ts, cs, cur, t + 1, b')
  }

  /** The fallback, run when the sequential stage matched nothing: at most one word, somewhere in the window. */
  function Fallback(score: Scorer, ts: seq<string>, cs: seq<string>, cur: nat): (out: Best)
    ensures out == NoMatch(cur) || (out.similarity > 0.0 && out.count == 1 && cur < out.index <= Limit(cur, |cs|))
    ensures out != NoMatch(cur) ==> |ts| > 0
  {
    FallbackFrom(score, ts, cs, cur, 0, NoMatch(cur))
  }

  /** After a match of similarity 1 or more, the rest of an inner loop (scores at most 1) changes nothing. */
  lemma {:induction false} FallbackWordKeeps(score: Scorer, tw: string, cs: seq<string>, cur: nat, s: nat, b: Best)
    requires cur < s
    requires b.found && b.similarity >= 1.0
    requires forall i :: s <= i < |cs| ==> score(cs[i], tw) <= 1.0
    ensures FallbackWord(score, tw, cs, cur, s, b) == b
    decreases |cs| - s
  {
    if s < Limit(cur, |cs|) {
      if |cs[s]| > 0 {
        var sim := score(cs[s], tw);
        var distance := (s - cur) as real;
        assert distance >= 1.0;
        assert sim - distance * StrongPenalty < 1.0;
      }
      FallbackWordKeeps(score, tw, cs, cur, s + 1, b);
    }
  }

  /**
   * When the first transcript word is the script word under the cursor (up to
   * case and surrounding space), the fallback settles on it: one word,
   * similarity 1, and a strong match.
   */
  lemma FallbackExact(score: Scorer, ts: seq<string>, cs: seq<string>, cur: nat)
    requires Bounded(score)
    requires cur < |cs| && |cs[cur]| > 0 && |ts| > 0 && |ts[0]| > 0
    requires score(cs[cur], ts[0]) == 1.0
    ensures Fallback(score, ts, cs, cur) == Best(cur + 1, 1.0, 1, true)
  {
    var b := Best(cur + 1, 1.0, 1, true);
    assert forall i :: cur + 1 <= i < |cs| ==> score(cs[i], ts[0]) <= 1.0;
    FallbackWordKeeps(score, ts[0], cs, cur, cur + 1, b);
    assert FallbackWord(score, ts[0], cs, cur, cur, NoMatch(cur)) == b;
  }

  // ---------------------------------------------------------------------------
  // Immediate-next-word override

  /** Transcript word `tw` overrides the best so far as a reading of the script word `next`. */
  predicate Lifts(score: Scorer, next: string, tw: string, best: real) {
    score(next, tw) >= NextWordThreshold && score(next, tw) > best
  }

  /** The first transcript word, from `i` on, that overrides the best so far. */
  function NextWordFrom(score: Scorer, next: string, ts: seq<string>, best: real, i: nat): (r: Option<nat>)
    requires i <= |ts|
    ensures r.Some? ==> i <= r.value < |ts| && Lifts(score, next, ts[r.value], best)
    ensures r.Some? ==> forall j :: i <= j < r.value ==> !Lifts(score, next, ts[j], best)
    ensures r.None? <==> forall j :: i <= j < |ts| ==> !Lifts(score, next, ts[j], best)
    decreases |ts| - i
  {
    if i == |ts| then None
    else if Lifts(score, next, ts[i], best) then Some(i)
    else NextWordFrom(score, next, ts, best, i + 1)
  }

  /** The earliest transcript word that reads the word under the cursor at least 0.2 and better than the best so far. */
  function NextWord(score: Scorer, next: string, ts: seq<string>, best: real): (r: Option<nat>)
    ensures r.Some? ==> r.value < |ts| && Lifts(score, next, ts[r.value], best)
    ensures r.Some? ==> forall j :: 0 <= j < r.value ==> !Lifts(score, next, ts[j], best)
    ensures r.None? <==> forall j :: 0 <= j < |ts| ==> !Lifts(score, next, ts[j], best)
  {
    NextWordFrom(score, next, ts, best, 0)
  }

  /**
   * The three word stages together. Sequential matches stand if there are
   * any, else the fallback runs; either may then be overridden by the word
   * under the cursor.
   */
  function Locate(score: Scorer, ts: seq<string>, cs: seq<string>, cur: nat): (b: Best)
    ensures b.count == 0 ==> b == NoMatch(cur)
    ensures b.count > 0 ==> cur + b.count <= b.index <= Limit(cur, |cs|)
    ensures b.count <= Min(|ts|, TranscriptWindow)
  {
    var run := Align(score, ts, cs, cur);
    var b :=
      if run.count > 0 then Best(run.end, run.best, run.count, true)
      else Fallback(score, ts, cs, cur);
    if cur < |cs| && |ts| > 0 then
      match NextWord(score, cs[cur], ts, b.similarity)
      case Some(i) => Best(cur + 1, score(cs[cur], ts[i]), 1, true)
      case None => b
    else b
  }

  // ---------------------------------------------------------------------------
  // Next-sentence boundary check

  predicate IsQuote(c: char) {
    c == '\'' || c == '"'
  }

  predicate NoQuote(w: string) {
    forall i :: 0 <= i < |w| ==> !IsQuote(w[i])
  }

  /**
   * `replace(/['"]/g, '')`: drops single and double quotes. A word without
   * quotes is kept whole, and one made only of quotes vanishes.
   */
  function StripQuotes(w: string): (r: string)
    ensures |r| <= |w| && NoQuote(r)
    ensures NoQuote(w) ==> r == w
    ensures (forall i :: 0 <= i < |w| ==> IsQuote(w[i])) ==> r == ""
    decreases |w|
  {
    if |w| == 0 then ""
    else if IsQuote(w[0]) then StripQuotes(w[1..])
    else [w[0]] + StripQuotes(w[1..])
  }

  /** Dropping quotes works character by character, so it distributes over concatenation. */
  lemma {:induction false} StripQuotesAppend(a: string, b: string)
    ensures StripQuotes(a + b) == StripQuotes(a) + StripQuotes(b)
    decreases |a|
  {
    if |a| == 0 {
      assert a + b == b;
    } else {
      assert (a + b)[1..] == a[1..] + b;
      StripQuotesAppend(a[1..], b);
    }
  }

  /** Two words agree on the first four letters, both being at least that long. */
  predicate SharePrefix4(a: string, b: string) {
    |a| >= 4 && |b| >= 4 && a[..4] == b[..4]
  }

  /**
   * The transcript opens the next sentence, whose cleaned words are `next`:
   * its first word, quotes removed and lower-cased, is the next sentence's
   * first word, or shares its first four letters.
   */
  predicate OpensNextSentence(ts: seq<string>, next: seq<string>) {
    |ts| > 0 && |next| > 0 &&
    var first := Lower(StripQuotes(ts[0]));
    next[0] == first || SharePrefix4(next[0], first)
  }

  /** Saying the next sentence's first word, as it is cleaned, opens that sentence. */
  lemma OpensOnSameWord(ts: seq<string>, next: seq<string>)
    requires |ts| > 0 && |next| > 0 && ts[0] == next[0]
    requires HasNoUpper(next[0])
    requires NoQuote(next[0])
    ensures OpensNextSentence(ts, next)
  {
    LowerNoop(ts[0]);
  }

  /** Words shorter than four letters open the next sentence only when they are that word exactly. */
  lemma ShortWordsMustAgree(ts: seq<string>, next: seq<string>)
    requires |ts| > 0 && |next| > 0 && |next[0]| < 4
    ensures OpensNextSentence(ts, next) <==> next[0] == Lower(StripQuotes(ts[0]))
  {
  }

  // ---------------------------------------------------------------------------
  // The new word index

  /**
   * Where the cursor goes from `cur` in a sentence of `len` words, given the
   * best candidate `b` and `tokens` transcript words; `None` when it stays.
   * A match of at least 0.15 past the cursor advances to it, by at most
   * eight words for a sequential run and one word otherwise. Failing that,
   * any transcript keeps pace: up to three words for several tokens, one for
   * a single token. (For a single token the source branches on the time since
   * the last match, and every branch advances one word.)
   */
  function Decide(b: Best, tokens: nat, cur: nat, len: nat): (r: Option<nat>)
    ensures r.Some? ==> cur < r.value <= cur + MaxAdvance
    ensures tokens > 0 && cur < len ==> r.Some?
    ensures r.None? <==> (b.similarity < SimilarityThreshold || b.index <= cur) && (tokens == 0 || cur >= len)
    ensures r.Some? && b.similarity >= SimilarityThreshold && b.index > cur ==> r.value <= b.index
  {
    if b.similarity >= SimilarityThreshold && b.index > cur then
      if b.count > 1 then Some(Min(b.index, cur + Min(b.count, MaxAdvance)))
      else Some(Min(b.index, cur + 1))
    else if tokens > 0 && cur < len then
      if tokens >= 2 then Some(cur + Min(tokens, PaceAdvance))
      else Some(cur + 1)
    else None
  }

  /** After a match of `k` words reaching at least `k` past the cursor, the cursor moves `k` words, eight at most. */
  lemma DecideAfterMatch(b: Best, tokens: nat, cur: nat, len: nat)
    requires b.similarity >= SimilarityThreshold && b.count > 0 && b.index >= cur + b.count
    ensures Decide(b, tokens, cur, len) == Some(cur + Min(b.count, MaxAdvance))
  {
  }

  /** Without a usable match, a transcript of `n` words moves the cursor `min(n, 3)` words. */
  lemma DecideKeepsPace(b: Best, tokens: nat, cur: nat, len: nat)
    requires b.similarity < SimilarityThreshold || b.index <= cur
    requires tokens > 0 && cur < len
    ensures Decide(b, tokens, cur, len) == Some(cur + Min(tokens, PaceAdvance))
  {
  }
}

=== FILE: prompter.dfy ===
/**
 * The dashboard's prompter as a state machine: the script it shows, the
 * cursor `(sentence, word)`, whether it runs, and the timestamps and timer
 * flag the transcript handler keeps between calls. Every event of the
 * source (a transcript, a navigation key, the stall timer, the timer-mode
 * tick, a new product script) is a pure function from state to state, with
 * `Date.now()` passed in as `now`.
 */
module Prompter {
  import opened Base
  import opened Text
  import opened Similarity
  import opened Segmenter
  import opened JumpSearch
  import opened Matcher

  /** `prompterMode`: following the reader's voice, or the interactive conversation. */
  datatype Mode = Voice | Interactive

  /** `prompterScrollMode`: advance by speech or by a fixed reading pace. */
  datatype ScrollMode = SpeechScroll | TimerScroll

  /**
   * The prompter. `word` is the committed `activeWordIndex`; `wordRef` is
   * `activeWordIndexRef`, which the transcript handler and the stall callback
   * read. The handler writes it when it advances, and an effect copies the
   * committed word into it whenever that word changes, so it can stay ahead
   * of the cursor when the committed word does not change. The refs for the
   * sentence index and the script are written only by such effects, so they
   * always equal `sentence` and `script`. `lastMatch`, `lastJump` and
   * `lastJumpTarget` are the refs `lastMatchTimeRef`, `lastSentenceJumpRef`
   * and `lastJumpSentenceIndexRef`; `stallPending` says a stall callback is
   * scheduled.
   */
  datatype State = State(
    script: Script,
    sentence: nat,
    word: nat,
    wordRef: nat,
    active: bool,
    lastMatch: int,
    lastJump: int,
    lastJumpTarget: int,
    stallPending: bool)

  /** The handler jumps only when the last match is older than this, if the cursor is at the sentence's end. */
  const StuckMillis: int := 1500
  /** Two jumps are at least this far apart. */
  const JumpDebounceMillis: int := 3000
  /** The anti-stall advance waits this long after the last match; the stall timer fires this long after an advance. */
  const StallMillis: int := 600

  /** The state on mounting: no script yet, cursor at the start, stopped, no jump yet. */
  function Init(now: int): (p: State)
    ensures Inv(p) && RefLag(p)
    ensures p.word == 0 && p.wordRef == 0 && !p.active && p.lastMatch == now
  {
    State(Script([], []), 0, 0, 0, false, now, 0, -1, false)
  }

  /** The words of the current sentence. */
  function Current(p: State): seq<string> {
    WordsAt(p.script, p.sentence)
  }

  /**
   * What every event keeps: the script pairs each sentence with a word list,
   * the sentence is in range when there is one, and the word cursor is at
   * most two past the sentence's end (the pace-keeping advance is not
   * clamped).
   */
  predicate Inv(p: State) {
    |p.script.words| == |p.script.sentences|
    && (|p.script.sentences| > 0 ==> p.sentence < |p.script.sentences|)
    && p.word <= |Current(p)| + PaceAdvance - 1
  }

  // ---------------------------------------------------------------------------
  // Navigation

  /**
   * `goToSentence`: nothing on an empty script; otherwise the sentence is
   * clamped to the script and the word to the sentence's last word (0 for a
   * sentence without words).
   */
  function GoToSentence(p: State, index: int, wordIndex: int): (q: State)
    ensures |p.script.sentences| == 0 ==> q == p
    ensures |p.script.sentences| > 0 ==> q.sentence < |p.script.sentences|
    ensures |p.script.sentences| > 0 ==> q.word <= Max(|Current(q)| - 1, 0)
    ensures 0 <= index < |p.script.sentences| ==> q.sentence == index
    ensures |p.script.sentences| > 0 && 0 <= wordIndex < |Current(q)| ==> q.word == wordIndex
    ensures q.(sentence := p.sentence, word := p.word) == p
  {
    var n := |p.script.sentences|;
    if n == 0 then p
    else
      var safe := Max(0, Min(index, n - 1));
      var words := WordsAt(p.script, safe);
      var safeWord := Max(0, Min(wordIndex, Max(|words| - 1, 0)));
      p.(sentence := safe, word := safeWord)
  }

  /** `goToNextSentence`: to the next sentence's first word, or, at the last sentence, stop the prompter where it is. */
  function GoToNextSentence(p: State): (q: State)
    ensures p.sentence + 1 < |p.script.sentences| ==> q == p.(sentence := p.sentence + 1, word := 0)
    ensures p.sentence + 1 >= |p.script.sentences| ==> q == p.(active := false)
  {
    if p.sentence < |p.script.sentences| - 1 then p.(sentence := p.sentence + 1, word := 0)
    else p.(active := false)
  }

  /** `goToPreviousSentence`: to the previous sentence's first word; nothing at the first. */
  function GoToPreviousSentence(p: State): (q: State)
    ensures p.sentence > 0 ==> q == p.(sentence := p.sentence - 1, word := 0)
    ensures p.sentence == 0 ==> q == p
  {
    if p.sentence > 0 then p.(sentence := p.sentence - 1, word := 0) else p
  }

  /** Forward then back returns to the start of the sentence, when there is a next one. */
  lemma NextThenPrevious(p: State)
    requires p.sentence + 1 < |p.script.sentences|
    ensures GoToPreviousSentence(GoToNextSentence(p)) == p.(word := 0)
  {
  }

  lemma GoToSentenceKeepsInv(p: State, index: int, wordIndex: int)
    requires Inv(p)
    ensures Inv(GoToSentence(p, index, wordIndex))
  {
  }

  lemma GoToNextSentenceKeepsInv(p: State)
    requires Inv(p)
    ensures Inv(GoToNextSentence(p))
  {
  }

  lemma GoToPreviousSentenceKeepsInv(p: State)
    requires Inv(p)
    ensures Inv(GoToPreviousSentence(p))
  {
  }

  // ---------------------------------------------------------------------------
  // The transcript handler

  /**
   * The jump gate: at least four transcript words; the cursor at the start
   * of the sentence, or at its last word with no match for 1.5 s; and no
   * jump in the last 3 s.
   */
  predicate JumpGate(p: State, tokens: nat, len: nat, now: int) {
    tokens >= MinJumpWords
    && (p.wordRef < 1 || (p.wordRef + 1 >= len && now - p.lastMatch > StuckMillis))
    && now - p.lastJump > JumpDebounceMillis
  }

  /** The sentence the handler jumps to: the search's answer when the gate is open and it differs from the last jump's target. */
  function JumpTarget(p: State, transcript: string, len: nat, now: int): (r: Option<nat>)
    ensures r.Some? ==> JumpGate(p, |TranscriptTokens(transcript)|, len, now)
    ensures r.Some? ==> r.value < |p.script.sentences| && Distant(r.value, p.sentence)
    ensures r.Some? ==> r.value != p.lastJumpTarget
  {
    if !JumpGate(p, |TranscriptTokens(transcript)|, len, now) then None
    else
      match FindMatchingSentence(transcript, p.script, p.sentence)
      case Some(j) => if j != p.sentence && j != p.lastJumpTarget then Some(j) else None
      case None => None
  }

  /** The boundary check: nothing matched, the cursor is on the last word, and the transcript opens the next sentence. */
  predicate AtBoundary(p: State, ts: seq<string>, b: Best) {
    b.count == 0 && p.wordRef + 1 >= |Current(p)| && p.sentence + 1 < |p.script.sentences|
    && OpensNextSentence(ts, CleanWords(WordsAt(p.script, p.sentence + 1)))
  }

  /**
   * The cursor after the matcher's verdict `b`, counted from the word ref:
   * the decided advance (which also writes the ref, records the match time
   * and schedules the stall timer), else the anti-stall step of one word once
   * 0.6 s have passed without a match (which leaves the ref alone).
   */
  function Advance(p: State, b: Best, tokens: nat, now: int): (q: State)
    ensures q.script == p.script && q.sentence == p.sentence && q.active == p.active
    ensures q.lastJump == p.lastJump && q.lastJumpTarget == p.lastJumpTarget
    ensures q == p || p.wordRef < q.word <= p.wordRef + MaxAdvance
    ensures q.wordRef == p.wordRef || q.wordRef == q.word
    ensures q.stallPending != p.stallPending ==> q.stallPending && q.wordRef == q.word && q.lastMatch == now
  {
    var cur := p.wordRef;
    var len := |Current(p)|;
    match Decide(b, tokens, cur, len)
    case Some(w) => p.(word := w, wordRef := w, lastMatch := now, stallPending := true)
    case None =>
      if now - p.lastMatch > StallMillis && cur < len then p.(word := cur + 1, lastMatch := now)
      else p
  }

  /**
   * The stages after the jump gate: the word matcher from the word ref, then
   * the boundary check, the advance and sentence completion. They keep the
   * script and the jump refs, and leave the word ref alone, write the cursor
   * into it, or end on a sentence's first word.
   */
  function Follow(p: State, ts: seq<string>, now: int): (q: State)
    ensures q.script == p.script && q.lastJump == p.lastJump && q.lastJumpTarget == p.lastJumpTarget
    ensures q.wordRef == p.wordRef || q.wordRef == q.word || q.word == 0
  {
    Proceed(p, ts, Locate(WordSimilarity, ts, CleanWords(Current(p)), p.wordRef), now)
  }

  /** The stages after the word matcher's verdict `b`: the boundary check, the advance, and sentence completion. */
  function Proceed(p: State, ts: seq<string>, b: Best, now: int): (q: State)
    ensures q.script == p.script && q.lastJump == p.lastJump && q.lastJumpTarget == p.lastJumpTarget
    ensures q.wordRef == p.wordRef || q.wordRef == q.word || q.word == 0
  {
    if AtBoundary(p, ts, b) then GoToSentence(p, p.sentence + 1, 0)
    else
      var moved := Advance(p, b, |ts|, now);
      if b.index >= |Current(p)| then GoToNextSentence(moved) else moved
  }

  /**
   * `handleTranscriptionResult`. A blank transcript, the interactive mode
   * (whose conversation flow is not part of this model) and a sentence
   * without words leave the state alone. Otherwise a jump to another
   * sentence is tried first, then the word matcher.
   */
  function Handle(p: State, mode: Mode, transcript: string, now: int): (q: State)
    ensures IsBlank(transcript) || mode == Interactive || |Current(p)| == 0 ==> q == p
    ensures q.script == p.script
  {
    if IsBlank(transcript) || mode == Interactive then p
    else
      var words := Current(p);
      if |words| == 0 then p
      else
        match JumpTarget(p, transcript, |words|, now)
        case Some(j) => GoToSentence(p.(lastJump := now, lastJumpTarget := j), j, 0)
        case None => Follow(p, TranscriptTokens(transcript), now)
  }

  /**
   * A jump is the only thing that moves `lastJump`; when it happens the gate
   * was open, the target is at least two sentences away and not the last
   * target, and the cursor lands on the target's first word with the jump
   * recorded.
   */
  lemma HandleJumpGated(p: State, mode: Mode, transcript: string, now: int)
    requires Inv(p)
    requires Handle(p, mode, transcript, now).lastJump != p.lastJump
    ensures var q := Handle(p, mode, transcript, now);
      JumpGate(p, |TranscriptTokens(transcript)|, |Current(p)|, now)
      && q.lastJump == now && q.lastJumpTarget == q.sentence && q.word == 0
      && q.sentence != p.lastJumpTarget && Distant(q.sentence, p.sentence)
  {
    if JumpTarget(p, transcript, |Current(p)|, now).None? {
      HandleFollows(p, mode, transcript, now);
    }
  }

  /**
   * Without a jump the cursor stays, or moves forward within the sentence to
   * at most eight words past the word ref, or on to the next sentence's
   * first word.
   */
  lemma FollowMovesForward(p: State, ts: seq<string>, now: int)
    requires Inv(p) && |Current(p)| > 0
    ensures var q := Follow(p, ts, now);
      (q.sentence == p.sentence && (q.word == p.word || p.wordRef < q.word <= p.wordRef + MaxAdvance))
      || (q.sentence == p.sentence + 1 && q.word == 0)
  {
    var b := Locate(WordSimilarity, ts, CleanWords(Current(p)), p.wordRef);
    assert Follow(p, ts, now) == Proceed(p, ts, b, now);
    ProceedMovesForward(p, ts, b, now);
  }

  lemma ProceedMovesForward(p: State, ts: seq<string>, b: Best, now: int)
    requires Inv(p) && |Current(p)| > 0
    ensures var q := Proceed(p, ts, b, now);
      (q.sentence == p.sentence && (q.word == p.word || p.wordRef < q.word <= p.wordRef + MaxAdvance))
      || (q.sentence == p.sentence + 1 && q.word == 0)
  {
    if !AtBoundary(p, ts, b) {
      var moved := Advance(p, b, |ts|, now);
      assert Current(moved) == Current(p);
    }
  }

  /**
   * With at least one transcript word and the word ref inside the sentence,
   * the handler moves the cursor past the ref or on to the next sentence: it
   * never stalls on a transcript. When the ref lags only at a sentence's
   * start, the cursor therefore always moves.
   */
  lemma FollowProgresses(p: State, ts: seq<string>, now: int)
    requires Inv(p) && |ts| > 0 && p.wordRef < |Current(p)|
    ensures var q := Follow(p, ts, now);
      q.sentence == p.sentence + 1 || q.word > p.wordRef
    ensures RefLag(p) ==> var q := Follow(p, ts, now);
      (q.sentence, q.word) != (p.sentence, p.word)
  {
    var b := Locate(WordSimilarity, ts, CleanWords(Current(p)), p.wordRef);
    assert Follow(p, ts, now) == Proceed(p, ts, b, now);
    ProceedProgresses(p, ts, b, now);
  }

  lemma ProceedProgresses(p: State, ts: seq<string>, b: Best, now: int)
    requires |ts| > 0 && p.wordRef < |Current(p)|
    ensures var q := Proceed(p, ts, b, now);
      q.sentence == p.sentence + 1 || q.word > p.wordRef
  {
    if !AtBoundary(p, ts, b) {
      assert Decide(b, |ts|, p.wordRef, |Current(p)|).Some?;
    }
  }

  /**
   * A transcript with no words (only punctuation, say) matches nothing; the
   * cursor moves one word by the anti-stall rule once 0.6 s have passed
   * since the last match, and otherwise stays.
   */
  lemma FollowWithoutWords(p: State, now: int)
    requires p.wordRef < |Current(p)|
    ensures Follow(p, [], now) ==
      if now - p.lastMatch > StallMillis then p.(word := p.wordRef + 1, lastMatch := now) else p
  {
    var b := Locate(WordSimilarity, [], CleanWords(Current(p)), p.wordRef);
    assert b == NoMatch(p.wordRef);
    assert Follow(p, [], now) == Proceed(p, [], b, now);
  }

  lemma FollowKeepsInv(p: State, ts: seq<string>, now: int)
    requires Inv(p) && |Current(p)| > 0
    ensures Inv(Follow(p, ts, now))
  {
    var b := Locate(WordSimilarity, ts, CleanWords(Current(p)), p.wordRef);
    assert Follow(p, ts, now) == Proceed(p, ts, b, now);
    if !AtBoundary(p, ts, b) {
      var moved := Advance(p, b, |ts|, now);
      assert Current(moved) == Current(p);
      assert moved.word <= |Current(p)| + PaceAdvance - 1 by {
        AdvanceBound(p, b, |ts|, now);
      }
      if b.index >= |Current(p)| {
        GoToNextSentenceKeepsInv(moved);
      }
    }
  }

  /** The advance lands at most two past the sentence's end, given the matcher never looks past it. */
  lemma AdvanceBound(p: State, b: Best, tokens: nat, now: int)
    requires Inv(p)
    requires b.index <= |Current(p)| || b.index == p.wordRef
    ensures Advance(p, b, tokens, now).word <= |Current(p)| + PaceAdvance - 1
  {
  }

  lemma HandleKeepsInv(p: State, mode: Mode, transcript: string, now: int)
    requires Inv(p)
    ensures Inv(Handle(p, mode, transcript, now))
  {
    var q := Handle(p, mode, transcript, now);
    if !IsBlank(transcript) && mode == Voice && |Current(p)| > 0 {
      var t := JumpTarget(p, transcript, |Current(p)|, now);
      if t.Some? {
        var p' := p.(lastJump := now, lastJumpTarget := t.value);
        assert q == GoToSentence(p', t.value, 0);
        GoToSentenceKeepsInv(p', t.value, 0);
      } else {
        assert q == Follow(p, TranscriptTokens(transcript), now);
        FollowKeepsInv(p, TranscriptTokens(transcript), now);
      }
    }
  }

  // ---------------------------------------------------------------------------
  // The recognition callback as written

  /**
   * `goToSentence` as the speech-recognition callback holds it. The callback
   * is created when the recognition effect runs, which happens only when the
   * running flag or the mode changes, so its `goToSentence` clamps against
   * the script `nav` of that render while the handler reads the current
   * script through refs.
   */
  function GoToSentenceOver(nav: Script, p: State, index: int, wordIndex: int): (q: State)
    ensures q.script == p.script && q.active == p.active
    ensures |nav.sentences| == 0 ==> q == p
    ensures |nav.sentences| > 0 ==> q.sentence < |nav.sentences|
    ensures nav == p.script ==> q == GoToSentence(p, index, wordIndex)
  {
    GoToSentence(p.(script := nav), index, wordIndex).(script := p.script)
  }

  /** `goToNextSentence` as the recognition callback holds it: whether there is a next sentence is judged by `nav`. */
  function GoToNextSentenceOver(nav: Script, p: State): (q: State)
    ensures q.script == p.script
    ensures p.sentence + 1 < |nav.sentences| ==> q.sentence == p.sentence + 1 && q.word == 0 && q.active == p.active
    ensures p.sentence + 1 >= |nav.sentences| ==> q.sentence == p.sentence && !q.active
    ensures nav == p.script ==> q == GoToNextSentence(p)
  {
    GoToNextSentence(p.(script := nav)).(script := p.script)
  }

  /** The stages after the word matcher's verdict, navigating as the recognition callback does. */
  function ProceedOver(nav: Script, p: State, ts: seq<string>, b: Best, now: int): (q: State)
    ensures q.script == p.script
    ensures nav == p.script ==> q == Proceed(p, ts, b, now)
  {
    if AtBoundary(p, ts, b) then GoToSentenceOver(nav, p, p.sentence + 1, 0)
    else
      var moved := Advance(p, b, |ts|, now);
      if b.index >= |Current(p)| then GoToNextSentenceOver(nav, moved) else moved
  }

  /**
   * `handleTranscriptionResult` as the recognition callback runs it: every
   * ref it reads is current, but its navigation belongs to the render that
   * last started recognition, whose script was `nav`. With a fresh closure
   * it is Handle.
   */
  function HandleOver(nav: Script, p: State, mode: Mode, transcript: string, now: int): (q: State)
    ensures q.script == p.script
    ensures IsBlank(transcript) || mode == Interactive || |Current(p)| == 0 ==> q == p
    ensures nav == p.script ==> q == Handle(p, mode, transcript, now)
  {
    if IsBlank(transcript) || mode == Interactive then p
    else
      var words := Current(p);
      if |words| == 0 then p
      else
        match JumpTarget(p, transcript, |words|, now)
        case Some(j) => GoToSentenceOver(nav, p.(lastJump := now, lastJumpTarget := j), j, 0)
        case None =>
          var ts := TranscriptTokens(transcript);
          ProceedOver(nav, p, ts, Locate(WordSimilarity, ts, CleanWords(Current(p)), p.wordRef), now)
  }

  /**
   * On the current script's last sentence, a transcript read to the end
   * stops the prompter. A callback still holding a longer script sees a next
   * sentence instead and moves the cursor past the end of the script, which
   * breaks the invariant.
   */
  lemma StaleHandlerOverruns(nav: Script, p: State, text: string, now: int)
    requires Inv(p) && !IsBlank(text) && |Current(p)| > 0
    requires p.sentence + 1 == |p.script.sentences| < |nav.sentences|
    requires JumpTarget(p, text, |Current(p)|, now).None?
    requires Locate(WordSimilarity, TranscriptTokens(text), CleanWords(Current(p)), p.wordRef).index >= |Current(p)|
    ensures var q := HandleOver(nav, p, Voice, text, now);
      q.sentence == |p.script.sentences| && q.word == 0 && !Inv(q)
    ensures var q := Handle(p, Voice, text, now);
      q.sentence == p.sentence && !q.active && Inv(q)
  {
    var ts := TranscriptTokens(text);
    var b := Locate(WordSimilarity, ts, CleanWords(Current(p)), p.wordRef);
    assert HandleOver(nav, p, Voice, text, now) == ProceedOver(nav, p, ts, b, now);
    HandleFollows(p, Voice, text, now);
    assert Handle(p, Voice, text, now) == Proceed(p, ts, b, now);
    StaleCompletionOverruns(nav, p, ts, b, now);
    HandleKeepsInv(p, Voice, text, now);
  }

  /** The same at the matcher's verdict: a completing verdict on the last sentence, with and without the stale closure. */
  lemma StaleCompletionOverruns(nav: Script, p: State, ts: seq<string>, b: Best, now: int)
    requires p.sentence + 1 == |p.script.sentences| < |nav.sentences|
    requires b.index >= |Current(p)|
    ensures var q := ProceedOver(nav, p, ts, b, now);
      q.sentence == p.sentence + 1 && q.word == 0 && q.script == p.script
    ensures var q := Proceed(p, ts, b, now);
      q.sentence == p.sentence && !q.active
  {
    assert !AtBoundary(p, ts, b);
    var moved := Advance(p, b, |ts|, now);
    assert ProceedOver(nav, p, ts, b, now) == GoToNextSentenceOver(nav, moved);
    assert Proceed(p, ts, b, now) == GoToNextSentence(moved);
  }

  // ---------------------------------------------------------------------------
  // Timers

  /**
   * The stall callback, 0.6 s after an advance: one word past the word ref
   * if the ref is still inside the sentence, recording the time; the
   * callback is then spent. It does not write the ref itself.
   */
  function StallFire(p: State, now: int): (q: State)
    ensures !p.stallPending ==> q == p
    ensures p.stallPending ==> !q.stallPending && q.wordRef == p.wordRef
    ensures p.stallPending && p.wordRef < |Current(p)| ==> q == p.(word := p.wordRef + 1, lastMatch := now, stallPending := false)
    ensures p.stallPending && p.wordRef >= |Current(p)| ==> q == p.(stallPending := false)
  {
    if !p.stallPending then p
    else if p.wordRef < |Current(p)| then p.(word := p.wordRef + 1, lastMatch := now, stallPending := false)
    else p.(stallPending := false)
  }

  lemma StallFireKeepsInv(p: State, now: int)
    requires Inv(p)
    ensures Inv(StallFire(p, now))
  {
  }

  /** Reading pace of the timer mode, in words per minute at speed 1. */
  const WordsPerMinute: real := 180.0
  /** The shortest time a word stays highlighted, in milliseconds. */
  const MinWordMillis: real := 200.0

  /** How long each word stays highlighted at `speed`: a minute over the words read per minute, at least 0.2 s. */
  function WordDuration(speed: real): (d: real)
    requires speed > 0.0
    ensures d >= MinWordMillis
    ensures d * WordsPerMinute * speed >= 60000.0
    ensures d > MinWordMillis ==> d * WordsPerMinute * speed == 60000.0
  {
    var pace := 60000.0 / (WordsPerMinute * speed);
    if pace > MinWordMillis then pace else MinWordMillis
  }

  /** A faster speed never lengthens a word. */
  lemma WordDurationMonotone(s1: real, s2: real)
    requires 0.0 < s1 <= s2
    ensures WordDuration(s2) <= WordDuration(s1)
  {
    var p1 := 60000.0 / (WordsPerMinute * s1);
    var p2 := 60000.0 / (WordsPerMinute * s2);
    assert p2 * (WordsPerMinute * s2) == 60000.0;
    assert p1 * (WordsPerMinute * s1) == 60000.0;
    assert WordsPerMinute * s1 <= WordsPerMinute * s2;
    assert p2 <= p1 by {
      if p2 > p1 {
        MulStrict(p1, p2, WordsPerMinute * s1, WordsPerMinute * s2);
      }
    }
  }

  lemma MulStrict(a: real, b: real, x: real, y: real)
    requires 0.0 < a < b && 0.0 < x <= y
    ensures a * x < b * y
  {
    assert a * x <= a * y;
    assert a * y < b * y;
  }

  /**
   * The timer-mode tick, when the prompter runs in voice mode with timer
   * scrolling: a sentence without words is skipped at once; otherwise the
   * cursor moves one word, and past the last word the prompter moves to the
   * next sentence (or, at the last one, stops with the cursor at the end).
   */
  function TimerTick(p: State, mode: Mode, scroll: ScrollMode): (q: State)
  {
    if !(p.active && mode == Voice && scroll == TimerScroll) then p
    else
      var len := |Current(p)|;
      if len == 0 then GoToNextSentence(p)
      else if p.word + 1 >= len then GoToNextSentence(p.(word := len))
      else p.(word := p.word + 1)
  }

  /**
   * A running tick moves one word inside the sentence, or to the next
   * sentence's first word, or stops the prompter at the last sentence with
   * the cursor at the sentence's end (or where it was, for a sentence without
   * words).
   */
  lemma TimerTickSteps(p: State, mode: Mode, scroll: ScrollMode)
    requires Inv(p) && p.active && mode == Voice && scroll == TimerScroll
    ensures var q := TimerTick(p, mode, scroll);
      (q.sentence == p.sentence && q.word == p.word + 1 < |Current(p)| && q.active)
      || (q.sentence == p.sentence + 1 && q.word == 0 && q.active)
      || (q.sentence == p.sentence && !q.active && (q.word == |Current(p)| || q.word == p.word))
  {
  }

  lemma TimerTickKeepsInv(p: State, mode: Mode, scroll: ScrollMode)
    requires Inv(p)
    ensures Inv(TimerTick(p, mode, scroll))
  {
  }

  // ---------------------------------------------------------------------------
  // Loading a product's script

  /**
   * A new active product: its generated script, chunked and tokenised, from
   * the start with the prompter stopped; without one, the placeholder
   * sentence from the start, the running flag untouched.
   */
  function LoadScript(p: State, generated: Option<GeneratedScript>): (q: State)
    ensures q.sentence == 0 && q.word == 0 && WellFormed(q.script)
    ensures generated.Some? ==> q.script == DashboardScript(generated.value) && !q.active
    ensures generated.None? ==> q.script.sentences == [Placeholder] && q.active == p.active
  {
    match generated
    case Some(g) => p.(script := DashboardScript(g), sentence := 0, word := 0, active := false)
    case None => p.(script := PlaceholderScript(), sentence := 0, word := 0)
  }

  lemma LoadScriptKeepsInv(p: State, generated: Option<GeneratedScript>)
    ensures Inv(LoadScript(p, generated))
  {
  }

  /**
   * The auto-start effect, keyed on the mode, the scroll mode and the
   * sentence count: after a load that changed the count it sets the
   * prompter running in the interactive mode, with timer scrolling, or with
   * speech scrolling over a non-empty script. Only the running flag changes.
   */
  function AutoStart(before: State, after: State, mode: Mode, scroll: ScrollMode): (q: State)
    ensures q == after.(active := q.active)
    ensures |after.script.sentences| == |before.script.sentences| ==> q == after
    ensures |after.script.sentences| != |before.script.sentences| ==>
      (q.active <==> after.active || mode == Interactive || scroll == TimerScroll || |after.script.sentences| > 0)
  {
    var n := |after.script.sentences|;
    if n == |before.script.sentences| then after
    else if (mode == Voice && scroll == SpeechScroll && n > 0) || mode == Interactive then after.(active := true)
    else if mode == Voice && scroll == TimerScroll then after.(active := true)
    else
      assert mode.Voice? && scroll.SpeechScroll? && n == 0;
      after
  }

  /** A new product's script, followed by the auto-start effect. */
  function Load(p: State, generated: Option<GeneratedScript>, mode: Mode, scroll: ScrollMode): (q: State)
    ensures Inv(q) && q.sentence == 0 && q.word == 0 && q.script == LoadScript(p, generated).script
    ensures q.wordRef == p.wordRef
    ensures |q.script.sentences| != |p.script.sentences| ==>
      (q.active <==> mode == Interactive || scroll == TimerScroll || |q.script.sentences| > 0)
    ensures |q.script.sentences| == |p.script.sentences| ==> (q.active <==> generated.None? && p.active)
  {
    var r := LoadScript(p, generated);
    LoadScriptKeepsInv(p, generated);
    assert r.active == (generated.None? && p.active);
    assert generated.None? ==> |r.script.sentences| > 0;
    AutoStart(p, r, mode, scroll)
  }

  /**
   * A new product, with the auto-start that follows it: the cursor is at the
   * start of the new script, and the word ref is reset only if the shown word
   * was not already 0. When the count of sentences changed, the prompter runs
   * unless it follows speech in the voice mode over an empty script; when the
   * count did not change, it runs only if it ran before and the product had
   * no generated script (loading one stops it).
   */
  lemma ProductLoadedRuns(p: State, generated: Option<GeneratedScript>, mode: Mode, scroll: ScrollMode, now: int)
    ensures var q := Step(p, ProductLoaded(generated, mode, scroll), now);
      var n := |LoadScript(p, generated).script.sentences|;
      q.sentence == 0 && q.word == 0 && q.script == LoadScript(p, generated).script
      && (p.word != 0 ==> q.wordRef == 0) && (p.word == 0 ==> q.wordRef == p.wordRef)
      && (n != |p.script.sentences| ==> (q.active <==> mode == Interactive || scroll == TimerScroll || n > 0))
      && (n == |p.script.sentences| ==> (q.active <==> generated.None? && p.active))
  {
    StepLoad(p, ProductLoaded(generated, mode, scroll), now);
  }

  /**
   * A product without a script, loaded while the prompter runs, leaves it
   * running throughout. The recognition effect is keyed on the running flag
   * and the mode, so it does not run again, and the callback keeps the
   * navigation of the previous script (HandleOver).
   */
  lemma PlaceholderKeepsRunning(p: State, mode: Mode, scroll: ScrollMode, now: int)
    requires p.active
    ensures var q := Step(p, ProductLoaded(None, mode, scroll), now);
      q.active && q.script.sentences == [Placeholder] && q.sentence == 0 && q.word == 0
  {
    ProductLoadedRuns(p, None, mode, scroll, now);
  }

  lemma StepLoad(p: State, e: Event, now: int)
    requires e.ProductLoaded?
    ensures Step(p, e, now) == Settle(p, Load(p, e.generated, e.mode, e.scroll))
  {
  }

  // ---------------------------------------------------------------------------
  // Events and the word ref

  /** The word ref differs from the cursor only while the cursor is on a sentence's first word. */
  predicate RefLag(p: State) {
    p.wordRef == p.word || p.word == 0
  }

  /**
   * React's commit after an event: when the committed word changed, the
   * effect on `activeWordIndex` copies it into the ref; otherwise the ref
   * keeps what the event left in it. Nothing else changes.
   */
  function Settle(before: State, after: State): (q: State)
    ensures q.(wordRef := after.wordRef) == after
    ensures after.word != before.word ==> q.wordRef == q.word
    ensures after.word == before.word ==> q.wordRef == after.wordRef
  {
    if after.word != before.word then after.(wordRef := after.word) else after
  }

  /**
   * What reaches the dashboard: a transcript, a click on a word
   * (`goToSentence`), the arrow and Home keys, the space bar, the stall
   * callback, the timer-mode tick, and a new active product (with the
   * modes the auto-start effect reads).
   */
  datatype Event =
    | Transcript(mode: Mode, text: string)
    | Select(index: int, wordIndex: int)
    | NextKey
    | PreviousKey
    | HomeKey
    | SpaceKey
    | StallTimer
    | WordTimer(mode: Mode, scroll: ScrollMode)
    | ProductLoaded(generated: Option<GeneratedScript>, mode: Mode, scroll: ScrollMode)

  /** The state updates one event makes, before React commits them. */
  function Raw(p: State, e: Event, now: int): State {
    match e
    case Transcript(mode, text) => Handle(p, mode, text, now)
    case Select(index, wordIndex) => GoToSentence(p, index, wordIndex)
    case NextKey => GoToNextSentence(p)
    case PreviousKey => GoToPreviousSentence(p)
    case HomeKey => GoToSentence(p, 0, 0)
    case SpaceKey => p.(active := !p.active)
    case StallTimer => StallFire(p, now)
    case WordTimer(mode, scroll) => TimerTick(p, mode, scroll)
    case ProductLoaded(generated, mode, scroll) => Load(p, generated, mode, scroll)
  }

  /**
   * One event, committed: the script, the cursor and the handler's refs
   * after it. Only a transcript moves the jump refs, and the word ref is
   * the cursor or, at a sentence's first word, possibly ahead of it.
   */
  function Step(p: State, e: Event, now: int): (q: State)
    ensures !e.Transcript? ==> q.lastJump == p.lastJump && q.lastJumpTarget == p.lastJumpTarget
    ensures RefLag(p) ==> RefLag(q)
  {
    var r := Raw(p, e, now);
    RawRefs(p, e, now);
    SettleLag(p, r);
    RawKeepsJump(p, e, now);
    Settle(p, r)
  }

  /** Only a transcript moves the jump refs. */
  lemma RawKeepsJump(p: State, e: Event, now: int)
    ensures !e.Transcript? ==> Raw(p, e, now).lastJump == p.lastJump && Raw(p, e, now).lastJumpTarget == p.lastJumpTarget
  {
    match e
    case Transcript(mode, text) =>
    case Select(index, wordIndex) =>
    case NextKey =>
    case PreviousKey =>
    case HomeKey =>
    case SpaceKey =>
    case StallTimer =>
    case WordTimer(mode, scroll) =>
    case ProductLoaded(generated, mode, scroll) =>
  }

  /** The commit keeps the ref lagging only at a sentence's start, for any event of that kind. */
  lemma SettleLag(p: State, r: State)
    requires r.wordRef == p.wordRef || r.wordRef == r.word || r.word == 0
    ensures RefLag(p) ==> RefLag(Settle(p, r))
  {
  }

  /** Each event leaves the word ref alone, writes the cursor into it, or ends on a sentence's first word. */
  lemma RawRefs(p: State, e: Event, now: int)
    ensures var r := Raw(p, e, now);
      r.wordRef == p.wordRef || r.wordRef == r.word || r.word == 0
  {
  }

  /** Every event keeps the invariant. */
  lemma StepKeepsInv(p: State, e: Event, now: int)
    requires Inv(p)
    ensures Inv(Step(p, e, now))
  {
    match e
    case Transcript(mode, text) => HandleKeepsInv(p, mode, text, now);
    case Select(index, wordIndex) => GoToSentenceKeepsInv(p, index, wordIndex);
    case NextKey => GoToNextSentenceKeepsInv(p);
    case PreviousKey => GoToPreviousSentenceKeepsInv(p);
    case HomeKey => GoToSentenceKeepsInv(p, 0, 0);
    case SpaceKey =>
    case StallTimer => StallFireKeepsInv(p, now);
    case WordTimer(mode, scroll) => TimerTickKeepsInv(p, mode, scroll);
    case ProductLoaded(generated, mode, scroll) =>
  }

  /**
   * A transcript that completes the sentence from its first word shows the
   * next sentence's first word, but the committed word did not change, so
   * the ref keeps the matched index: the next handler call and the stall
   * callback count from there, not from the first word.
   */
  lemma CompletionLeavesRefAhead(p: State, text: string, now: int)
    requires Inv(p) && p.word == 0 && p.wordRef == 0
    requires !IsBlank(text) && |Current(p)| > 0 && p.sentence + 1 < |p.script.sentences|
    requires JumpTarget(p, text, |Current(p)|, now).None?
    requires var ts := TranscriptTokens(text);
      var b := Locate(WordSimilarity, ts, CleanWords(Current(p)), 0);
      !AtBoundary(p, ts, b) && b.similarity >= SimilarityThreshold && b.index >= |Current(p)|
    ensures var q := Step(p, Transcript(Voice, text), now);
      q.sentence == p.sentence + 1 && q.word == 0 && q.wordRef > 0 && q.stallPending
  {
    var ts := TranscriptTokens(text);
    HandleFollows(p, Voice, text, now);
    FollowCompletes(p, ts, now);
  }

  /** Without a jump, the handler is the word matcher's stages. */
  lemma HandleFollows(p: State, mode: Mode, text: string, now: int)
    requires !IsBlank(text) && mode == Voice && |Current(p)| > 0
    requires JumpTarget(p, text, |Current(p)|, now).None?
    ensures Handle(p, mode, text, now) == Follow(p, TranscriptTokens(text), now)
  {
  }

  /** A match that reaches the end of the sentence, counted from the first word, moves on to the next sentence's first word with the ref on the match. */
  lemma FollowCompletes(p: State, ts: seq<string>, now: int)
    requires p.wordRef == 0 && |Current(p)| > 0 && p.sentence + 1 < |p.script.sentences|
    requires var b := Locate(WordSimilarity, ts, CleanWords(Current(p)), 0);
      !AtBoundary(p, ts, b) && b.similarity >= SimilarityThreshold && b.index >= |Current(p)|
    ensures var q := Follow(p, ts, now);
      q.sentence == p.sentence + 1 && q.word == 0 && q.wordRef > 0 && q.stallPending
  {
    var b := Locate(WordSimilarity, ts, CleanWords(Current(p)), 0);
    CompleteAfter(p, b, |ts|, now);
  }

  lemma CompleteAfter(p: State, b: Best, tokens: nat, now: int)
    requires p.wordRef == 0 && |Current(p)| > 0 && p.sentence + 1 < |p.script.sentences|
    requires b.similarity >= SimilarityThreshold && b.index >= |Current(p)|
    ensures var q := GoToNextSentence(Advance(p, b, tokens, now));
      q.sentence == p.sentence + 1 && q.word == 0 && q.wordRef > 0 && q.stallPending
  {
    var w := Decide(b, tokens, 0, |Current(p)|);
    assert w.Some? && w.value > 0;
  }

  /** With the ref ahead of the cursor, the stall callback moves the cursor to one past the ref. */
  lemma StallFromRef(p: State, now: int)
    requires RefLag(p) && p.stallPending && p.wordRef < |Current(p)|
    ensures var q := Step(p, StallTimer, now);
      q.word == p.wordRef + 1 && q.wordRef == q.word && !q.stallPending
  {
  }
}

=== FILE: segmenter.dfy ===
/**
 * Cutting a script into sentences and words. The dashboard keeps each
 * sentence's closing delimiters; the floating window splits on them and
 * drops them. Both trim the pieces and discard blank ones, and each sentence
 * is then tokenised on white space.
 */
module Segmenter {
  import opened Text

  /** The sentence delimiters of both chunkers: `[.!?]`. */
  predicate IsDelim(c: char) {
    c == '.' || c == '!' || c == '?'
  }

  predicate NoDelim(s: string) {
    forall i :: 0 <= i < |s| ==> !IsDelim(s[i])
  }

  predicate AllDelim(s: string) {
    forall i :: 0 <= i < |s| ==> IsDelim(s[i])
  }

  /** Once a delimiter appears, every later character is a delimiter too. */
  predicate DelimsTrail(s: string) {
    forall i, j :: 0 <= i < j < |s| && IsDelim(s[i]) ==> IsDelim(s[j])
  }

  /** End of the run of non-delimiters starting at `i`: `[^.!?]*`. */
  function BodyEnd(s: string, i: nat): (j: nat)
    requires i <= |s|
    ensures i <= j <= |s|
    ensures forall k :: i <= k < j ==> !IsDelim(s[k])
    ensures j < |s| ==> IsDelim(s[j])
    decreases |s| - i
  {
    if i == |s| || IsDelim(s[i]) then i else BodyEnd(s, i + 1)
  }

  /** End of the run of delimiters starting at `i`: `[.!?]*`. */
  function DelimEnd(s: string, i: nat): (j: nat)
    requires i <= |s|
    ensures i <= j <= |s|
    ensures forall k :: i <= k < j ==> IsDelim(s[k])
    ensures j < |s| ==> !IsDelim(s[j])
    decreases |s| - i
  {
    if i == |s| || !IsDelim(s[i]) then i else DelimEnd(s, i + 1)
  }

  /** The run of delimiters from `i` ends at the first non-delimiter: any index with that property is `DelimEnd`. */
  lemma DelimEndUnique(s: string, i: nat, j: nat)
    requires i <= j <= |s|
    requires forall k :: i <= k < j ==> IsDelim(s[k])
    requires j < |s| ==> !IsDelim(s[j])
    ensures DelimEnd(s, i) == j
  {
  }

  /** The run of non-delimiters from `i` ends at the first delimiter: any index with that property is `BodyEnd`. */
  lemma BodyEndUnique(s: string, i: nat, j: nat)
    requires i <= j <= |s|
    requires forall k :: i <= k < j ==> !IsDelim(s[k])
    requires j < |s| ==> IsDelim(s[j])
    ensures BodyEnd(s, i) == j
  {
  }

  /** Where one match of the dashboard's pattern starting at 0 ends: text, then its closing delimiters. */
  function MatchEnd(s: string): (n: nat)
    ensures n <= |s|
    ensures |s| > 0 && !IsDelim(s[0]) ==> n > 0
  {
    DelimEnd(s, BodyEnd(s, 0))
  }

  // ---------------------------------------------------------------------------
  // The dashboard chunker
  // ---------------------------------------------------------------------------

  /**
   * `text.match(/[^.!?]+[.!?]+|[^.!?]+$/g) || []`. A match starts only at a
   * non-delimiter, so delimiters at the very front are skipped one by one;
   * each match is then a run of text with the delimiters that close it, and
   * the last one may have none.
   */
  function RawChunks(s: string): (cs: seq<string>)
    decreases |s|
  {
    if |s| == 0 then []
    else if IsDelim(s[0]) then RawChunks(s[1..])
    else
      var n := MatchEnd(s);
      [s[..n]] + RawChunks(s[n..])
  }

  /** Text then the delimiters closing it. */
  predicate ChunkShape(c: string) {
    |c| > 0 && !IsDelim(c[0]) && DelimsTrail(c)
  }

  predicate EndsInDelim(c: string) {
    |c| > 0 && IsDelim(c[|c| - 1])
  }

  /** One match of the pattern: text, then its closing delimiters; when more text follows, it ends with a delimiter. */
  lemma ChunkHead(s: string)
    requires |s| > 0 && !IsDelim(s[0])
    ensures ChunkShape(s[..MatchEnd(s)])
    ensures MatchEnd(s) < |s| ==> EndsInDelim(s[..MatchEnd(s)])
  {
    var b := BodyEnd(s, 0);
    var n := MatchEnd(s);
    var c := s[..n];
    forall i, j | 0 <= i < j < |c| && IsDelim(c[i])
      ensures IsDelim(c[j])
    {
      assert c[i] == s[i] && c[j] == s[j];
    }
    if n < |s| {
      assert IsDelim(s[b]);
      assert c[n - 1] == s[n - 1];
    }
  }

  /** Every chunk is text followed by its closing delimiters; all but the last end with a delimiter. */
  lemma {:induction false} RawChunksShape(s: string)
    ensures forall i :: 0 <= i < |RawChunks(s)| ==> ChunkShape(RawChunks(s)[i])
    ensures forall i :: 0 <= i < |RawChunks(s)| - 1 ==> EndsInDelim(RawChunks(s)[i])
    decreases |s|
  {
    if |s| == 0 {
    } else if IsDelim(s[0]) {
      RawChunksShape(s[1..]);
    } else {
      var n := MatchEnd(s);
      RawChunksShape(s[n..]);
      ChunkHead(s);
      assert RawChunks(s) == [s[..n]] + RawChunks(s[n..]);
      if n == |s| {
        assert RawChunks(s[n..]) == [];
      }
    }
  }

  /** The chunks, glued back together, are the text without its leading delimiters. */
  lemma {:induction false} RawChunksKeepText(s: string)
    ensures Concat(RawChunks(s)) == s[DelimEnd(s, 0)..]
    decreases |s|
  {
    if |s| == 0 {
    } else if IsDelim(s[0]) {
      var d := DelimEnd(s, 0);
      RawChunksKeepText(s[1..]);
      DelimEndUnique(s[1..], 0, d - 1);
      assert s[1..][d - 1..] == s[d..];
    } else {
      RawChunksKeepTextStep(s);
    }
  }

  lemma {:induction false} RawChunksKeepTextStep(s: string)
    requires |s| > 0 && !IsDelim(s[0])
    ensures Concat(RawChunks(s)) == s[DelimEnd(s, 0)..]
    decreases |s|, 0
  {
    var n := MatchEnd(s);
    var head, tail := s[..n], s[n..];
    RawChunksKeepText(tail);
    NoLeadingDelim(tail);
    assert RawChunks(s) == [head] + RawChunks(tail);
    ConcatCons(head, RawChunks(tail));
    assert head + tail == s;
  }

  /** Text that does not start with a delimiter has no leading delimiters to skip. */
  lemma NoLeadingDelim(s: string)
    requires |s| > 0 ==> !IsDelim(s[0])
    ensures DelimEnd(s, 0) == 0
  {
  }

  lemma ConcatCons(x: string, xs: seq<string>)
    ensures Concat([x] + xs) == x + Concat(xs)
  {
    assert ([x] + xs)[1..] == xs;
  }

  // ---------------------------------------------------------------------------
  // The floating-window chunker
  // ---------------------------------------------------------------------------

  /** `text.split(/[.!?]+/)`: the pieces between maximal runs of delimiters, empty ones included. */
  function SplitDelims(s: string): (ps: seq<string>)
    ensures |ps| >= 1
    ensures forall i :: 0 <= i < |ps| ==> NoDelim(ps[i])
    decreases |s|
  {
    var b := BodyEnd(s, 0);
    if b == |s| then
      assert s[..b] == s;
      [s]
    else
      var n := DelimEnd(s, b);
      assert NoDelim(s[..b]) by {
        forall k | 0 <= k < b
          ensures !IsDelim(s[..b][k])
        {
          assert s[..b][k] == s[k];
        }
      }
      [s[..b]] + SplitDelims(s[n..])
  }

  /** How many maximal runs of delimiters `s` holds, counted where each one ends. */
  function DelimRuns(s: string): nat
    decreases |s|
  {
    if |s| == 0 then 0
    else if IsDelim(s[0]) && (|s| == 1 || !IsDelim(s[1])) then 1 + DelimRuns(s[1..])
    else DelimRuns(s[1..])
  }

  lemma DelimRunsStep(s: string, i: nat)
    requires i < |s|
    ensures DelimRuns(s[i..]) ==
      (if IsDelim(s[i]) && (i + 1 == |s| || !IsDelim(s[i + 1])) then 1 else 0) + DelimRuns(s[i + 1..])
  {
    assert s[i..][1..] == s[i + 1..];
  }

  /** Text without delimiters ends no run. */
  lemma {:induction false} DelimRunsBody(s: string, i: nat, j: nat)
    requires i <= j <= |s|
    requires forall k :: i <= k < j ==> !IsDelim(s[k])
    ensures DelimRuns(s[i..]) == DelimRuns(s[j..])
    decreases j - i
  {
    if i < j {
      DelimRunsStep(s, i);
      DelimRunsBody(s, i + 1, j);
    }
  }

  /** A maximal run of delimiters ends exactly one run. */
  lemma {:induction false} DelimRunsRun(s: string, i: nat, j: nat)
    requires i < j <= |s|
    requires forall k :: i <= k < j ==> IsDelim(s[k])
    requires j < |s| ==> !IsDelim(s[j])
    ensures DelimRuns(s[i..]) == 1 + DelimRuns(s[j..])
    decreases j - i
  {
    DelimRunsStep(s, i);
    if i + 1 < j {
      DelimRunsRun(s, i + 1, j);
    }
  }

  /** Splitting on delimiter runs gives one piece more than there are runs. */
  lemma {:induction false} SplitDelimsCount(s: string)
    ensures |SplitDelims(s)| == 1 + DelimRuns(s)
    decreases |s|
  {
    var b := BodyEnd(s, 0);
    assert s[0..] == s;
    DelimRunsBody(s, 0, b);
    if b < |s| {
      var n := DelimEnd(s, b);
      DelimRunsRun(s, b, n);
      SplitDelimsCount(s[n..]);
      assert SplitDelims(s) == [s[..b]] + SplitDelims(s[n..]);
    }
  }

  /** `s` with every delimiter removed. */
  function RemoveDelims(s: string): (r: string)
    ensures NoDelim(r)
    decreases |s|
  {
    if |s| == 0 then ""
    else if IsDelim(s[0]) then RemoveDelims(s[1..])
    else [s[0]] + RemoveDelims(s[1..])
  }

  lemma {:induction false} RemoveDelimsAppend(a: string, b: string)
    ensures RemoveDelims(a + b) == RemoveDelims(a) + RemoveDelims(b)
    decreases |a|
  {
    if |a| == 0 {
      assert a + b == b;
    } else {
      assert (a + b)[1..] == a[1..] + b;
      RemoveDelimsAppend(a[1..], b);
    }
  }

  lemma {:induction false} RemoveDelimsOf(a: string)
    ensures NoDelim(a) ==> RemoveDelims(a) == a
    ensures AllDelim(a) ==> RemoveDelims(a) == ""
    decreases |a|
  {
    if |a| > 0 {
      RemoveDelimsOf(a[1..]);
    }
  }

  /** Splitting loses exactly the delimiters: the pieces, glued together, are the text without them. */
  lemma {:induction false} SplitDelimsKeepText(s: string)
    ensures Concat(SplitDelims(s)) == RemoveDelims(s)
    decreases |s|
  {
    var b := BodyEnd(s, 0);
    if b == |s| {
      assert s[..b] == s;
      RemoveDelimsOf(s);
    } else {
      var n := DelimEnd(s, b);
      SplitDelimsKeepText(s[n..]);
      SplitDelimsStep(s);
      RemoveDelimsAround(s, b, n);
    }
  }

  /** One step of the split: the text before the first delimiter run, then the split of what follows it. */
  lemma SplitDelimsStep(s: string)
    requires BodyEnd(s, 0) < |s|
    ensures var b := BodyEnd(s, 0);
      Concat(SplitDelims(s)) == s[..b] + Concat(SplitDelims(s[DelimEnd(s, b)..]))
  {
    var b := BodyEnd(s, 0);
    var rest := SplitDelims(s[DelimEnd(s, b)..]);
    assert SplitDelims(s) == [s[..b]] + rest;
    ConcatCons(s[..b], rest);
  }

  /** Removing the delimiters of text, a delimiter run, then more text. */
  lemma RemoveDelimsAround(s: string, b: nat, n: nat)
    requires b == BodyEnd(s, 0) && n == DelimEnd(s, b)
    ensures RemoveDelims(s) == s[..b] + RemoveDelims(s[n..])
  {
    var x, y, z := s[..b], s[b..n], s[n..];
    forall k | 0 <= k < |x|
      ensures !IsDelim(x[k])
    {
      assert x[k] == s[k];
    }
    forall k | 0 <= k < |y|
      ensures IsDelim(y[k])
    {
      assert y[k] == s[b + k];
    }
    assert s == x + (y + z);
    RemoveDelimsAppend(x, y + z);
    RemoveDelimsAppend(y, z);
    RemoveDelimsOf(x);
    RemoveDelimsOf(y);
  }

  // ---------------------------------------------------------------------------
  // Trimming and filtering
  // ---------------------------------------------------------------------------

  /** `.map(s => s.trim()).filter(s => s.length > 0)`. */
  function TrimmedNonEmpty(xs: seq<string>): (r: seq<string>)
    ensures |r| <= |xs|
    ensures forall i :: 0 <= i < |r| ==> |r[i]| > 0 && Trimmed(r[i])
    decreases |xs|
  {
    if |xs| == 0 then []
    else
      var head := Kept(Trim(xs[0]));
      var rest := TrimmedNonEmpty(xs[1..]);
      assert forall i :: 0 <= i < |head| ==> |head[i]| > 0 && Trimmed(head[i]);
      head + rest
  }

  /** `[t]` when `t` survives `filter(s => s.length > 0)`, else nothing. */
  function Kept(t: string): (r: seq<string>)
    ensures |r| <= 1 && forall i :: 0 <= i < |r| ==> r[i] == t && |t| > 0
    ensures |t| > 0 ==> r == [t]
  {
    if |t| > 0 then [t] else []
  }

  lemma SqueezeKept(t: string)
    ensures Squeeze(Concat(Kept(t))) == Squeeze(t)
  {
    if |t| > 0 {
      assert Concat([t]) == t + Concat([]);
      assert t + "" == t;
    } else {
      assert t == "";
    }
  }

  /** `.filter(s => s.trim().length > 0)`. */
  function DropBlank(xs: seq<string>): (r: seq<string>)
    ensures |r| <= |xs|
    decreases |xs|
  {
    if |xs| == 0 then []
    else if |Trim(xs[0])| > 0 then [xs[0]] + DropBlank(xs[1..])
    else DropBlank(xs[1..])
  }

  lemma {:induction false} DropBlankNoDelim(xs: seq<string>)
    requires forall i :: 0 <= i < |xs| ==> NoDelim(xs[i])
    ensures forall i :: 0 <= i < |DropBlank(xs)| ==> NoDelim(DropBlank(xs)[i])
    decreases |xs|
  {
    if |xs| > 0 {
      DropBlankNoDelim(xs[1..]);
    }
  }

  /** Trimming removes only white space. */
  lemma SqueezeTrim(s: string)
    ensures Squeeze(Trim(s)) == Squeeze(s)
  {
    SqueezeTrimStart(s);
    SqueezeTrimEnd(TrimStart(s));
  }

  lemma SqueezeTrimStart(s: string)
    ensures Squeeze(TrimStart(s)) == Squeeze(s)
  {
    var k := |s| - |TrimStart(s)|;
    SqueezeSplit(s, k);
    SqueezeBlank(s[..k]);
  }

  lemma SqueezeTrimEnd(a: string)
    ensures Squeeze(TrimEnd(a)) == Squeeze(a)
  {
    var k := |TrimEnd(a)|;
    SqueezeSplit(a, k);
    SqueezeBlank(a[k..]);
  }

  lemma {:induction false} SqueezeConcat(a: seq<string>, b: seq<string>)
    ensures Squeeze(Concat(a + b)) == Squeeze(Concat(a)) + Squeeze(Concat(b))
    decreases |a|
  {
    if |a| == 0 {
      assert a + b == b;
    } else {
      assert (a + b)[1..] == a[1..] + b;
      SqueezeConcat(a[1..], b);
      SqueezeAppend(a[0], Concat(a[1..] + b));
      SqueezeAppend(a[0], Concat(a[1..]));
    }
  }

  /** Squeezing the glued pieces: the first piece, then the rest. */
  lemma SqueezeConcatCons(xs: seq<string>)
    requires |xs| > 0
    ensures Squeeze(Concat(xs)) == Squeeze(xs[0]) + Squeeze(Concat(xs[1..]))
  {
    SqueezeAppend(xs[0], Concat(xs[1..]));
  }

  /** Trimming and dropping blank pieces lose no visible character. */
  lemma {:induction false} TrimmedNonEmptyKeepsText(xs: seq<string>)
    ensures Squeeze(Concat(TrimmedNonEmpty(xs))) == Squeeze(Concat(xs))
    decreases |xs|
  {
    if |xs| > 0 {
      var t := Trim(xs[0]);
      TrimmedNonEmptyKeepsText(xs[1..]);
      assert Squeeze(Concat(Kept(t))) == Squeeze(xs[0]) by {
        SqueezeKept(t);
        SqueezeTrim(xs[0]);
      }
      SqueezeConcat(Kept(t), TrimmedNonEmpty(xs[1..]));
      SqueezeConcatCons(xs);
    }
  }

  /** Dropping blank pieces loses no visible character. */
  lemma {:induction false} DropBlankKeepsText(xs: seq<string>)
    ensures Squeeze(Concat(DropBlank(xs))) == Squeeze(Concat(xs))
    decreases |xs|
  {
    if |xs| > 0 {
      var x, rest := xs[0], xs[1..];
      DropBlankKeepsText(rest);
      SqueezeConcatCons(xs);
      if |Trim(x)| > 0 {
        var d := DropBlank(xs);
        assert d == [x] + DropBlank(rest);
        SqueezeConcatCons(d);
        assert d[1..] == DropBlank(rest);
      } else {
        assert IsBlank(x);
        SqueezeBlank(x);
      }
    }
  }

  /** A piece of a string whose delimiters trail keeps that shape. */
  lemma DelimsTrailSlice(s: string, r: string, k: nat)
    requires DelimsTrail(s) && SliceAt(r, s, k)
    ensures DelimsTrail(r)
  {
    forall i, j | 0 <= i < j < |r| && IsDelim(r[i])
      ensures IsDelim(r[j])
    {
      assert r[i] == s[k + i] && r[j] == s[k + j];
    }
  }

  lemma NoDelimSlice(s: string, r: string, k: nat)
    requires NoDelim(s) && SliceAt(r, s, k)
    ensures NoDelim(r)
  {
    forall i | 0 <= i < |r|
      ensures !IsDelim(r[i])
    {
      assert r[i] == s[k + i];
    }
  }

  /** Trimming and filtering keep every piece's delimiters trailing. */
  lemma TrimDelimsTrail(x: string)
    requires DelimsTrail(x)
    ensures DelimsTrail(Trim(x))
  {
    DelimsTrailSlice(x, Trim(x), |x| - |TrimStart(x)|);
  }

  lemma TrimNoDelim(x: string)
    requires NoDelim(x)
    ensures NoDelim(Trim(x))
  {
    NoDelimSlice(x, Trim(x), |x| - |TrimStart(x)|);
  }

  lemma {:induction false} TrimmedKeepsTrail(xs: seq<string>)
    requires forall i :: 0 <= i < |xs| ==> DelimsTrail(xs[i])
    ensures forall i :: 0 <= i < |TrimmedNonEmpty(xs)| ==> DelimsTrail(TrimmedNonEmpty(xs)[i])
    decreases |xs|
  {
    if |xs| > 0 {
      var t := Trim(xs[0]);
      TrimmedKeepsTrail(xs[1..]);
      TrimDelimsTrail(xs[0]);
      assert TrimmedNonEmpty(xs) == Kept(t) + TrimmedNonEmpty(xs[1..]);
    }
  }

  /** Trimming and filtering keep pieces free of delimiters. */
  lemma {:induction false} TrimmedKeepsNoDelim(xs: seq<string>)
    requires forall i :: 0 <= i < |xs| ==> NoDelim(xs[i])
    ensures forall i :: 0 <= i < |TrimmedNonEmpty(xs)| ==> NoDelim(TrimmedNonEmpty(xs)[i])
    decreases |xs|
  {
    if |xs| > 0 {
      var t := Trim(xs[0]);
      TrimmedKeepsNoDelim(xs[1..]);
      TrimNoDelim(xs[0]);
      assert TrimmedNonEmpty(xs) == Kept(t) + TrimmedNonEmpty(xs[1..]);
    }
  }

  /** Trimming keeps a closing delimiter, which is not white space. */
  lemma TrimEndsInDelim(x: string)
    requires EndsInDelim(x)
    ensures EndsInDelim(Trim(x))
  {
    var r, k := Trim(x), |x| - |TrimStart(x)|;
    assert !IsSpace(x[|x| - 1]);
    assert !IsBlank(x);
    assert k + |r| == |x|;
    assert r[|r| - 1] == x[|x| - 1];
  }

  /** Trimming and filtering keep every piece but the last closed by a delimiter. */
  lemma {:induction false} TrimmedKeepsEnds(xs: seq<string>)
    requires forall i :: 0 <= i < |xs| - 1 ==> EndsInDelim(xs[i])
    ensures forall i :: 0 <= i < |TrimmedNonEmpty(xs)| - 1 ==> EndsInDelim(TrimmedNonEmpty(xs)[i])
    decreases |xs|
  {
    if |xs| > 1 {
      var t := Trim(xs[0]);
      var rest := TrimmedNonEmpty(xs[1..]);
      TrimmedKeepsEnds(xs[1..]);
      TrimEndsInDelim(xs[0]);
      assert TrimmedNonEmpty(xs) == [t] + rest;
    }
  }

  /**
   * The dashboard's `chunkTextIntoSentences`: trimmed, non-empty sentences
   * whose delimiters close them, and every sentence but the last ends in one.
   */
  function DashboardSentences(text: string): (ss: seq<string>)
    ensures forall i :: 0 <= i < |ss| ==> |ss[i]| > 0 && Trimmed(ss[i]) && DelimsTrail(ss[i])
    ensures forall i :: 0 <= i < |ss| - 1 ==> EndsInDelim(ss[i])
  {
    var cs := RawChunks(text);
    RawChunksShape(text);
    TrimmedKeepsTrail(cs);
    TrimmedKeepsEnds(cs);
    TrimmedNonEmpty(cs)
  }

  /** A sentence as the dashboard's chunker cuts it out: it opens with text and is closed by its delimiters. */
  predicate Closed(s: string) {
    |s| > 0 && Trimmed(s) && !IsDelim(s[0]) && DelimsTrail(s) && EndsInDelim(s)
  }

  /** Closed sentences joined by spaces are cut back into the same sentences. */
  lemma DashboardRoundTrip(ss: seq<string>)
    requires forall i :: 0 <= i < |ss| ==> Closed(ss[i])
    ensures DashboardSentences(Join(ss, ' ')) == ss
  {
    var j := Join(ss, ' ');
    assert "" + j == j;
    DashboardFrom("", ss);
    DashboardSentencesAre(j);
  }

  lemma DashboardSentencesAre(text: string)
    ensures DashboardSentences(text) == TrimmedNonEmpty(RawChunks(text))
  {
  }

  lemma {:induction false} DashboardFrom(w: string, ss: seq<string>)
    requires w == "" || w == " "
    requires forall i :: 0 <= i < |ss| ==> Closed(ss[i])
    ensures TrimmedNonEmpty(RawChunks(w + Join(ss, ' '))) == ss
    decreases |ss|
  {
    if |ss| == 0 {
      assert w + Join(ss, ' ') == w;
      DashboardBlank(w);
    } else {
      var rest := ss[1..];
      var tail := JoinTail(ss, ' ');
      PrefixJoin(w, ss, ' ');
      if |rest| > 0 {
        JoinHead(rest, ' ');
        DashboardFrom(" ", rest);
      } else {
        DashboardBlank(tail);
      }
      DashboardCons(w, ss[0], tail);
      assert ss == [ss[0]] + rest;
    }
  }

  /** What follows the first piece in joined text: nothing, or the separator and the other pieces joined. */
  function JoinTail(ss: seq<string>, sep: char): string
    requires |ss| > 0
  {
    if |ss| == 1 then "" else [sep] + Join(ss[1..], sep)
  }

  lemma PrefixJoin(w: string, ss: seq<string>, sep: char)
    requires |ss| > 0
    ensures w + Join(ss, sep) == w + ss[0] + JoinTail(ss, sep)
  {
    JoinCons(ss, sep);
  }

  lemma JoinCons(ss: seq<string>, sep: char)
    requires |ss| > 0
    ensures Join(ss, sep) == ss[0] + JoinTail(ss, sep)
  {
    if |ss| == 1 {
      assert ss[0] + "" == ss[0];
    }
  }

  /** At most one space yields no sentence. */
  lemma DashboardBlank(w: string)
    requires w == "" || w == " "
    ensures TrimmedNonEmpty(RawChunks(w)) == []
  {
    if w == " " {
      assert BodyEnd(w, 0) == 1;
      assert DelimEnd(w, 1) == 1;
      assert w[..1] == w && w[1..] == "";
      assert RawChunks(w) == [w];
      assert Trim(w) == "";
      TrimmedNonEmptyCons(w, []);
    }
  }

  lemma TrimmedNonEmptyCons(x: string, xs: seq<string>)
    ensures TrimmedNonEmpty([x] + xs) == Kept(Trim(x)) + TrimmedNonEmpty(xs)
  {
    assert ([x] + xs)[1..] == xs;
  }

  /** A closed sentence after at most one space is the first sentence. */
  lemma DashboardCons(w: string, s: string, tail: string)
    requires w == "" || w == " "
    requires Closed(s)
    requires |tail| > 0 ==> !IsDelim(tail[0])
    ensures TrimmedNonEmpty(RawChunks(w + s + tail)) == [s] + TrimmedNonEmpty(RawChunks(tail))
  {
    ChunkAt(w, s, tail);
    TrimBlankFront(w, s);
    TrimmedNonEmptyCons(w + s, RawChunks(tail));
  }

  /** A closed sentence, after white space and before text that opens with no delimiter, is one match of the pattern. */
  lemma ChunkAt(w: string, s: string, tail: string)
    requires IsBlank(w) && |s| > 0 && !IsDelim(s[0]) && DelimsTrail(s) && EndsInDelim(s)
    requires |tail| > 0 ==> !IsDelim(tail[0])
    ensures RawChunks(w + s + tail) == [w + s] + RawChunks(tail)
  {
    var x := w + s + tail;
    var n := |w| + |s|;
    MatchEndAt(w, s, tail);
    assert !IsDelim(x[0]) by {
      if |w| > 0 {
        assert x[0] == w[0] && IsSpace(w[0]);
      } else {
        assert x[0] == s[0];
      }
    }
    assert x[..n] == w + s;
    assert x[n..] == tail;
  }

  lemma MatchEndAt(w: string, s: string, tail: string)
    requires IsBlank(w) && |s| > 0 && DelimsTrail(s) && EndsInDelim(s)
    requires |tail| > 0 ==> !IsDelim(tail[0])
    ensures MatchEnd(w + s + tail) == |w| + |s|
  {
    var x := w + s + tail;
    var b := BodyEnd(s, 0);
    assert b < |s|;
    BodyEndAt(w, s, tail, b);
    forall k | |w| + b <= k < |w| + |s|
      ensures IsDelim(x[k])
    {
      assert x[k] == s[k - |w|];
      assert IsDelim(s[b]);
    }
    assert |w| + |s| < |x| ==> x[|w| + |s|] == tail[0];
    DelimEndUnique(x, |w| + b, |w| + |s|);
  }

  lemma BodyEndAt(w: string, s: string, tail: string, b: nat)
    requires IsBlank(w) && b == BodyEnd(s, 0) < |s|
    ensures BodyEnd(w + s + tail, 0) == |w| + b
  {
    var x := w + s + tail;
    forall k | 0 <= k < |w| + b
      ensures !IsDelim(x[k])
    {
      if k < |w| {
        assert x[k] == w[k] && IsSpace(w[k]);
      } else {
        assert x[k] == s[k - |w|];
      }
    }
    assert x[|w| + b] == s[b];
    BodyEndUnique(x, 0, |w| + b);
  }

  /** Trimming a sentence that follows white space gives the sentence. */
  lemma TrimBlankFront(w: string, s: string)
    requires IsBlank(w) && |s| > 0 && Trimmed(s)
    ensures Trim(w + s) == s
  {
    TrimStartBlank(w, s);
  }

  lemma {:induction false} TrimStartBlank(w: string, s: string)
    requires IsBlank(w) && |s| > 0 && !IsSpace(s[0])
    ensures TrimStart(w + s) == s
    decreases |w|
  {
    if |w| == 0 {
      assert w + s == s;
    } else {
      assert (w + s)[1..] == w[1..] + s;
      TrimStartBlank(w[1..], s);
    }
  }

  /** The dashboard's sentences hold every visible character of the text after its leading delimiters, in order. */
  lemma DashboardSentencesKeepText(text: string)
    ensures Squeeze(Concat(DashboardSentences(text))) == Squeeze(text[DelimEnd(text, 0)..])
  {
    TrimmedNonEmptyKeepsText(RawChunks(text));
    RawChunksKeepText(text);
  }

  /** The floating window's `chunkTextIntoSentences`. */
  function FloatingSentences(text: string): (ss: seq<string>)
    ensures forall i :: 0 <= i < |ss| ==> |ss[i]| > 0 && Trimmed(ss[i]) && NoDelim(ss[i])
  {
    var ps := DropBlank(SplitDelims(text));
    DropBlankNoDelim(SplitDelims(text));
    TrimmedKeepsNoDelim(ps);
    TrimmedNonEmpty(ps)
  }

  /** Non-empty trimmed sentences free of delimiters, joined by one delimiter, are split back into the same sentences. */
  lemma FloatingRoundTrip(ss: seq<string>, sep: char)
    requires IsDelim(sep)
    requires forall i :: 0 <= i < |ss| ==> |ss[i]| > 0 && Trimmed(ss[i]) && NoDelim(ss[i])
    ensures FloatingSentences(Join(ss, sep)) == ss
  {
    if |ss| == 0 {
      assert SplitDelims("") == [""];
    } else {
      SplitDelimsJoin(ss, sep);
      NoBlankSentence(ss);
      DropBlankKeeps(ss);
      TrimmedNonEmptyKeeps(ss);
    }
  }

  /** Each piece trimmed, in place. */
  function Trims(xs: seq<string>): (r: seq<string>)
    ensures |r| == |xs| && forall i :: 0 <= i < |xs| ==> r[i] == Trim(xs[i])
  {
    seq(|xs|, i requires 0 <= i < |xs| => Trim(xs[i]))
  }

  /**
   * Pieces free of delimiters, each with some visible text, joined by one
   * delimiter, are split back into those pieces, trimmed.
   */
  lemma FloatingSplitsJoin(ps: seq<string>, sep: char)
    requires IsDelim(sep)
    requires forall i :: 0 <= i < |ps| ==> !IsBlank(ps[i]) && NoDelim(ps[i])
    ensures FloatingSentences(Join(ps, sep)) == Trims(ps)
  {
    if |ps| == 0 {
      assert SplitDelims("") == [""];
    } else {
      assert forall i :: 0 <= i < |ps| ==> |ps[i]| > 0;
      SplitDelimsJoin(ps, sep);
      DropBlankKeeps(ps);
      TrimmedNonEmptyTrims(ps);
    }
  }

  lemma {:induction false} TrimmedNonEmptyTrims(xs: seq<string>)
    requires forall i :: 0 <= i < |xs| ==> !IsBlank(xs[i])
    ensures TrimmedNonEmpty(xs) == Trims(xs)
    decreases |xs|
  {
    if |xs| > 0 {
      var rest := xs[1..];
      assert forall i :: 0 <= i < |rest| ==> !IsBlank(rest[i]) by {
        forall i | 0 <= i < |rest| ensures !IsBlank(rest[i]) {
          assert rest[i] == xs[i + 1];
        }
      }
      TrimmedNonEmptyTrims(rest);
      TrimmedNonEmptyVisible(xs);
      TrimsCons(xs);
    }
  }

  /** A first piece with visible text is kept, trimmed. */
  lemma TrimmedNonEmptyVisible(xs: seq<string>)
    requires |xs| > 0 && !IsBlank(xs[0])
    ensures TrimmedNonEmpty(xs) == [Trim(xs[0])] + TrimmedNonEmpty(xs[1..])
  {
    var t := Trim(xs[0]);
    assert |t| > 0;
    assert Kept(t) == [t];
  }

  lemma TrimsCons(xs: seq<string>)
    requires |xs| > 0
    ensures Trims(xs) == [Trim(xs[0])] + Trims(xs[1..])
  {
  }

  /** Sentences written as prose, `a. b. c`: each one after the first opened by a space. */
  function Spaced(ss: seq<string>): (ps: seq<string>)
    ensures |ps| == |ss|
  {
    seq(|ss|, i requires 0 <= i < |ss| => if i == 0 then ss[i] else " " + ss[i])
  }

  /** Non-empty trimmed sentences free of delimiters, written as prose with one delimiter and a space between them, are split back into the same sentences. */
  lemma FloatingProseRoundTrip(ss: seq<string>, sep: char)
    requires IsDelim(sep)
    requires forall i :: 0 <= i < |ss| ==> |ss[i]| > 0 && Trimmed(ss[i]) && NoDelim(ss[i])
    ensures FloatingSentences(Join(Spaced(ss), sep)) == ss
  {
    var ps := Spaced(ss);
    forall i | 0 <= i < |ps|
      ensures !IsBlank(ps[i]) && NoDelim(ps[i]) && Trim(ps[i]) == ss[i]
    {
      SpacedPiece(ss[i], ps[i], i == 0);
    }
    FloatingSplitsJoin(ps, sep);
    assert Trims(ps) == ss;
  }

  /** A sentence, or a sentence opened by a space, has visible text, no delimiter, and trims back to the sentence. */
  lemma SpacedPiece(s: string, p: string, first: bool)
    requires |s| > 0 && Trimmed(s) && NoDelim(s)
    requires p == if first then s else " " + s
    ensures !IsBlank(p) && NoDelim(p) && Trim(p) == s
  {
    if first {
      TrimNoop(s);
      assert !IsSpace(s[0]);
    } else {
      assert IsBlank(" ");
      assert p[1] == s[0] && !IsSpace(p[1]);
      TrimBlankFront(" ", s);
    }
  }

  /** Splitting text joined by single delimiters gives back its non-empty pieces. */
  lemma {:induction false} SplitDelimsJoin(ss: seq<string>, sep: char)
    requires IsDelim(sep) && |ss| > 0
    requires forall i :: 0 <= i < |ss| ==> |ss[i]| > 0 && NoDelim(ss[i])
    ensures SplitDelims(Join(ss, sep)) == ss
    decreases |ss|
  {
    var s := ss[0];
    BodyEndUnique(s, 0, |s|);
    if |ss| == 1 {
      assert s[..|s|] == s;
    } else {
      var rest := ss[1..];
      var j := Join(rest, sep);
      var x := s + [sep] + j;
      JoinHead(rest, sep);
      assert forall k :: 0 <= k < |s| ==> x[k] == s[k];
      BodyEndUnique(x, 0, |s|);
      DelimEndUnique(x, |s|, |s| + 1);
      assert x[..|s|] == s && x[|s| + 1..] == j;
      SplitDelimsJoin(rest, sep);
    }
  }

  /** Joined text opens with its first piece. */
  lemma JoinHead(ss: seq<string>, sep: char)
    requires |ss| > 0 && |ss[0]| > 0
    ensures |Join(ss, sep)| > 0 && Join(ss, sep)[0] == ss[0][0]
  {
  }

  lemma {:induction false} DropBlankKeeps(xs: seq<string>)
    requires forall i :: 0 <= i < |xs| ==> !IsBlank(xs[i])
    ensures DropBlank(xs) == xs
    decreases |xs|
  {
    if |xs| > 0 {
      var x, rest := xs[0], xs[1..];
      assert !IsBlank(x);
      assert |Trim(x)| > 0;
      assert forall i :: 0 <= i < |rest| ==> !IsBlank(rest[i]) by {
        forall i | 0 <= i < |rest| ensures !IsBlank(rest[i]) {
          assert rest[i] == xs[i + 1];
        }
      }
      DropBlankKeeps(rest);
      assert DropBlank(xs) == [x] + rest;
      assert xs == [x] + rest;
    }
  }

  lemma {:induction false} TrimmedNonEmptyKeeps(xs: seq<string>)
    requires forall i :: 0 <= i < |xs| ==> |xs[i]| > 0 && Trimmed(xs[i])
    ensures TrimmedNonEmpty(xs) == xs
    decreases |xs|
  {
    if |xs| > 0 {
      TrimNoop(xs[0]);
      TrimmedNonEmptyKeeps(xs[1..]);
    }
  }

  /** The floating window's sentences hold every visible character of the text except the delimiters, in order. */
  lemma FloatingSentencesKeepText(text: string)
    ensures Squeeze(Concat(FloatingSentences(text))) == Squeeze(RemoveDelims(text))
  {
    var ps := SplitDelims(text);
    TrimmedNonEmptyKeepsText(DropBlank(ps));
    DropBlankKeepsText(ps);
    SplitDelimsKeepText(text);
  }

  // ---------------------------------------------------------------------------
  // Scripts
  // ---------------------------------------------------------------------------

  /** `scriptSentences` and `sentenceWords` held side by side. */
  datatype Script = Script(sentences: seq<string>, words: seq<seq<string>>)

  /** Every sentence has its word list, and the word list is its white-space tokens. */
  predicate WellFormed(sc: Script) {
    |sc.words| == |sc.sentences| &&
    forall i :: 0 <= i < |sc.sentences| ==> sc.words[i] == Tokens(sc.sentences[i])
  }

  /** `sentences.map(s => s.match(/\S+/g) || [])`, paired with the sentences. */
  function FromSentences(ss: seq<string>): (sc: Script)
    ensures sc.sentences == ss && WellFormed(sc)
    ensures (forall i :: 0 <= i < |ss| ==> !IsBlank(ss[i])) ==>
      forall i :: 0 <= i < |sc.words| ==> |sc.words[i]| > 0
  {
    Script(ss, seq(|ss|, i requires 0 <= i < |ss| => Tokens(ss[i])))
  }

  /** The words of sentence `i`; none when `i` is out of range (`sentenceWords[i] || []`). */
  function WordsAt(sc: Script, i: int): (ws: seq<string>)
    ensures WellFormed(sc) && 0 <= i < |sc.sentences| ==> ws == Tokens(sc.sentences[i])
    ensures 0 <= i < |sc.words| ==> ws == sc.words[i]
    ensures !(0 <= i < |sc.words|) ==> ws == []
  {
    if 0 <= i < |sc.words| then sc.words[i] else []
  }

  /** The text shown when a product has no generated script. */
  const Placeholder: string := "No script generated. " + "Please go to Products tab " + "and generate one."

  /** The four parts of a product's generated script. */
  datatype GeneratedScript = GeneratedScript(intro: string, features: string, objections: string, cta: string)

  /** `${intro} ${features} ${objections} ${cta}`. */
  function FullFlow(g: GeneratedScript): string {
    g.intro + " " + g.features + " " + g.objections + " " + g.cta
  }

  /** The full flow is the four parts joined by single spaces. */
  lemma FullFlowJoins(g: GeneratedScript)
    ensures FullFlow(g) == Join([g.intro, g.features, g.objections, g.cta], ' ')
  {
    var ps := [g.intro, g.features, g.objections, g.cta];
    assert ps[1..][1..][1..] == [g.cta];
    assert Join(ps[1..][1..], ' ') == g.objections + " " + g.cta;
    assert Join(ps[1..], ' ') == g.features + " " + (g.objections + " " + g.cta);
  }

  /** Four parts that are each a closed sentence come back as the script's four sentences. */
  lemma FullFlowRoundTrip(g: GeneratedScript)
    requires Closed(g.intro) && Closed(g.features) && Closed(g.objections) && Closed(g.cta)
    ensures DashboardSentences(FullFlow(g)) == [g.intro, g.features, g.objections, g.cta]
  {
    var ps := [g.intro, g.features, g.objections, g.cta];
    FullFlowJoins(g);
    DashboardRoundTrip(ps);
  }

  /** Non-empty trimmed sentences are not blank. */
  lemma NoBlankSentence(ss: seq<string>)
    requires forall i :: 0 <= i < |ss| ==> |ss[i]| > 0 && Trimmed(ss[i])
    ensures forall i :: 0 <= i < |ss| ==> !IsBlank(ss[i])
  {
    forall i | 0 <= i < |ss|
      ensures !IsBlank(ss[i])
    {
      assert !IsSpace(ss[i][0]);
    }
  }

  /** A script cut by the dashboard's chunker: every sentence has at least one word. */
  function DashboardScript(g: GeneratedScript): (sc: Script)
    ensures WellFormed(sc) && sc.sentences == DashboardSentences(FullFlow(g))
    ensures forall i :: 0 <= i < |sc.words| ==> |sc.words[i]| > 0
  {
    var ss := DashboardSentences(FullFlow(g));
    NoBlankSentence(ss);
    FromSentences(ss)
  }

  /** A script cut by the floating window's chunker: every sentence has at least one word. */
  function FloatingScript(g: GeneratedScript): (sc: Script)
    ensures WellFormed(sc) && sc.sentences == FloatingSentences(FullFlow(g))
    ensures forall i :: 0 <= i < |sc.words| ==> |sc.words[i]| > 0
  {
    var ss := FloatingSentences(FullFlow(g));
    NoBlankSentence(ss);
    FromSentences(ss)
  }

  /** The one-sentence placeholder script. */
  function PlaceholderScript(): (sc: Script)
    ensures WellFormed(sc) && sc.sentences == [Placeholder]
    ensures |sc.words| == 1 && |sc.words[0]| > 0
  {
    assert !IsSpace(Placeholder[0]);
    FromSentences([Placeholder])
  }
}

=== FILE: similarity.dfy ===
/**
 * The dashboard's fuzzy matcher: `calculateWordSimilarity`, an ordered
 * cascade of scores for two words, and `calculateSentenceSimilarity`, which
 * averages each word's best match.
 */
module Similarity {
  import opened Base
  import opened Text
  import EditDistance

  // ---------------------------------------------------------------------------
  // Stemming: `w.replace(/(ing|ed|er|est|ly|s|es)$/, '')`
  // ---------------------------------------------------------------------------

  /** The alternatives of the suffix pattern, in pattern order. */
  const StemSuffixes: seq<string> := ["ing", "ed", "er", "est", "ly", "s", "es"]

  predicate EndsWith(w: string, x: string) {
    |x| <= |w| && w[|w| - |x|..] == x
  }

  /** The length of the longest of `xs` that `w` ends with, or 0. */
  function LongestSuffix(w: string, xs: seq<string>): (n: nat)
    ensures n <= |w|
    ensures n == 0 || exists k :: 0 <= k < |xs| && EndsWith(w, xs[k]) && |xs[k]| == n
    ensures forall k :: 0 <= k < |xs| && EndsWith(w, xs[k]) ==> |xs[k]| <= n
    decreases |xs|
  {
    if |xs| == 0 then 0
    else
      var rest := LongestSuffix(w, xs[1..]);
      assert forall k :: 1 <= k < |xs| ==> xs[1..][k - 1] == xs[k];
      if EndsWith(w, xs[0]) && |xs[0]| > rest then |xs[0]| else rest
  }

  /** How many characters stemming removes: the longest alternative `w` ends with. */
  function StemCut(w: string): (n: nat)
    ensures n <= |w| && n <= 3
  {
    assert forall k :: 0 <= k < |StemSuffixes| ==> |StemSuffixes[k]| <= 3;
    LongestSuffix(w, StemSuffixes)
  }

  /**
   * The word with its suffix cut: a prefix of `w`, the whole word when it
   * ends in none of the suffixes, and otherwise `w` less one suffix it ends in.
   */
  function Stem(w: string): (r: string)
    ensures |r| <= |w| && r == w[..|r|]
    ensures |r| == |w| <==> forall k :: 0 <= k < |StemSuffixes| ==> !EndsWith(w, StemSuffixes[k])
    ensures |r| < |w| ==> exists k :: 0 <= k < |StemSuffixes| && EndsWith(w, StemSuffixes[k]) && |r| + |StemSuffixes[k]| == |w|
  {
    assert forall k :: 0 <= k < |StemSuffixes| ==> |StemSuffixes[k]| > 0;
    w[..|w| - StemCut(w)]
  }

  /** The pattern, anchored at the end, matches `w` from position `p` on. */
  predicate MatchesAt(w: string, p: nat)
    requires p <= |w|
  {
    exists k :: 0 <= k < |StemSuffixes| && EndsWith(w, StemSuffixes[k]) && |StemSuffixes[k]| == |w| - p
  }

  /** A regular-expression search: positions tried left to right, the first match wins. */
  function LeftmostMatch(w: string, p: nat): Option<nat>
    requires p <= |w|
    decreases |w| - p
  {
    if MatchesAt(w, p) then Some(p)
    else if p == |w| then None
    else LeftmostMatch(w, p + 1)
  }

  /**
   * The regular expression's leftmost match starts exactly where `Stem` cuts,
   * so `Stem` is the source's `replace`.
   */
  lemma StemIsLeftmostMatch(w: string)
    ensures LeftmostMatch(w, 0) == if StemCut(w) == 0 then None else Some(|w| - StemCut(w))
  {
    var n := StemCut(w);
    if n > 0 {
      StemCutMatches(w);
    }
    forall q | 0 <= q <= |w| && (n == 0 || q < |w| - n)
      ensures !MatchesAt(w, q)
    {
      NoLongerMatch(w, q);
    }
    LeftmostMatchFrom(w, 0, n);
  }

  /**
   * The search from `p`, when the pattern first matches at `|w| - n` (or,
   * for `n == 0`, nowhere from `p` on).
   */
  lemma {:induction false} LeftmostMatchFrom(w: string, p: nat, n: nat)
    requires p <= |w| && n <= |w|
    requires n > 0 ==> p <= |w| - n && MatchesAt(w, |w| - n)
    requires forall q :: p <= q <= |w| && (n == 0 || q < |w| - n) ==> !MatchesAt(w, q)
    ensures LeftmostMatch(w, p) == if n == 0 then None else Some(|w| - n)
    decreases |w| - p
  {
    if p < |w| && (n == 0 || p < |w| - n) {
      LeftmostMatchFrom(w, p + 1, n);
    }
  }

  /** The alternative that decides the cut matches where the cut starts. */
  lemma StemCutMatches(w: string)
    requires StemCut(w) > 0
    ensures MatchesAt(w, |w| - StemCut(w))
  {
    var n := LongestSuffix(w, StemSuffixes);
    var k :| 0 <= k < |StemSuffixes| && EndsWith(w, StemSuffixes[k]) && |StemSuffixes[k]| == n;
  }

  /** No alternative longer than the cut matches, and none is empty. */
  lemma NoLongerMatch(w: string, p: nat)
    requires p <= |w| && (|w| - p > StemCut(w) || p == |w|)
    ensures !MatchesAt(w, p)
  {
  }

  // ---------------------------------------------------------------------------
  // The sound-alike table
  // ---------------------------------------------------------------------------

  const SoundAlikeTable: map<string, seq<string>> := map[
    "a" := ["the", "an"],
    "is" := ["it", "its"],
    "the" := ["a", "an"],
    "and" := ["an", "in"],
    "in" := ["an", "and"],
    "to" := ["two", "too"],
    "for" := ["four", "from"]
  ]

  /** `w2` is in the table's own list for `w1`. */
  predicate Listed(w1: string, w2: string) {
    w1 in SoundAlikeTable && w2 in SoundAlikeTable[w1]
  }

  /** The sound-alike test on the table's own entries, looked up in both directions. */
  predicate SoundsAlike(w1: string, w2: string) {
    Listed(w1, w2) || Listed(w2, w1)
  }

  /** Property names every plain JavaScript object inherits from `Object.prototype`. */
  const InheritedKeys: set<string> := {
    "constructor", "__proto__", "toString", "toLocaleString", "valueOf", "hasOwnProperty",
    "isPrototypeOf", "propertyIsEnumerable", "__defineGetter__", "__defineSetter__",
    "__lookupGetter__", "__lookupSetter__"
  }

  /** What `soundAlike[w]` evaluates to on the object literal. */
  datatype Lookup = Own(alternatives: seq<string>) | Inherited | Missing

  function LookupAsWritten(w: string): Lookup {
    if w in SoundAlikeTable then Own(SoundAlikeTable[w])
    else if w in InheritedKeys then Inherited
    else Missing
  }

  /**
   * `soundAlike[w1]?.includes(w2)`. An inherited member is a function or an
   * object without an `includes` method, so the call throws a TypeError:
   * that is the `None` result.
   */
  function IncludesAsWritten(w1: string, w2: string): Option<bool> {
    match LookupAsWritten(w1)
    case Own(alternatives) => Some(w2 in alternatives)
    case Missing => Some(false)
    case Inherited => None
  }

  /** `soundAlike[w1]?.includes(w2) || soundAlike[w2]?.includes(w1)`, short-circuiting. */
  function SoundsAlikeAsWritten(w1: string, w2: string): (r: Option<bool>)
    ensures r.Some? ==> r.value == SoundsAlike(w1, w2)
    ensures w1 !in InheritedKeys && w2 !in InheritedKeys ==> r == Some(SoundsAlike(w1, w2))
    ensures w1 in InheritedKeys ==> r == None
  {
    match IncludesAsWritten(w1, w2)
    case None => None
    case Some(first) => if first then Some(true) else IncludesAsWritten(w2, w1)
  }

  // ---------------------------------------------------------------------------
  // Word similarity
  // ---------------------------------------------------------------------------

  /**
   * The form in which words are compared: `toLowerCase().trim()`. It has no
   * capitals and no surrounding white space, and a word already in that form
   * is its own comparison form.
   */
  function Normal(w: string): (r: string)
    ensures HasNoUpper(r) && Trimmed(r)
    ensures HasNoUpper(w) && Trimmed(w) ==> r == w
  {
    TrimKeepsClasses(Lower(w));
    if HasNoUpper(w) && Trimmed(w) then
      LowerNoop(w);
      TrimNoop(w);
      Trim(Lower(w))
    else
      Trim(Lower(w))
  }

  /** `s.includes(t)`. */
  predicate Contains(s: string, t: string) {
    exists i :: 0 <= i <= |s| && SliceAt(t, s, i)
  }

  function LongerLen(w1: string, w2: string): nat {
    Max(|w1|, |w2|)
  }

  function ShorterLen(w1: string, w2: string): nat {
    Min(|w1|, |w2|)
  }

  /** Stage 2: equal stems longer than two characters. */
  predicate StemsAgree(w1: string, w2: string) {
    Stem(w1) == Stem(w2) && |Stem(w1)| > 2
  }

  function PrefixLen(w1: string, w2: string): nat {
    Min(4, ShorterLen(w1, w2))
  }

  /** Stage 4: the first `min(4, shorter length)` characters agree, and there are at least two. */
  predicate PrefixesAgree(w1: string, w2: string) {
    var p := PrefixLen(w1, w2);
    p >= 2 && w1[..p] == w2[..p]
  }

  lemma RatioAtMostOne(x: real, y: real)
    requires 0.0 <= x <= y && y > 0.0
    ensures 0.0 <= x / y <= 1.0
  {
    assert x / y * y == x;
  }

  /** Stage 3: `min(0.9, shorter/longer + 0.2)`. */
  function ContainmentScore(w1: string, w2: string): (r: real)
    requires LongerLen(w1, w2) > 0
    ensures 0.2 <= r <= 0.9
  {
    var ratio := ShorterLen(w1, w2) as real / LongerLen(w1, w2) as real;
    RatioAtMostOne(ShorterLen(w1, w2) as real, LongerLen(w1, w2) as real);
    MinReal(0.9, ratio + 0.2)
  }

  /** Stage 4: `max(0.65, 0.5 + (prefix/longer) * 0.3)`. */
  function PrefixScore(w1: string, w2: string): (r: real)
    requires LongerLen(w1, w2) > 0
    ensures 0.65 <= r <= 0.8
  {
    var ratio := PrefixLen(w1, w2) as real / LongerLen(w1, w2) as real;
    RatioAtMostOne(PrefixLen(w1, w2) as real, LongerLen(w1, w2) as real);
    MaxReal(0.65, 0.5 + ratio * 0.3)
  }

  /** Stage 5: `1 - distance/longer`, raised to 0.6 for short words one edit apart. */
  function EditScore(w1: string, w2: string): (r: real)
    requires LongerLen(w1, w2) > 0
    ensures 0.0 <= r <= 1.0
    ensures r == 1.0 <==> w1 == w2
  {
    var n := LongerLen(w1, w2);
    var d := EditDistance.Distance(w1, w2);
    EditDistance.DistanceAtMostLonger(w1, w2);
    EditDistance.DistanceZero(w1, w2);
    RatioAtMostOne(d as real, n as real);
    assert d > 0 ==> d as real / n as real > 0.0;
    var s := 1.0 - d as real / n as real;
    if n <= 4 && d <= 1 then MaxReal(s, 0.6) else s
  }

  /**
   * The score cascade on two comparison forms: the first stage that applies
   * decides. (The source's `maxLen === 0` guard before the last stage cannot
   * fire once the exact-match stage has failed, so it is not repeated here.)
   */
  function Cascade(w1: string, w2: string): (r: real)
    ensures 0.0 <= r <= 1.0
    ensures r == 1.0 <==> w1 == w2
  {
    if w1 == w2 then 1.0
    else if StemsAgree(w1, w2) then 0.85
    else if Contains(w1, w2) || Contains(w2, w1) then ContainmentScore(w1, w2)
    else if PrefixesAgree(w1, w2) then PrefixScore(w1, w2)
    else if SoundsAlike(w1, w2) then 0.7
    else EditScore(w1, w2)
  }

  /** `calculateWordSimilarity`: the cascade on the lower-cased, trimmed words. */
  function WordSimilarity(word1: string, word2: string): (r: real)
    ensures 0.0 <= r <= 1.0
    ensures r == 1.0 <==> Normal(word1) == Normal(word2)
  {
    Cascade(Normal(word1), Normal(word2))
  }

  /** A word scorer, as the matching stages take it: `WordSimilarity` in the dashboard. */
  type Scorer = (string, string) -> real

  /** Every score lies in [0, 1]. */
  ghost predicate Bounded(score: Scorer) {
    forall a, b :: 0.0 <= score(a, b) <= 1.0
  }

  /** A word scores 1 against itself. */
  ghost predicate Reflexive(score: Scorer) {
    forall w :: score(w, w) == 1.0
  }

  /** `WordSimilarity` is a bounded, reflexive scorer. */
  lemma WordSimilarityScorer()
    ensures Bounded(WordSimilarity) && Reflexive(WordSimilarity)
  {
    forall a, b ensures 0.0 <= WordSimilarity(a, b) <= 1.0 {
    }
    forall w ensures WordSimilarity(w, w) == 1.0 {
    }
  }

  lemma EditScoreSymmetric(w1: string, w2: string)
    requires LongerLen(w1, w2) > 0
    ensures EditScore(w1, w2) == EditScore(w2, w1)
  {
    EditDistance.DistanceSymmetric(w1, w2);
  }

  /** Each stage's test and score is symmetric in the two words. */
  lemma StagesSymmetric(w1: string, w2: string)
    ensures StemsAgree(w1, w2) == StemsAgree(w2, w1)
    ensures PrefixesAgree(w1, w2) == PrefixesAgree(w2, w1)
    ensures SoundsAlike(w1, w2) == SoundsAlike(w2, w1)
    ensures LongerLen(w1, w2) > 0 ==>
      && ContainmentScore(w1, w2) == ContainmentScore(w2, w1)
      && PrefixScore(w1, w2) == PrefixScore(w2, w1)
      && EditScore(w1, w2) == EditScore(w2, w1)
  {
    PrefixesSymmetric(w1, w2);
    if LongerLen(w1, w2) > 0 {
      ScoresSymmetric(w1, w2);
    }
  }

  lemma PrefixesSymmetric(w1: string, w2: string)
    ensures PrefixesAgree(w1, w2) == PrefixesAgree(w2, w1)
  {
  }

  lemma ScoresSymmetric(w1: string, w2: string)
    requires LongerLen(w1, w2) > 0
    ensures ContainmentScore(w1, w2) == ContainmentScore(w2, w1)
    ensures PrefixScore(w1, w2) == PrefixScore(w2, w1)
    ensures EditScore(w1, w2) == EditScore(w2, w1)
  {
    EditDistance.DistanceSymmetric(w1, w2);
  }

  lemma CascadeSymmetric(w1: string, w2: string)
    ensures Cascade(w1, w2) == Cascade(w2, w1)
  {
    StagesSymmetric(w1, w2);
  }

  /** Neither word's order matters: every stage, and the table lookup, is symmetric. */
  lemma WordSimilaritySymmetric(a: string, b: string)
    ensures WordSimilarity(a, b) == WordSimilarity(b, a)
  {
    CascadeSymmetric(Normal(a), Normal(b));
  }

  /** On comparison forms `w1`, `w2`, the cascade falls through stages 1-4 and reaches the sound-alike lookup. */
  predicate ReachesSoundAlike(w1: string, w2: string) {
    w1 != w2 && !StemsAgree(w1, w2) && !Contains(w1, w2) && !Contains(w2, w1) && !PrefixesAgree(w1, w2)
  }

  /**
   * The cascade as written, with the lookup on the object literal: `None`
   * when the lookup throws. Whenever it yields a score, that score is the
   * cascade's.
   */
  function CascadeAsWritten(w1: string, w2: string): (r: Option<real>)
    ensures r.Some? ==> r.value == Cascade(w1, w2)
    ensures r.None? <==> ReachesSoundAlike(w1, w2) && SoundsAlikeAsWritten(w1, w2).None?
  {
    if w1 == w2 then Some(1.0)
    else if StemsAgree(w1, w2) then Some(0.85)
    else if Contains(w1, w2) || Contains(w2, w1) then Some(ContainmentScore(w1, w2))
    else if PrefixesAgree(w1, w2) then Some(PrefixScore(w1, w2))
    else
      match SoundsAlikeAsWritten(w1, w2)
      case None => None
      case Some(alike) => Some(if alike then 0.7 else EditScore(w1, w2))
  }

  /** `calculateWordSimilarity` as written: the cascade on the comparison forms, `None` when it throws. */
  function WordSimilarityAsWritten(word1: string, word2: string): (r: Option<real>)
    ensures r.Some? ==> r.value == WordSimilarity(word1, word2)
    ensures Normal(word1) !in InheritedKeys && Normal(word2) !in InheritedKeys ==> r == Some(WordSimilarity(word1, word2))
  {
    CascadeAsWritten(Normal(word1), Normal(word2))
  }

  /**
   * The script word "constructor" against the spoken "the" reaches the lookup,
   * and `soundAlike["constructor"]` is the inherited `Object` function, whose
   * missing `includes` makes the source throw instead of scoring.
   */
  lemma ConstructorThrows()
    ensures WordSimilarityAsWritten("constructor", "the") == None
  {
    NormalConstructor();
    NormalThe();
    assert ReachesSoundAlike("constructor", "the") by {
      ConstructorFallsThrough();
      assert |"constructor"| != |"the"|;
    }
    assert SoundsAlikeAsWritten("constructor", "the") == None by {
      ConstructorInherited();
    }
  }

  /** `soundAlike["constructor"]` is not one of the table's own entries but the inherited member. */
  lemma ConstructorInherited()
    ensures LookupAsWritten("constructor") == Inherited
  {
    assert forall k :: k in SoundAlikeTable ==> |k| <= 3;
    assert "constructor" in InheritedKeys;
  }

  lemma NormalConstructor()
    ensures Normal("constructor") == "constructor"
  {
    assert HasNoUpper("constructor") && Trimmed("constructor");
  }

  lemma NormalThe()
    ensures Normal("the") == "the"
  {
    assert HasNoUpper("the") && Trimmed("the");
  }

  /** The two words fail the exact, stem, containment and prefix stages. */
  lemma ConstructorFallsThrough()
    ensures !StemsAgree("constructor", "the")
    ensures !Contains("constructor", "the") && !Contains("the", "constructor")
    ensures !PrefixesAgree("constructor", "the")
  {
    ConstructorLacksThe();
    assert "constructor"[..3][0] == 'c';
  }

  lemma ConstructorLacksThe()
    ensures !Contains("constructor", "the")
  {
    var w1 := "constructor";
    assert 'h' !in w1;
    forall i | 0 <= i <= |w1|
      ensures !SliceAt("the", w1, i)
    {
      if i + 3 <= |w1| {
        assert w1[i..i + 3][1] == w1[i + 1];
      }
    }
  }

  // ---------------------------------------------------------------------------
  // Sentence similarity
  // ---------------------------------------------------------------------------

  /** Words below this best similarity do not count as matched. */
  const WordMatchThreshold: real := 0.3

  /**
   * Lower-cased, punctuation turned into spaces, split on white space: the
   * tokens have no white space, capitals or punctuation, and glued together
   * they are the sentence's letters lower-cased, with its punctuation and
   * white space gone.
   */
  function SentenceTokens(s: string): (ts: seq<string>)
    ensures forall i :: 0 <= i < |ts| ==> |ts[i]| > 0 && NoSpace(ts[i]) && HasNoUpper(ts[i]) && NoPunct(ts[i])
    ensures Concat(ts) == Squeeze(StripPunct(Lower(s)))
  {
    var l := Lower(s);
    var p := PunctToSpace(l);
    var ts := Tokens(p);
    assert HasNoUpper(p);
    TokenClasses(ts, p);
    TokensKeepText(p);
    SqueezePunctToSpace(l);
    ts
  }

  /**
   * The inner loop's `bestSimilarity`: starting from 0, raised to each
   * score of `w` against `ws` in turn; so the highest score, or 0.
   */
  function BestScore(score: Scorer, w: string, ws: seq<string>): (r: real)
    ensures 0.0 <= r
    ensures forall i :: 0 <= i < |ws| ==> score(w, ws[i]) <= r
    ensures r == 0.0 || exists i :: 0 <= i < |ws| && score(w, ws[i]) == r
    decreases |ws|
  {
    if |ws| == 0 then 0.0
    else
      var front := ws[..|ws| - 1];
      var best := BestScore(score, w, front);
      assert forall i :: 0 <= i < |front| ==> front[i] == ws[i];
      MaxReal(best, score(w, ws[|ws| - 1]))
  }

  /** `bestSimilarity` under `calculateWordSimilarity`. */
  function BestSimilarity(w: string, ws: seq<string>): (r: real)
    ensures 0.0 <= r <= 1.0
    ensures forall i :: 0 <= i < |ws| ==> WordSimilarity(w, ws[i]) <= r
    ensures r == 0.0 || exists i :: 0 <= i < |ws| && WordSimilarity(w, ws[i]) == r
  {
    WordSimilarityScorer();
    BestScore(WordSimilarity, w, ws)
  }

  predicate Matched(w: string, ws: seq<string>) {
    BestSimilarity(w, ws) >= WordMatchThreshold
  }

  /** `matchedWords`: how many of `ws1` have a best match of at least 0.3 in `ws2`. */
  function MatchedCount(ws1: seq<string>, ws2: seq<string>): (n: nat)
    ensures n <= |ws1|
    decreases |ws1|
  {
    if |ws1| == 0 then 0
    else MatchedCount(ws1[..|ws1| - 1], ws2) + (if Matched(ws1[|ws1| - 1], ws2) then 1 else 0)
  }

  /** `totalSimilarity`: the best scores of the matched words, summed. */
  function MatchedTotal(ws1: seq<string>, ws2: seq<string>): (t: real)
    ensures WordMatchThreshold * MatchedCount(ws1, ws2) as real <= t <= MatchedCount(ws1, ws2) as real
    decreases |ws1|
  {
    if |ws1| == 0 then 0.0
    else
      var w := ws1[|ws1| - 1];
      MatchedTotal(ws1[..|ws1| - 1], ws2) + (if Matched(w, ws2) then BestSimilarity(w, ws2) else 0.0)
  }

  lemma ProductAtMostOne(x: real, y: real)
    requires 0.0 <= x <= 1.0 && 0.0 <= y <= 1.0
    ensures 0.0 <= x * y <= 1.0
  {
    MulNonNeg(x, y);
    MulNonNeg(1.0 - x, y);
    assert y - x * y == (1.0 - x) * y;
  }

  lemma MulNonNeg(a: real, b: real)
    requires 0.0 <= a && 0.0 <= b
    ensures 0.0 <= a * b
  {
  }

  /** `(total / n) * (matched / n)`: the mean matched score times the share of words matched. */
  function Weighted(total: real, m: nat, n: nat): (r: real)
    requires 0.0 <= total <= m as real && m <= n && n > 0
    ensures 0.0 <= r <= 1.0
    ensures total == n as real && m == n ==> r == 1.0
  {
    var k := n as real;
    RatioAtMostOne(total, k);
    RatioAtMostOne(m as real, k);
    ProductAtMostOne(total / k, m as real / k);
    DivSelf(k);
    (total / k) * (m as real / k)
  }

  lemma DivSelf(k: real)
    requires k > 0.0
    ensures k / k == 1.0
  {
  }

  /** The sentence score on two token lists. */
  function TokenSimilarity(t1: seq<string>, t2: seq<string>): (r: real)
    ensures |t1| == 0 || |t2| == 0 ==> r == 0.0
    ensures 0.0 <= r <= 1.0
  {
    if |t1| == 0 || |t2| == 0 then 0.0
    else
      var m := MatchedCount(t1, t2);
      if m == 0 then 0.0 else Weighted(MatchedTotal(t1, t2), m, |t1|)
  }

  /** `calculateSentenceSimilarity`: mean best score of the matched words, weighted by the share matched. */
  function SentenceSimilarity(s1: string, s2: string): (r: real)
    ensures |SentenceTokens(s1)| == 0 || |SentenceTokens(s2)| == 0 ==> r == 0.0
    ensures 0.0 <= r <= 1.0
  {
    TokenSimilarity(SentenceTokens(s1), SentenceTokens(s2))
  }

  /** A word present among `ws` has best similarity 1. */
  lemma BestOfPresent(w: string, ws: seq<string>)
    requires w in ws
    ensures BestSimilarity(w, ws) == 1.0
  {
    var i :| 0 <= i < |ws| && ws[i] == w;
    assert WordSimilarity(w, ws[i]) == 1.0;
  }

  lemma {:induction false} AllPresentCounted(ws1: seq<string>, ws2: seq<string>)
    requires forall i :: 0 <= i < |ws1| ==> ws1[i] in ws2
    ensures MatchedCount(ws1, ws2) == |ws1|
    ensures MatchedTotal(ws1, ws2) == |ws1| as real
    decreases |ws1|
  {
    if |ws1| > 0 {
      AllPresentCounted(ws1[..|ws1| - 1], ws2);
      BestOfPresent(ws1[|ws1| - 1], ws2);
    }
  }

  /** When every word of the first sentence appears in the second, the score is exactly 1. */
  lemma SentenceSimilarityFullCover(s1: string, s2: string)
    requires |SentenceTokens(s1)| > 0
    requires forall i :: 0 <= i < |SentenceTokens(s1)| ==> SentenceTokens(s1)[i] in SentenceTokens(s2)
    ensures SentenceSimilarity(s1, s2) == 1.0
  {
    var t1 := SentenceTokens(s1);
    var t2 := SentenceTokens(s2);
    AllPresentCounted(t1, t2);
    assert t1[0] in t2;
    assert |t2| > 0;
  }

  lemma {:induction false} NoneMatchedCounted(ws1: seq<string>, ws2: seq<string>)
    requires forall i :: 0 <= i < |ws1| ==> !Matched(ws1[i], ws2)
    ensures MatchedCount(ws1, ws2) == 0
    decreases |ws1|
  {
    if |ws1| > 0 {
      NoneMatchedCounted(ws1[..|ws1| - 1], ws2);
    }
  }

  /** Words whose best match stays under 0.3 contribute nothing: if none reaches it, the score is 0. */
  lemma SentenceSimilarityWeakWords(s1: string, s2: string)
    requires forall i :: 0 <= i < |SentenceTokens(s1)| ==> BestSimilarity(SentenceTokens(s1)[i], SentenceTokens(s2)) < WordMatchThreshold
    ensures SentenceSimilarity(s1, s2) == 0.0
  {
    NoneMatchedCounted(SentenceTokens(s1), SentenceTokens(s2));
  }
}

=== FILE: text.dfy ===
/**
 * The string primitives the teleprompter leans on, with JavaScript's meaning:
 * the `\s` white-space class, `trim`, `toLowerCase` (on ASCII letters),
 * whitespace tokenisation, the matcher's punctuation class, and
 * `split`/`join` on a single separator character.
 */
module Text {

  /** The characters JavaScript's `\s` class and `String.prototype.trim` treat as white space. */
  predicate IsSpace(c: char) {
    || c == ' ' || c == '\t' || c == '\n' || c == '\r' || c == '\U{B}' || c == '\U{C}'
    || c == '\U{A0}' || c == '\U{1680}' || ('\U{2000}' <= c <= '\U{200A}')
    || c == '\U{2028}' || c == '\U{2029}' || c == '\U{202F}' || c == '\U{205F}'
    || c == '\U{3000}' || c == '\U{FEFF}'
  }

  /** Empty, or white space only: what `!s.trim()` accepts. */
  predicate IsBlank(s: string) {
    forall i :: 0 <= i < |s| ==> IsSpace(s[i])
  }

  predicate NoSpace(s: string) {
    forall i :: 0 <= i < |s| ==> !IsSpace(s[i])
  }

  /** No white space at either end. */
  predicate Trimmed(s: string) {
    |s| == 0 || (!IsSpace(s[0]) && !IsSpace(s[|s| - 1]))
  }

  predicate IsUpper(c: char) {
    'A' <= c <= 'Z'
  }

  predicate HasNoUpper(s: string) {
    forall i :: 0 <= i < |s| ==> !IsUpper(s[i])
  }

  function LowerChar(c: char): char {
    if IsUpper(c) then (c as int + 32) as char else c
  }

  /**
   * `toLowerCase`, on the ASCII letters: no capital is left, each capital
   * becomes the small letter at the same place in the alphabet, and every
   * other character stays where it was.
   */
  function Lower(s: string): (r: string)
    ensures |r| == |s| && HasNoUpper(r)
    ensures forall i :: 0 <= i < |s| && !IsUpper(s[i]) ==> r[i] == s[i]
    ensures forall i :: 0 <= i < |s| && IsUpper(s[i]) ==>
      'a' <= r[i] <= 'z' && r[i] as int - 'a' as int == s[i] as int - 'A' as int
  {
    seq(|s|, i requires 0 <= i < |s| => LowerChar(s[i]))
  }

  lemma LowerNoop(s: string)
    requires HasNoUpper(s)
    ensures Lower(s) == s
  {
  }

  /** Lower-casing twice is lower-casing once. */
  lemma LowerIdempotent(s: string)
    ensures Lower(Lower(s)) == Lower(s)
  {
    LowerNoop(Lower(s));
  }

  /** Lower-casing works character by character, so it distributes over concatenation. */
  lemma LowerAppend(a: string, b: string)
    ensures Lower(a + b) == Lower(a) + Lower(b)
  {
    var l, r := Lower(a + b), Lower(a) + Lower(b);
    forall i | 0 <= i < |l|
      ensures l[i] == r[i]
    {
      if i < |a| {
        assert (a + b)[i] == a[i];
      } else {
        assert (a + b)[i] == b[i - |a|];
      }
    }
  }

  /** Drops the white space at the front of `s`. */
  function TrimStart(s: string): (r: string)
    ensures |r| <= |s| && r == s[|s| - |r|..]
    ensures IsBlank(s[..|s| - |r|])
    ensures |r| > 0 ==> !IsSpace(r[0])
    decreases |s|
  {
    if |s| > 0 && IsSpace(s[0]) then
      var r := TrimStart(s[1..]);
      assert s[1..][..|s[1..]| - |r|] == s[1..|s| - |r|];
      r
    else s
  }

  /** Drops the white space at the end of `s`. */
  function TrimEnd(s: string): (r: string)
    ensures |r| <= |s| && r == s[..|r|]
    ensures IsBlank(s[|r|..])
    ensures |r| > 0 ==> !IsSpace(r[|r| - 1])
    decreases |s|
  {
    if |s| > 0 && IsSpace(s[|s| - 1]) then
      var r := TrimEnd(s[..|s| - 1]);
      assert s[..|s| - 1][|r|..] == s[|r|..|s| - 1];
      r
    else s
  }

  /** `r` occurs in `s` at offset `i`. */
  predicate SliceAt(r: string, s: string, i: nat) {
    i + |r| <= |s| && r == s[i..i + |r|]
  }

  /**
   * `String.prototype.trim`: the part of `s` between a blank head and a
   * blank tail, with no white space at either end of its own.
   */
  function Trim(s: string): (r: string)
    ensures Trimmed(r)
    ensures SliceAt(r, s, |s| - |TrimStart(s)|)
    ensures var k := |s| - |TrimStart(s)|; IsBlank(s[..k]) && IsBlank(s[k + |r|..])
    ensures IsBlank(s) <==> r == []
  {
    var a := TrimStart(s);
    var r := TrimEnd(a);
    TrimSlice(s, a, r);
    TrimEmpty(s, a, r);
    TrimTail(s, a, r);
    r
  }

  lemma TrimSlice(s: string, a: string, r: string)
    requires |a| <= |s| && a == s[|s| - |a|..]
    requires |r| <= |a| && r == a[..|r|]
    ensures SliceAt(r, s, |s| - |a|)
  {
    assert a[..|r|] == s[|s| - |a|..|s| - |a| + |r|];
  }

  lemma TrimTail(s: string, a: string, r: string)
    requires |a| <= |s| && a == s[|s| - |a|..]
    requires |r| <= |a| && IsBlank(a[|r|..])
    ensures IsBlank(s[|s| - |a| + |r|..])
  {
    assert s[|s| - |a| + |r|..] == a[|r|..];
  }

  lemma TrimEmpty(s: string, a: string, r: string)
    requires a == TrimStart(s) && r == TrimEnd(a)
    ensures IsBlank(s) <==> r == []
  {
    if r == [] {
      assert a[|r|..] == a;
      assert |a| == 0;
      assert s[..|s|] == s;
    }
  }

  /** Every character of the trimmed text is a character of `s`. */
  lemma TrimFrom(s: string)
    ensures forall i :: 0 <= i < |Trim(s)| ==> Trim(s)[i] in s
  {
    var r, k := Trim(s), |s| - |TrimStart(s)|;
    assert SliceAt(r, s, k);
    forall i | 0 <= i < |r|
      ensures r[i] in s
    {
      assert r[i] == s[k + i];
    }
  }

  /** Trimming only cuts `s` down, so it adds no capital and no punctuation. */
  lemma TrimKeepsClasses(s: string)
    ensures HasNoUpper(s) ==> HasNoUpper(Trim(s))
    ensures NoPunct(s) ==> NoPunct(Trim(s))
  {
    TrimFrom(s);
  }

  lemma TrimNoop(s: string)
    requires Trimmed(s)
    ensures Trim(s) == s
  {
  }

  /** Length of the run of non-space characters at the front of `s`. */
  function WordLen(s: string): (n: nat)
    ensures n <= |s|
    ensures NoSpace(s[..n])
    ensures n < |s| ==> IsSpace(s[n])
    ensures |s| > 0 && !IsSpace(s[0]) ==> n > 0
    decreases |s|
  {
    if |s| == 0 || IsSpace(s[0]) then 0 else 1 + WordLen(s[1..])
  }

  /**
   * `s.match(/\S+/g) || []`, which is also `s.split(/\s+/).filter(w => w.length > 0)`:
   * the maximal runs of non-space characters, in order.
   */
  function Tokens(s: string): (ts: seq<string>)
    ensures forall i :: 0 <= i < |ts| ==> |ts[i]| > 0 && NoSpace(ts[i])
    ensures |ts| == 0 <==> IsBlank(s)
    ensures |s| > 0 && NoSpace(s) ==> ts == [s]
    ensures forall i, j :: 0 <= i < |ts| && 0 <= j < |ts[i]| ==> ts[i][j] in s
    decreases |s|
  {
    if |s| == 0 then []
    else if IsSpace(s[0]) then
      var ts := Tokens(s[1..]);
      assert IsBlank(s[1..]) ==> IsBlank(s);
      assert forall c :: c in s[1..] ==> c in s;
      ts
    else
      var n := WordLen(s);
      assert NoSpace(s) ==> n == |s| && s[..n] == s && s[n..] == [];
      assert forall c :: c in s[..n] ==> c in s;
      assert forall c :: c in s[n..] ==> c in s;
      [s[..n]] + Tokens(s[n..])
  }

  /** The word at the front of `a` ends before a white-space character that follows `a`. */
  lemma {:induction false} WordLenBeforeSpace(a: string, t: string)
    requires |t| > 0 && IsSpace(t[0])
    ensures WordLen(a + t) == WordLen(a)
    decreases |a|
  {
    if |a| == 0 {
      assert a + t == t;
    } else {
      assert (a + t)[1..] == a[1..] + t;
      WordLenBeforeSpace(a[1..], t);
    }
  }

  /** No token spans a white-space character: tokenising splits at every one of them. */
  lemma {:induction false} TokensAtSpace(a: string, c: char, b: string)
    requires IsSpace(c)
    ensures Tokens(a + [c] + b) == Tokens(a) + Tokens(b)
    decreases |a|
  {
    var t := [c] + b;
    assert a + [c] + b == a + t;
    if |a| == 0 {
      assert a + t == t && t[1..] == b;
    } else if IsSpace(a[0]) {
      assert (a + t)[1..] == a[1..] + [c] + b;
      TokensAtSpace(a[1..], c, b);
    } else {
      var n := WordLen(a);
      WordLenBeforeSpace(a, t);
      assert (a + t)[..n] == a[..n];
      assert (a + t)[n..] == a[n..] + [c] + b;
      TokensAtSpace(a[n..], c, b);
    }
  }

  function Concat(ss: seq<string>): string
    decreases |ss|
  {
    if |ss| == 0 then "" else ss[0] + Concat(ss[1..])
  }

  /** `s` with every white-space character removed. */
  function Squeeze(s: string): (r: string)
    ensures NoSpace(r)
    decreases |s|
  {
    if |s| == 0 then ""
    else if IsSpace(s[0]) then Squeeze(s[1..])
    else [s[0]] + Squeeze(s[1..])
  }

  lemma {:induction false} SqueezeAppend(a: string, b: string)
    ensures Squeeze(a + b) == Squeeze(a) + Squeeze(b)
    decreases |a|
  {
    if |a| == 0 {
      assert a + b == b;
    } else {
      assert (a + b)[1..] == a[1..] + b;
      SqueezeAppend(a[1..], b);
    }
  }

  lemma SqueezeSplit(s: string, k: nat)
    requires k <= |s|
    ensures Squeeze(s) == Squeeze(s[..k]) + Squeeze(s[k..])
  {
    assert s == s[..k] + s[k..];
    SqueezeAppend(s[..k], s[k..]);
  }

  lemma {:induction false} SqueezeBlank(s: string)
    requires IsBlank(s)
    ensures Squeeze(s) == ""
    decreases |s|
  {
    if |s| > 0 {
      SqueezeBlank(s[1..]);
    }
  }

  lemma {:induction false} SqueezeNoSpace(a: string)
    requires NoSpace(a)
    ensures Squeeze(a) == a
    decreases |a|
  {
    if |a| > 0 {
      SqueezeNoSpace(a[1..]);
    }
  }

  /** Tokenising loses nothing but white space: the tokens, glued together, are `s` without its spaces. */
  lemma {:induction false} TokensKeepText(s: string)
    ensures Concat(Tokens(s)) == Squeeze(s)
    decreases |s|
  {
    if |s| == 0 {
    } else if IsSpace(s[0]) {
      TokensKeepText(s[1..]);
    } else {
      var n := WordLen(s);
      TokensKeepText(s[n..]);
      assert s == s[..n] + s[n..];
      SqueezeAppend(s[..n], s[n..]);
      SqueezeNoSpace(s[..n]);
      assert Tokens(s)[1..] == Tokens(s[n..]);
    }
  }

  /** The punctuation class `[.,/#!$%^&*;:{}=\-_`~()\[\]"]` the matcher erases. */
  predicate IsPunct(c: char) {
    c in ".,/#!$%^&*;:{}=-_`~()[]\""
  }

  predicate NoPunct(s: string) {
    forall i :: 0 <= i < |s| ==> !IsPunct(s[i])
  }

  predicate AllPunct(s: string) {
    forall i :: 0 <= i < |s| ==> IsPunct(s[i])
  }

  /**
   * `replace(<punctuation class>, ' ')` on every occurrence: no punctuation
   * survives, each mark becomes a space, and every other character stays in
   * place.
   */
  function PunctToSpace(s: string): (r: string)
    ensures |r| == |s| && NoPunct(r)
    ensures forall i :: 0 <= i < |s| && !IsPunct(s[i]) ==> r[i] == s[i]
    ensures forall i :: 0 <= i < |s| && IsPunct(s[i]) ==> r[i] == ' '
    ensures NoPunct(s) ==> r == s
  {
    seq(|s|, i requires 0 <= i < |s| => if IsPunct(s[i]) then ' ' else s[i])
  }

  /** Replacing punctuation works character by character, so it distributes over concatenation. */
  lemma PunctToSpaceAppend(a: string, b: string)
    ensures PunctToSpace(a + b) == PunctToSpace(a) + PunctToSpace(b)
  {
    var l, r := PunctToSpace(a + b), PunctToSpace(a) + PunctToSpace(b);
    forall i | 0 <= i < |l|
      ensures l[i] == r[i]
    {
      if i < |a| {
        assert (a + b)[i] == a[i];
      } else {
        assert (a + b)[i] == b[i - |a|];
      }
    }
  }

  /** White space is never punctuation. */
  lemma BlankNoPunct(s: string)
    requires IsBlank(s)
    ensures NoPunct(s)
  {
    forall i | 0 <= i < |s|
      ensures !IsPunct(s[i])
    {
      assert IsSpace(s[i]);
    }
  }

  /** Trimming before erasing punctuation changes nothing once white space is ignored. */
  lemma SqueezeStripTrim(s: string)
    ensures Squeeze(StripPunct(Trim(s))) == Squeeze(StripPunct(s))
  {
    var r, k := Trim(s), |s| - |TrimStart(s)|;
    ThreeParts(s, k, k + |r|);
    SqueezeStripBlankEnds(s[..k], r, s[k + |r|..]);
  }

  lemma ThreeParts(s: string, i: nat, j: nat)
    requires i <= j <= |s|
    ensures s == s[..i] + s[i..j] + s[j..]
  {
  }

  /** White space around `r` leaves nothing once punctuation is erased and white space ignored. */
  lemma SqueezeStripBlankEnds(pre: string, r: string, post: string)
    requires IsBlank(pre) && IsBlank(post)
    ensures Squeeze(StripPunct(pre + r + post)) == Squeeze(StripPunct(r))
  {
    StripPunctAppend(pre + r, post);
    StripPunctAppend(pre, r);
    BlankNoPunct(pre);
    BlankNoPunct(post);
    SqueezeAppend(pre + StripPunct(r), post);
    SqueezeAppend(pre, StripPunct(r));
    SqueezeBlank(pre);
    SqueezeBlank(post);
  }

  /** Tokens are cut from `s`, so they have no capital or punctuation that `s` lacks. */
  lemma TokenClasses(ts: seq<string>, s: string)
    requires ts == Tokens(s)
    ensures HasNoUpper(s) ==> forall i :: 0 <= i < |ts| ==> HasNoUpper(ts[i])
    ensures NoPunct(s) ==> forall i :: 0 <= i < |ts| ==> NoPunct(ts[i])
  {
    forall i, j | 0 <= i < |ts| && 0 <= j < |ts[i]|
      ensures ts[i][j] in s
    {
    }
  }

  /** Once white space is ignored, turning punctuation into spaces and erasing it leave the same text. */
  lemma {:induction false} SqueezePunctToSpace(s: string)
    ensures Squeeze(PunctToSpace(s)) == Squeeze(StripPunct(s))
    decreases |s|
  {
    if |s| > 0 {
      var p := PunctToSpace(s);
      assert p[1..] == PunctToSpace(s[1..]);
      SqueezePunctToSpace(s[1..]);
    }
  }

  /**
   * `replace(<punctuation class>, '')` on every occurrence: what is left has
   * no punctuation and consists of characters of `s`; text without
   * punctuation is kept whole and text of punctuation only vanishes.
   */
  function StripPunct(s: string): (r: string)
    ensures |r| <= |s| && NoPunct(r)
    ensures forall i :: 0 <= i < |r| ==> r[i] in s
    ensures NoPunct(s) ==> r == s
    ensures AllPunct(s) ==> r == ""
    decreases |s|
  {
    if |s| == 0 then ""
    else if IsPunct(s[0]) then StripPunct(s[1..])
    else [s[0]] + StripPunct(s[1..])
  }

  /** Erasing punctuation works character by character, so it distributes over concatenation. */
  lemma {:induction false} StripPunctAppend(a: string, b: string)
    ensures StripPunct(a + b) == StripPunct(a) + StripPunct(b)
    decreases |a|
  {
    if |a| == 0 {
      assert a + b == b;
    } else {
      assert (a + b)[1..] == a[1..] + b;
      StripPunctAppend(a[1..], b);
    }
  }

  /** `s.split(sep)` for a one-character separator string. */
  function Split(s: string, sep: char): (parts: seq<string>)
    ensures |parts| >= 1
    ensures forall i :: 0 <= i < |parts| ==> sep !in parts[i]
    ensures |parts| == 1 <==> sep !in s
    decreases |s|
  {
    if |s| == 0 then [""]
    else
      var rest := Split(s[1..], sep);
      if s[0] == sep then [""] + rest
      else
        assert sep in s[1..] ==> sep in s;
        assert sep in s ==> sep in s[1..] by {
          if sep in s {
            var k :| 0 <= k < |s| && s[k] == sep;
            assert s[1..][k - 1] == sep;
          }
        }
        [[s[0]] + rest[0]] + rest[1..]
  }

  /** `parts.join(sep)`. */
  function Join(parts: seq<string>, sep: char): string
    decreases |parts|
  {
    if |parts| == 0 then ""
    else if |parts| == 1 then parts[0]
    else parts[0] + [sep] + Join(parts[1..], sep)
  }

  /** Splitting and joining again on the same separator gives back the text. */
  lemma {:induction false} JoinSplit(s: string, sep: char)
    ensures Join(Split(s, sep), sep) == s
    decreases |s|
  {
    if |s| > 0 {
      var rest := Split(s[1..], sep);
      JoinSplit(s[1..], sep);
      if s[0] == sep {
        assert ([""] + rest)[1..] == rest;
      } else if |rest| == 1 {
      } else {
        var parts := [[s[0]] + rest[0]] + rest[1..];
        assert parts[1..] == rest[1..];
      }
    }
  }
}
